=== FILE: README.md ===
# better-solitaire, modelled in Dafny

better-solitaire analyses a Klondike layout: 52 cards (4 suits × 13 ranks) on 13 named piles.
The piles are Draw, Discard, the seven tableau ("Center") piles 1–7, and the four foundations
("Win") WinS, WinH, WinC and WinD. A turn looks for the moves that free the critical cards, meaning
face-up tableau cards that lie on a face-down card or on an empty space. It does so with a memoised
depth-first search over the 52 identities, then assembles chains of moves that end by moving a
critical card. The repository holds two drafts of the same design: a TypeScript one (`src/`) and
an earlier Python one (the `.py` files at the top level). Both are modelled.

Files and modules:

- `wrappers.dfy` (`Wrappers`): `Option`, used for Python exceptions (`None` = the exception) and
  for absent values.
- `numerals.dfy` (`Numerals`): decimal numerals, `parseInt`/`isNaN` and array-index property
  keys as JavaScript sees them, `str.isdigit` on ASCII digits, `startsWith`, `join` and `split`.
- `suits.dfy` (`CardSuits`), `ranks.dfy` (`CardRanks`): the suit and rank tables of both drafts.
  A `CatalogSuit` or `CatalogRank` is a member of its table.
- `stacks.dfy` (`Stacks`): pile identities and their names, the pile kind derived from a name,
  and the property order of the board object.
- `cards.dfy` (`Cards`): the TypeScript `Card` class, with its ids and targeting predicates.
- `boards.dfy` (`Boards`): the TypeScript board, a class over `map<PileId, seq<Card>>` with its
  property order; `Flatten` is `Object.values(board)` concatenated.
- `moves.dfy` (`Moves`): the TypeScript `Move` class and `makeMove` with its two halves.
- `turns.dfy` (`Turns`): the TypeScript `Turn` resolver.
- `games.dfy` (`Games`): the TypeScript `Game` (board creation, card creation, dealing, the
  turn loop's answer) and `printBoard`.
- `py_lists.dfy` (`PyLists`): the Python list operations the draft uses, meaning negative indices,
  clamped slices, `index` and `filter`.
- `py_cards.dfy` (`PyCards`): the Python `Card` and `Pile`, which refer to each other.
- `py_moves.dfy` (`PyMoves`): the Python `Move`, `MoveNode` and the linked `MoveChain`.
- `py_turns.dfy` (`PyTurns`): the Python board shape, `get_piles` and the Python `Turn`.
- `py_games.dfy` (`PyGames`): the Python `new_board`, `create_cards` and `Game`.

Objects whose fields the source updates in place are Dafny classes: cards, piles, moves, move
nodes and chains, turns, games and the TypeScript board. Their methods carry `modifies` clauses and
state the whole new state. The identities, the suit and rank tables and pile names are values.

A JavaScript exception (reading a property of `undefined`) is the out-parameter `threw`. A Python
exception is `None` or `Raised`. The TypeScript `Stack` value is modelled as it exists at run
time: `Str(pile)` for a property name, or `Num(n)` for the numbers `dealCards` stores. The board
is indexed through JavaScript's property-key coercion, so `board[3]` and `board['3']` are the same
pile. Strict comparison `===` still tells `3` and `'3'` apart.

Every search method of the TypeScript `Turn` states when it may throw: only when some card of the
turn is one at which `getMovesForCard` reads a property of `undefined` (`Turns.Turn.Throws`). Such a
card is blocked with no card on top of it in the pile it records, or is not an Ace and has no win
target. The moves found for a card are also *decided* by what the probes answered
(`Turns.Turn.Decided`):
- A Win move is found exactly when the card is free and its win target lies on the foundation or
  has Win moves.
- A card below a King aims at a center target exactly when that target is an uncovered Center
  card or has Center moves.
- A King reaches another Center pile exactly when that pile is empty or its bottom card has moves.

## Model

| member | source | states |
|---|---|---|
| Numerals.DigitValue | src/Card/index.ts:52 | a decimal digit character reads back as the digit that spells it |
| Numerals.NatToString | src/Card/index.ts:52 | `toString()` of a number is a non-empty digit string with no leading zero |
| Numerals.NatToStringRoundTrip | rank.py:5 | reading the decimal numeral of `n` gives back `n` |
| Numerals.NatToStringInjective | rank.py:5 | distinct values have distinct numerals, so a rank key determines the value |
| Numerals.TrimStart | src/Turn/index.ts:9 | `parseInt`'s leading white-space skip (every ECMAScript white space and line terminator, Unicode ones included) leaves a string that is empty or starts with a non-space |
| Numerals.Split | src/index.ts:76 | `split` always yields at least one part |
| Numerals.SplitNoSeparator | src/index.ts:76 | a string without the separator splits into itself |
| Numerals.SplitAppend | src/index.ts:76 | splitting `a + sep + b` yields `a` followed by the parts of `b` when `a` has no separator |
| Numerals.SplitJoin | src/index.ts:76 | `join` with a separator that occurs in no part is undone by `split` |
| CardSuits.Initial | src/Card/index.ts:150-153 | a suit's initial is the letter of "SHCD" at its index |
| CardSuits.SuitTable | src/Card/index.ts:38-43 | four suits Spades, Hearts, Clubs, Diamonds with indices 0..3, coloured Black, Red, Black, Red, and the colour values of suit.py:9-11 (0 and 1) |
| CardSuits.SuitAtIndex | suit.py:36-41 | `suits[s.index] == s` for every suit of the table |
| CardSuits.SuitIndexInjective | suit.py:36-41 | two suits of the table are equal exactly when their indices are |
| CardSuits.SuitOfInitialInverts | src/Card/index.ts:153 | the initial identifies the suit (it reads back as the same suit) |
| CardSuits.ColorByParity | src/Card/index.ts:38-43 | two suits differ in colour exactly when their indices differ in parity |
| CardRanks.TsRank | src/Card/index.ts:49-53 | `strValue` is the name's first letter for 1 and 11–13 and the decimal numeral for 2–10; name and value are the arguments |
| CardRanks.PyRank | rank.py:2-5 | `key` is the given key, or the decimal string of the value when none (or an empty one) is given |
| CardRanks.RankTable | src/Card/index.ts:79-93 | thirteen ranks with values 1..13 in order, codes A, 2–10, J, Q, K, and only Jack, Queen and King are face ranks |
| CardRanks.RankTablesAgree | rank.py:29-43 | the Python table (keys A, J, Q, K and numerals, face ranks Jack–King) is the TypeScript table |
| CardRanks.RankAtValue | rank.py:29-43 | `ranks[r.value - 1] == r`, with `r.value` in 1..13 |
| CardRanks.RankValueInjective | src/Card/index.ts:79-93 | two ranks of the table are equal exactly when their values are |
| CardRanks.RankOfCodeInverts | src/Card/index.ts:52 | a rank code identifies its rank |
| Stacks.DigitIsNumber | src/Turn/index.ts:9 | a one-digit pile name is a number for `parseInt` and an array-index property key |
| Stacks.LetterIsNotNumber | src/Turn/index.ts:9 | a name starting with a capital letter is NaN for `parseInt` and not an index key |
| Stacks.TableauName | src/index.ts:17 | tableau pile `n` is named by the digit of `n` |
| Stacks.StackKinds | src/Card/index.ts:161-163 | the kind computed from a pile's name is Center for 1–7, Win for the four foundations, Cycle for Draw and Discard |
| Stacks.StackTypeOfName | src/Card/index.ts:161-163 | read off the name of any pile, the number test and the 'Win' prefix test give that pile's kind |
| Stacks.NamedKind | src/Turn/index.ts:9-10 | on a pile's name, `parseInt` finds a number exactly for a tableau pile, and the name starts with 'Win' exactly for a foundation |
| Stacks.GetStackType | src/Turn/index.ts:7-12 | `getStackType` of a stack value, held as a name or as a number, is the kind of the pile it names |
| Stacks.NameRoundTrip | src/Card/index.ts:5 | a pile name identifies its pile |
| Stacks.NameInjective | src/Card/index.ts:5 | two piles have the same name exactly when they are the same pile |
| Stacks.Names | src/index.ts:17 | the names of a sequence of piles, position by position |
| Stacks.KeysAppend | src/index.ts:17 | property ordering splits over concatenation, index keys and other keys separately |
| Stacks.AllIndexKeys | src/index.ts:17 | keys that are all array indices keep their order and come first |
| Stacks.NoIndexKeys | src/index.ts:17 | keys with no array index keep their insertion order |
| Stacks.OrderOfThree | src/index.ts:17 | names, then index keys, then names are enumerated as index keys, names, names |
| Stacks.NamesAppend | src/index.ts:17 | the names of two pile sequences concatenate |
| Stacks.IndexKeyPiles | src/index.ts:17 | exactly the tableau piles have array-index names |
| Stacks.KeyOrderOfParts | src/index.ts:17 | moving the tableau block ahead of the named piles is the object's key order |
| Stacks.NewBoardKeyOrder | src/index.ts:15-19 | the board literal's properties enumerate as 1..7, Draw, Discard, WinS, WinH, WinC, WinD |
| Stacks.KeyOrderIsPermutation | src/index.ts:15-19 | that order lists each of the 13 piles exactly once |
| Stacks.InsertionOrderComplete | src/index.ts:17 | the literal names every pile |
| Stacks.WinPile | src/Card/index.ts:149-151 | a suit's foundation is the Win pile of its index, named "Win" + the suit's initial |
| Cards.CardKey | src/Card/index.ts:152-153 | the id is the suit's initial followed by the rank code |
| Cards.CardKeyRoundTrip | src/Card/index.ts:152-153 | an id reads back as the card's suit and rank |
| Cards.CardIdRoundTrip | src/Card/index.ts:152-155 | a bracketed or plain id reads back as the suit, the rank and whether it was bracketed |
| Cards.CardKeyInjective | src/Card/index.ts:152-153 | two identities have the same id exactly when they are the same identity |
| Cards.Card.constructor | src/Card/index.ts:106-117 | the fields are the arguments (defaults Draw, face down, movable, no flags) and the kind is the one `setStackType` gives the stack |
| Cards.Card.Matches | src/Card/index.ts:180-182 | holds exactly when suit and rank are equal |
| Cards.Card.IsWinTarget | src/Card/index.ts:183-186 | false for an Ace; otherwise holds exactly for a target of the same suit one rank lower |
| Cards.Card.IsStackTarget | src/Card/index.ts:187-190 | false for a King; otherwise holds exactly for a target of the other colour one rank higher |
| Cards.Card.WinStack | src/Card/index.ts:149-151 | the string "Win" + the suit's initial, naming the foundation of the card's suit, of kind Win |
| Cards.Card.GetId | src/Card/index.ts:152-155 | reads back as the card's identity, bracketed exactly when face down and not ignored; with `ignoreFacedown` it is the plain id |
| Cards.Card.IsInSameStack | src/Card/index.ts:191-193 | strict equality of the two stack values: true only for the same pile, and true for the same pile held as the same type |
| Cards.Card.IsInWinPile | src/Card/index.ts:194-197 | holds exactly when the card lies on its own suit's foundation, and then its kind is Win |
| Cards.Card.SetStack | src/Card/index.ts:157-160 | stack and kind change together, nothing else |
| Cards.Card.SetStackType | src/Card/index.ts:161-163 | only the kind changes, to the one the stack's name gives |
| Cards.Card.SetMovable | src/Card/index.ts:164-166 | only `movable` changes |
| Cards.Card.SetFacedownBelow | src/Card/index.ts:167-169 | only `facedownBelow` changes |
| Cards.Card.SetBlankBelow | src/Card/index.ts:170-172 | only `blankBelow` changes |
| Cards.Card.SetNothingAbove | src/Card/index.ts:173-175 | only `nothingAbove` changes |
| Cards.Card.Flip | src/Card/index.ts:177-179 | only `facedown` changes, to its negation |
| Cards.Flipped | src/Card/index.ts:177-179 | flipping changes the face and nothing else, so flipping twice restores the state |
| Cards.MatchesEquivalence | src/Card/index.ts:180-182 | `matches` is reflexive, symmetric and transitive |
| Cards.IdKeyMatches | src/Card/index.ts:152-155 | two cards have the same plain id exactly when they match |
| Cards.WinStackInjective | src/Card/index.ts:149-151 | two cards have the same win stack exactly when they have the same suit |
| Boards.Board.constructor | src/index.ts:15-19 | thirteen empty piles, enumerated in the object's key order |
| Boards.EmptyPiles | src/index.ts:15-19 | the new board holds no card |
| Boards.FlattenEmpty | src/Turn/index.ts:28 | the cards of a board of empty piles are none |
| Boards.FlattenUpdate | src/Move/index.ts:21-41 | replacing one pile's cards swaps exactly that pile's cards in the board's multiset |
| Boards.FlattenSame | src/Turn/index.ts:28 | boards that agree on the listed piles have the same cards |
| Boards.FlattenContains | src/Turn/index.ts:28 | every pile's cards, and any two different piles' cards together, are part of the board's cards |
| Boards.PilesDisjoint | src/Move/index.ts:21-41 | on a board without duplicated cards no pile repeats a card and different piles share none |
| Moves.Taken | src/Move/index.ts:51 | the cards taken start with the card found |
| Moves.RunState | src/Move/index.ts:21-76 | a moved card's state after `makeMove`: new stack and kind; face up if it was a Cycle card; below-flags cleared on the first card of a run; blankBelow on the first card placed on an empty pile; nothingAbove on the last card |
| Moves.TakenLeft | src/Move/index.ts:51-68 | what is taken and what is left are the pile's cards; for a run, prefix then suffix in order |
| Moves.MoveConservesCards | src/Move/index.ts:21-41 | the cards of the board are unchanged as a multiset and only the source and destination piles change |
| Moves.RemoveFromPile | src/Move/index.ts:68 | splicing out a run removes exactly its cards from the board |
| Moves.AddToPile | src/Move/index.ts:38 | pushing a run adds exactly its cards to the board |
| Moves.BottomPileMoveLosesRun | src/Move/index.ts:68-72 | when the run started at the bottom, the board left by the throwing `makePileMove` lacks every moved card and has fewer cards |
| Moves.DistinctPositions | src/Move/index.ts:35-38 | a pile without duplicates has different cards at different positions |
| Moves.DistinctAll | src/Move/index.ts:35-38 | the same for all pairs of positions |
| Moves.ClearBelow | src/Move/index.ts:69-70 | the first moved card loses blankBelow and facedownBelow, nothing else changes |
| Moves.Uncover | src/Move/index.ts:72-74 | the new top is face up with nothing above, nothing else changes |
| Moves.Move.constructor | src/Move/index.ts:13-19 | the fields are the arguments and `oldStack` is the card's stack at construction |
| Moves.Move.SetNewStack | src/Move/index.ts:112-114 | only `newStack` changes |
| Moves.Move.FindFromTop | src/Move/index.ts:45-50 | the search from the top stops at the highest card matching the move's card (its presence is required) |
| Moves.Move.MakeCycleMove | src/Move/index.ts:43-56 | exactly the highest matching card is removed and returned face up; the rest of the pile is unchanged in order and state |
| Moves.Move.MakePileMove | src/Move/index.ts:58-76 | the pile is left as the prefix below the card found, and the suffix run is returned in order; the run's first card loses its below-flags; a remaining top is face up with nothing above |
| Moves.Move.MakePileMoveAsWritten | src/Move/index.ts:58-76 | as written: the same splice; the first moved card loses its below-flags; it throws exactly when the card was at the bottom, and otherwise the new top is turned face up with nothing above and the cards below it keep their state |
| Moves.Move.MakeMove | src/Move/index.ts:21-41 | the board becomes the move's result (run taken from the source, appended in order to the destination), every card stays on the board, no card is duplicated, each moved card's new state is `RunState`, and every other card keeps its state except the source's new top and the destination's old top |
| Moves.Move.Take | src/Move/index.ts:23-27 | a Cycle card is taken alone, any other card with the run above it, with the states of the two cases; no card but the taken ones and a pile's new top changes its state |
| Moves.Place | src/Move/index.ts:28-39 | the run is appended in order; a non-empty destination's old top loses nothingAbove; an empty destination gives the first card blankBelow; every moved card takes the new stack |
| Moves.Append | src/Move/index.ts:35-39 | the run is appended in order, each moved card takes the new stack and kind, and the last has nothing above |
| Moves.MoveKeepsValid | src/Move/index.ts:21-41 | a move keeps every pile present, the board's cards as a multiset, and no duplicated card |
| Moves.TopStaysOut | src/Move/index.ts:72-74 | the new source top is not part of the run and, on a different pile, not on the destination |
| Moves.SamePermutation | src/Move/index.ts:21-41 | a permutation of a duplicate-free sequence is duplicate-free |
| Moves.TakenDisjoint | src/Move/index.ts:28-38 | the run has no duplicates and shares no card with the destination |
| Moves.Join | src/Move/index.ts:29-34 | the destination's old top loses nothingAbove, or, on an empty destination, the first card gets blankBelow |
| Moves.Relocate | src/Move/index.ts:35-37 | every moved card takes the new stack and its kind, nothing else |
| Moves.LeftTakenDisjointAll | src/Move/index.ts:51-68 | no card left on the pile is among the cards taken |
| Moves.LeftTakenDisjoint | src/Move/index.ts:51-68 | the same for one card |
| Turns.OfType | src/Turn/index.ts:49-53 | 'Both' keeps every move; a move type keeps exactly the moves of that type |
| Turns.Cell | src/Turn/index.ts:60 | the visited cell `[suit index][rank value - 1]` lies inside the 4 × 13 table |
| Turns.CellMatches | src/Turn/index.ts:56-77 | two cards share a visited cell exactly when they match, and exactly when their `getId(true)` cache keys are equal |
| Turns.AimedTargets | src/Turn/index.ts:98-131 | the win-target filter agrees with `isWinTarget` and the center-target filter with `isStackTarget` |
| Turns.AimsGrows | src/Turn/index.ts:112-121 | the targets a list of moves aims at only grow when a move is pushed |
| Turns.CriticalOf | src/Turn/index.ts:39-43 | keeps exactly the face-up Center cards with facedownBelow or blankBelow |
| Turns.WinTargetIn | src/Turn/index.ts:98-104 | `[0]` of the filter: the first card of the same suit one rank lower, none exactly when there is no such card |
| Turns.CenterTargetsIn | src/Turn/index.ts:125-131 | keeps exactly the cards of the other colour one rank higher |
| Turns.KingPilesAsWritten | src/Turn/index.ts:133-134 | as written: the Center piles whose name differs from the card's stack value (a number never equals a name) |
| Turns.KingPiles | src/Turn/index.ts:133-134 | as intended: the Center piles other than the King's own |
| Turns.KingOwnPileKept | src/Turn/index.ts:134 | for a King on tableau pile `n` (a numeric stack) the written filter keeps pile `n` and the intended one drops it |
| Turns.KingPilesAgreeOnNames | src/Turn/index.ts:134 | when the stack is held as a name the two filters agree |
| Turns.IndexOf | src/Turn/index.ts:66 | `indexOf`: the first position of the card, -1 exactly when absent |
| Turns.ChainsAppended | src/Turn/index.ts:155-158 | pushing a critical card's chains keeps earlier chains and every new chain ends on a critical card |
| Turns.GrownTrans | src/Turn/index.ts:55-79 | the cache only grows and the unvisited set only shrinks, transitively |
| Turns.MovesKept | src/Turn/index.ts:57-59 | the entry of an identity visited earlier is the same in any cache grown since: an answer, once cached, never changes |
| Turns.StillVisited | src/Turn/index.ts:44-46 | a critical card already visited stays visited as the search goes on |
| Turns.VisitedAll | src/Turn/index.ts:44-46 | after the loop every critical card is visited |
| Turns.Turn.constructor | src/Turn/index.ts:26-36 | `cards` is all the board's cards in property order, every visited cell is false, the lists and the cache are empty and `boardIsWinnable`/`boardIsWon` are false |
| Turns.Turn.IsBeingChecked | src/Turn/index.ts:56 | holds exactly when a card under examination has the same identity (the same visited cell) |
| Turns.Turn.GetPossibleMoves | src/Turn/index.ts:49-53 | an uncached identity gives []; otherwise the cached moves filtered by type |
| Turns.Turn.VisitedCell | src/Turn/index.ts:149-153 | `hasCardBeenVisited` holds exactly when the card's cell has left the unvisited set |
| Turns.Turn.Visit | src/Turn/index.ts:60 | marks the card visited and removes exactly its cell from the unvisited set |
| Turns.Turn.CachedMoves | src/Turn/index.ts:49-53 | every cached move returned moves the requested identity, is aimed as its type says and has the requested type |
| Turns.Turn.GetMovesForCard | src/Turn/index.ts:55-79 | [] for a card under examination, with nothing changed; the cache on a revisit; otherwise the identity is marked visited before any recursion, a face-down Center card gets no entry, and any other card gets an entry that keeps the search's promises: every move moves the card and is aimed as its type says; a card nothing blocks gets its Win move (an Ace to its foundation, any other card onto its win target when that lies on the foundation); a card under a card without moves gets no Win move; every uncovered Center target on a Center pile is aimed at; Win moves go to the card's foundation; a King gets a move to every empty Center pile other than its own. The entry is also decided by the rest of the cache: it holds a Win move exactly when the card is free and its win target lies on the foundation or has Win moves; it aims at a center target exactly when that target is an uncovered Center card or has Center moves; a King's entry reaches another Center pile exactly when the pile is empty or its bottom card has moves. The moves returned are that entry filtered by type, the stack is restored, and the unvisited set shrinks at every expansion; it throws only when some card of the turn is blocked with no card on top or lacks a win target |
| Turns.Turn.Expand | src/Turn/index.ts:60-78 | the identity is marked visited; a face-down Center card leaves the cache as it was; any other card gets an entry that keeps the search's promises and is decided by the rest of the cache (Win move, center targets, King piles, each exactly as the probes answered); throws only when some card of the turn reads `undefined` |
| Turns.Turn.ExpandFaceUp | src/Turn/index.ts:63-77 | the entry written for a face-up card keeps the search's promises and is decided by the rest of the cache; the cache only grows, every identity expanded has its entry or is face down, and it throws only when some card of the turn reads `undefined` |
| Turns.Turn.Record | src/Turn/index.ts:77 | the entry of the card's identity becomes the moves found, every other entry stays, and every entry still keeps its promises |
| Turns.Turn.CollectMoves | src/Turn/index.ts:63-76 | the card is free when nothing blocks it, and not free when the card on top has no moves; a free card gets its Win move and one that is not free gets none; every uncovered Center target is aimed at and a King reaches every other empty Center pile; the answer is decided by the cache (a Win move exactly for a free card whose win target lies on the foundation or has Win moves, a center target aimed at exactly when it is an uncovered Center card or has Center moves, a King pile reached exactly when it is empty or its bottom card has moves); a blocked card with no card on top throws, and nothing else throws unless some card of the turn reads `undefined` |
| Turns.Turn.FreedWinOffered | src/Turn/index.ts:64-74 | in the cache the answer of `getMovesForCard` was found in, a card lying under a card that has moves is offered its Win move when its win target lies on the foundation (an Ace always) |
| Turns.Turn.IsFree | src/Turn/index.ts:64-70 | free exactly when the card lies on a Cycle pile or has nothing above, or the card on top has moves in the cache, whose entry is then final (that card was visited); a blocked card with no card on top (`cardOnTop` undefined) throws, and it throws only when some card of the turn reads `undefined` |
| Turns.Turn.WinAndCenterMoves | src/Turn/index.ts:71-76 | for a card whose freedom was decided: a free card is offered its Win move and one that is not free none; then come the Center moves; together they keep the entry's promises and are decided by the cache exactly as the probes answered |
| Turns.Turn.WinFront | src/Turn/index.ts:71-74 | at most one move, a Win move to the card's foundation, and only for a free card; a free card gets it whenever `getWinMove` promises one, and it is there exactly when the card is free and its win target lies on the foundation or has Win moves |
| Turns.Turn.AddCenterMoves | src/Turn/index.ts:75-76 | the Center moves follow the Win move; together they keep every promise of the entry, and the Center part is decided (each center target aimed at exactly when it is an uncovered Center card or has Center moves, each other Center pile reached by a King exactly when it is empty or its bottom card has moves) |
| Turns.Turn.Above | src/Turn/index.ts:66-67 | `cardOnTop`: when present, a card of the pile the card records |
| Turns.Turn.Probe | src/Turn/index.ts:90-93 | push, recurse, pop: the stack is restored, the target is visited afterwards, the answer is exactly whether the target's moves of the requested type are non-empty, and a target matching the card itself is never movable |
| Turns.Turn.Push | src/Turn/index.ts:90 | the card goes on top of the cards under examination |
| Turns.Turn.Pop | src/Turn/index.ts:92 | the top card under examination is removed |
| Turns.Turn.GetWinMove | src/Turn/index.ts:81-97 | an Ace always gets a Win move with no target to its foundation; any other card without a win target throws (`winTarget` is undefined); a move is returned exactly when the card is an Ace or its win target lies on the foundation or has Win moves (otherwise null); any move found goes to the card's foundation onto its win target |
| Turns.Turn.TargetWinMove | src/Turn/index.ts:85-96 | for a card other than an Ace: no win target throws; a target on the foundation gives the move without a probe; otherwise the move is kept exactly when the probe finds Win moves for the target |
| Turns.Turn.WinMoveOnto | src/Turn/index.ts:90-95 | the Win move onto a target off the foundation is returned exactly when the target has Win moves once probed, and the target is visited afterwards |
| Turns.Turn.WinKept | src/Turn/index.ts:64-74 | whether a card has a Win move stays decided while the search grows: the answers it rests on are entries of visited identities |
| Turns.Turn.FreeKept | src/Turn/index.ts:64-70 | whether a card is free stays the same while the search grows |
| Turns.Turn.GetCenterMoves | src/Turn/index.ts:106-124 | every move is a Center move of this card, aimed at a card of the turn of the other colour one rank higher, to that card's stack; each such target is aimed at exactly when it is an uncovered Center card or has Center moves; for a King, the moves of `getKingCenterMoves` |
| Turns.Turn.MovesOntoTargets | src/Turn/index.ts:112-122 | the loop's moves are onto the given targets, and each target is aimed at exactly when it is an uncovered Center card or has Center moves |
| Turns.Turn.OntoNext | src/Turn/index.ts:113-121 | one pass of that loop: the moves stay Center moves onto the targets, and each target so far is aimed at exactly when it is an uncovered Center card or has Center moves |
| Turns.Turn.CenterMoveOnto | src/Turn/index.ts:113-121 | the move is kept exactly when the target is an uncovered Center card (no probe) or the probe finds Center moves for it |
| Turns.CentersStep | src/Turn/index.ts:112-122 | keeping the move onto the next target exactly when that target accepts it extends the loop's invariant by one target |
| Turns.CentersAll | src/Turn/index.ts:112-122 | once every target was looked at, each is aimed at exactly when it accepts the card |
| Turns.Turn.GetKingCenterMoves | src/Turn/index.ts:132-148 | every King move goes with no target to a Center pile other than its own, and every empty such pile gets one. This is the intended filter. The written one also keeps the King's own pile (Turns.KingOwnPileKept), but the probe of that pile's bottom card answers [] either way: that card is the King itself, which is under examination, or a face-down card dealt below it. So the moves found are the same |
| Turns.Turn.KingNext | src/Turn/index.ts:137-145 | one pass of that loop: every move goes to one of the piles, and each pile so far is reached exactly when it is empty or its bottom card has moves |
| Turns.Turn.KingMoveTo | src/Turn/index.ts:137-145 | the move is kept exactly when the pile is empty (no probe) or the probe finds moves for the pile's bottom card |
| Turns.Turn.KingsStep | src/Turn/index.ts:136-146 | keeping the move to the next pile exactly when that pile takes a King extends the loop's invariant by one pile |
| Turns.Turn.KingsAll | src/Turn/index.ts:132-148 | once every other Center pile was looked at, the King's moves are decided |
| Turns.Turn.DecidedJoin | src/Turn/index.ts:71-76 | the Win move put in front of the Center moves keeps what each part decided |
| Turns.Turn.CenterJoined | src/Turn/index.ts:71-77 | the Win move of a free card followed by its Center moves is a whole entry: freedom, the Win move, the promises of the entry, and all of it decided |
| Turns.Turn.GetMoves | src/Turn/index.ts:38-47 | the critical cards are appended and each is searched, and afterwards every one is visited; a turn at rest (nothing under examination, every expanded identity cached or face down) stays at rest, and then, with one card per identity, every critical card has an entry that keeps the search's promises; it throws only when some card of the turn reads `undefined` |
| Turns.Turn.SearchCritical | src/Turn/index.ts:44-46 | the loop: the cache only grows, every expanded identity is settled, afterwards every critical card is visited, and it throws only when some card of the turn reads `undefined` |
| Turns.Turn.SearchFrom | src/Turn/index.ts:45 | one search from a critical card, which is visited afterwards; it throws only when some card of the turn reads `undefined` |
| Turns.Turn.Examine | src/Turn/index.ts:38-47 | `getMoves` on a new turn: the critical cards are those of the board; with one card per identity every playable critical card has a cached move whose target is absent or free; it throws only when some card of the turn reads `undefined` |
| Turns.Turn.CriticalCached | src/Turn/index.ts:44-46 | with one card per identity, a critical card the search expanded at rest has its entry, and the entry keeps the promises |
| Turns.Turn.PlayableMove | src/Turn/index.ts:171-173 | a playable card whose entry keeps the promises has a possible move with no target or a free one, which `getMoveChainsForCard` takes as a chain by itself |
| Turns.Turn.GetMoveChainsForCard | src/Turn/index.ts:167-183 | every chain is non-empty, ends with a move of the requested card and starts with a move whose target is absent or free; every possible move whose target is absent or free is a chain by itself; the recursion descends a rank in a fixed direction |
| Turns.Turn.FollowPossible | src/Turn/index.ts:170-181 | the loop over the possible moves: the same promises for the moves handed in |
| Turns.Turn.ChainsThrough | src/Turn/index.ts:175-180 | each chain that frees the target, followed by the card's move: it ends with a move of the card and starts with a free move |
| Turns.Turn.FollowEach | src/Turn/index.ts:176-180 | each required chain is extended by one move of this card to the previous chain's last stack |
| Turns.Turn.GetMoveChains | src/Turn/index.ts:155-158 | earlier chains are kept and each chain added ends with a move of a critical card; every possible move of a critical card whose target is absent or free is added as a chain by itself, so when some critical card is playable and every playable one has such a move, a chain is added |
| Turns.Turn.CriticalChains | src/Turn/index.ts:156-157 | the chains of all critical cards: each ends on a critical card, and each free move of a critical card is a chain of its own; non-empty under the same condition |
| Turns.Turn.FoundForPlayable | src/Turn/index.ts:171-173 | the free move of a playable critical card, a chain by itself, makes the chains non-empty |
| Turns.Turn.ChainsOfCritical | src/Turn/index.ts:156-157 | the loop over the critical cards: each chain ends on a critical card, and each free move of a critical card is a chain by itself |
| Turns.Turn.ChainsKeepingFree | src/Turn/index.ts:157 | one critical card's chains, ending on that card; its free moves are chains by themselves and stay free |
| Turns.Turn.HasPossibleMoves | src/Turn/index.ts:198-200 | holds exactly when some chain was found |
| Games.StandardOrder | src/index.ts:24 | the suit-major list of 52 pairs |
| Games.StandardOrderInCatalog | src/index.ts:24 | every pair of it names a suit and a rank of the tables |
| Games.StandardOrderComplete | src/index.ts:24 | it holds every identity, strictly suit-major then rank order |
| Games.SuitAt | src/index.ts:22 | `suits[i]` has index `i` |
| Games.RankAt | src/index.ts:22 | `ranks[i]` has value `i + 1` |
| Games.CreateCards | src/index.ts:20-25 | fresh, distinct, undealt cards whose pairs are the fixed list, or the suit-major catalog for an empty list |
| Games.NewCards | src/index.ts:22 | one fresh undealt card per pair, in order |
| Games.NewCard | src/index.ts:22 | a fresh card named by the pair, in the constructor's default state |
| Games.PairsOfNames | src/index.ts:22-71 | cards named by a list of pairs print back as that list |
| Games.Pairs | src/index.ts:69-71 | one catalog pair per card |
| Games.PairsNameCards | src/index.ts:69-71 | each printed pair indexes the card's own suit and rank in the tables, so `createCards` inverts it |
| Games.Numbers | src/index.ts:69-71 | two non-empty digit strings per pair |
| Games.RegroupNumbers | src/index.ts:69-71 | regrouping the flattened numbers gives back the pairs |
| Games.PairsTextRoundTrip | src/index.ts:69-71 | the comma-joined text of a pair list parses back to the same list |
| Games.JoinStartsWith | src/index.ts:76 | a join is at least as long as its first part |
| Games.Start | src/index.ts:31-33 | pile `i`'s cards fit in the first 28 of the dealing order |
| Games.End | src/index.ts:31-33 | pile `i` takes exactly `i` cards, ending by position 28 |
| Games.Game.constructor | src/index.ts:10-13 | a new board of 13 empty piles in key order, limit 15, count 0 |
| Games.Game.DealCards | src/index.ts:27-48 | dealing a fixed list keeps every earlier card and adds the created ones; pile `i` receives the next `i` cards in order and Draw the rest; each dealt card's state is the one `DealtAt` gives and Draw cards keep theirs |
| Games.Game.Deal | src/index.ts:31-47 | the tableau then Draw: the same statement for given cards |
| Games.Game.DealTableau | src/index.ts:31-44 | the two loops leave tableau piles 1–7 with their `i` cards each and the 28 cards in their dealt states |
| Games.Game.DealNextPile | src/index.ts:31-44 | one pass of the outer loop: pile `i` receives the next `i` cards of the dealing order, those cards take their dealt states, and the cards not yet dealt stay undealt |
| Games.Game.DealPile | src/index.ts:32-43 | the inner loop appends pile `i`'s run in order, each card in its dealt state |
| Games.Game.DealOne | src/index.ts:33-41 | one card: stack `i`, blankBelow if first and facedownBelow otherwise, face up with nothing above if last and unmovable otherwise |
| Games.Game.DealDraw | src/index.ts:45-47 | the cards after the 28th are pushed onto Draw in order |
| Games.Game.NextTurn | src/index.ts:50-63 | the turn holds the board's cards and its critical cards; the answer is false exactly at the limit or with no chain; it is never true; every chain ends on a critical card; with one card per identity and a playable critical card, the game goes on below the limit |
| Games.Game.PushCard | src/index.ts:42 | the card is appended to that pile |
| Games.Ids | src/index.ts:76 | one id per card, each the card's `getId()` |
| Games.IdPrintable | src/Card/index.ts:152-155 | an id contains no space and no line break |
| Games.BoardLines | src/index.ts:75-77 | one line per property, in order |
| Games.FlattenSnoc | src/Turn/index.ts:28 | one more pile adds its cards at the end |
| Games.PrintBoard | src/index.ts:66-80 | with `stringify`, the pair text of all cards in property order; otherwise the lines of all piles in property order |
| Games.PileLines | src/index.ts:75-77 | the loop writes each pile's line followed by a line break |
| Games.BoardTextStep | src/index.ts:76 | one more pile adds its line and a line break |
| Games.TextAppend | src/index.ts:76 | the same for lines in general |
| Games.TextLines | src/index.ts:75-77 | lines without breaks split back into themselves and a final empty part |
| Games.PileLineRoundTrip | src/index.ts:76 | a line starts with the pile's name and ": ", then splits at spaces into the cards' ids (nothing for an empty pile) |
| Games.BoardTextLines | src/index.ts:75-79 | the printed board splits into one line per pile, in property order, and nothing after the last break |
| Games.NamePrintable | src/Card/index.ts:5 | a pile name has no line break |
| Games.JoinPrintable | src/index.ts:76 | joining printable ids with spaces gives no line break |
| Games.DealtPilesAt | src/index.ts:31-44 | pile by pile: tableau piles below the bound have their runs appended, the others are unchanged |
| Games.DealtPilesCards | src/index.ts:31-44 | the piles dealt so far hold the earlier cards and the first `Dealt(n)` cards |
| Games.DealtBoardPiles | src/index.ts:31-47 | after dealing, every pile is its old cards plus what it receives |
| Games.DealtBoard | src/index.ts:31-47 | after dealing the board holds its old cards plus every created card |
| Games.FreshNoDuplicates | src/index.ts:28 | fresh distinct cards added to a duplicate-free board keep it duplicate-free |
| Games.DealtBound | src/index.ts:31-32 | seven piles take at most 28 cards |
| Games.PileAt | src/index.ts:31-33 | each of the first 28 positions falls inside exactly one pile's run |
| Games.PileDealtAt | src/index.ts:32-41 | the state the inner loop gives is the state of that position in the dealing order |
| Games.PileAtUnique | src/index.ts:31-33 | the pile a position belongs to is unique |
| Games.DealtMonotone | src/index.ts:31-32 | more piles take more cards |
| PyLists.Bound | pile.py:47-50 | a Python slice bound: negative counts from the end, then clamped into the list |
| PyLists.Slice | pile.py:48-49 | `s[a:b]` is the range between the two bounds, empty when they cross |
| PyLists.Index | pile.py:37-45 | an index is valid exactly from `-n` to `n - 1`, negative counting from the end |
| PyLists.IndexOf | pile.py:34-35 | `index` finds the first occurrence and fails exactly when the value is absent |
| PyLists.Filter | turn.py:136 | keeps exactly the elements satisfying the test |
| PyLists.FilterAppend | turn.py:44 | filtering splits over concatenation |
| PyLists.FilterAll | turn.py:44 | a filter every element passes keeps the list |
| PyCards.KeyOf | card.py:71 | the id is the suit's initial followed by the rank value in decimal |
| PyCards.KeyRoundTrip | card.py:71 | an id reads back as the identity |
| PyCards.IdRoundTrip | card.py:68-71 | a bracketed or plain id reads back as the identity and whether it was bracketed |
| PyCards.Card.Cell | turn.py:84-88 | the visited cell `[suit index][rank value - 1]` lies inside 4 × 13 |
| PyCards.Card.constructor | card.py:6-15 | the fields are the arguments (defaults face up, no pile, all flags false) |
| PyCards.Card.WinPile | card.py:45-47 | "win" followed by the suit's upper-case initial, which reads back as the suit |
| PyCards.Card.InWinPile | card.py:49-51 | AttributeError without a pile; otherwise holds exactly when the pile's name starts with "win" |
| PyCards.Card.Id | card.py:68-71 | reads back as the identity, bracketed exactly when face down and shown; unshown it is the plain id |
| PyCards.Card.Flip | card.py:53-54 | only `facedown` changes, to its negation |
| PyCards.Card.SetPile | card.py:56-57 | only `pile` changes |
| PyCards.Card.SetFacedownBelow | card.py:59-60 | only `facedown_below` changes |
| PyCards.Card.SetNothingAbove | card.py:62-63 | only `nothing_above` changes |
| PyCards.Card.SetNothingBelow | card.py:65-66 | only `nothing_below` changes |
| PyCards.CardIsCenterTarget | card.py:84-87 | false for a King; otherwise holds exactly for a target of the other colour one rank higher |
| PyCards.CardIsWinTarget | card.py:89-92 | false for an Ace; otherwise holds exactly for a target of the same suit one rank lower |
| PyCards.CardsMatch | card.py:76-79 | the same suit and the same rank: two cards match exactly when they share a visited cell |
| PyCards.CardsInSamePile | card.py:81-82 | `==` on piles without `__eq__` is identity: both cards lie on one and the same pile object, or both lie on none |
| PyCards.MatchByIdAndCell | card.py:76-79 | two cards match exactly when their plain ids are equal and exactly when they share a visited cell |
| PyCards.TargetsDisjoint | card.py:84-92 | a card has at most one win-target identity, and no card is both its win and center target |
| PyCards.TargetRanks | card.py:84-92 | a center target has the other parity of suit index and rank one higher; a win target has rank one lower |
| PyCards.InWinPileAnySuit | card.py:49-51 | a Spade on the Hearts foundation counts as in a win pile although that is not its own |
| PyCards.Pile.constructor | pile.py:9-13 | the fields are the arguments |
| PyCards.Pile.AtIndex | pile.py:37-38 | the element at a Python index, IndexError (`None`) exactly outside `-n .. n - 1` |
| PyCards.Pile.TopCard | pile.py:31-32 | the last card, IndexError exactly on an empty pile |
| PyCards.Pile.GetIndex | pile.py:34-35 | the first position of the card, ValueError exactly when absent |
| PyCards.Pile.Length | pile.py:68-69 | the number of cards |
| PyCards.Pile.IsEmpty | pile.py:71-72 | empty exactly when there is no top card |
| PyCards.Pile.AddCard | pile.py:40-42 | the card is appended and becomes the top, the length grows by one, and only the card's pile changes |
| PyCards.Pile.RemoveCard | pile.py:44-45 | `pop(i)`: the element at the Python index is removed and returned, the others keep their order; IndexError leaves the pile as it was |
| PyCards.Pile.SliceCards | pile.py:47-50 | returns `cards[start:end]` and leaves `cards[0:start]` |
| PyCards.Pile.HasFacedown | pile.py:52-56 | the counting loop answers whether some card is face down |
| PyCards.Pile.IsCenterPile | pile.py:58-59 | a name of ASCII digits; a pile named like a foundation ("win…") is never a center pile |
| PyCards.Pile.IsWinPile | pile.py:61-62 | a name starting with "win"; a pile named by a number is never a win pile |
| PyCards.IndexRoundTrip | pile.py:34-38 | `at_index(get_index(c))` is `c` |
| PyCards.SliceCardsDropsTail | pile.py:47-50 | with `end` short of the length, what is kept and returned is only the cards before `end`, so cards are lost |
| PyCards.SliceCardsToEnd | pile.py:47-50 | with `end` past the length, what is kept and returned is the whole pile |
| PyMoves.Move.constructor | move.py:11-17 | the fields are the arguments |
| PyMoves.Move.SetNewStack | move.py:39-40 | only `new_stack` changes |
| PyMoves.Move.MakeMove | move.py:42-43 | the stub returns None, whatever board it is given |
| PyMoves.MoveNode.constructor | move.py:55-57 | the fields are the arguments |
| PyMoves.MoveNode.SetNext | move.py:67-68 | only `next` changes |
| PyMoves.MovesOf | move.py:91-97 | the moves of a node list, position by position |
| PyMoves.MoveChain.constructor | move.py:72-73 | any head is accepted: the chain holds exactly the acyclic list of nodes reachable from it, and is empty for None |
| PyMoves.MoveChain.AddNode | move.py:82-89 | the node is linked after the last one, earlier nodes keep their order, the chain stays acyclic; returns the node on an empty chain and None otherwise |
| PyMoves.MoveChain.MakeMovesAsWritten | move.py:91-97 | as written: every move but the last is handed to `make_move` |
| PyMoves.MoveChain.MakeMoves | move.py:91-97 | as intended: every move, in order |
| PyMoves.SingleMoveChain | move.py:91-97 | on a one-move chain, the written loop applies nothing and the intended one applies the move |
| PyTurns.Values | turn.py:153-157 | `dict.values()` of a group, in insertion order |
| PyTurns.Lookup | solitaire.py:94 | `board[group][key]`: the entry's pile, KeyError exactly when no key matches |
| PyTurns.GetPiles | turn.py:149-158 | the selected groups' piles, cycle then center then win, each in order |
| PyTurns.CriticalOf | turn.py:39-44 | keeps exactly the face-up Center cards with facedown_below or nothing_below, in order |
| PyTurns.CriticalOfAppend | turn.py:44 | the critical filter splits over concatenation |
| PyTurns.OfTypeSplit | turn.py:144 | every move is a Win or a Center move, and no move is of type Both |
| PyTurns.MatchByCells | turn.py:80-82 | matching a card is sharing its visited cell |
| PyTurns.Turn.constructor | turn.py:12-17 | the board and cards are the arguments, every cell of the 52 × 13 table is false, and the list and cache are empty |
| PyTurns.Turn.GetCriticalCards | turn.py:39-44 | AttributeError exactly when a card has no pile; otherwise the critical cards in order |
| PyTurns.Turn.IsBeingChecked | turn.py:80-82 | holds exactly when some card under examination has the same identity |
| PyTurns.Turn.Visit | turn.py:84-85 | marks the card's cell and changes no other cell |
| PyTurns.Turn.HasBeenVisited | turn.py:87-88 | the identity's flag in the grid, set exactly when the identity has left the unvisited set |
| PyTurns.Turn.GetTarget | turn.py:133-139 | exactly the center (or win) targets among the turn's cards; None for Both |
| PyTurns.Turn.GetPossibleMoves | turn.py:141-144 | KeyError exactly for an identity with no entry; Both gives the cached list, a type exactly its moves of that type |
| PyTurns.Turn.BeginMovesForCard | turn.py:53-61 | AttributeError without a pile; [] for a card under examination; the cache for a visited identity; otherwise the cell is marked (the unvisited set shrinks), [] is cached under the id, and a face-down center card gives [] |
| PyGames.PairCell | solitaire.py:53 | `suits[s]`, `ranks[r]` with Python indices: IndexError exactly outside `-4..3` and `-13..12` |
| PyGames.PairCellCatalog | solitaire.py:53 | a catalog pair indexes itself |
| PyGames.CreateCards | solitaire.py:51-53 | one new card per pair, distinct, named by the pair; IndexError exactly when some pair is out of range |
| PyGames.BoardKeysDistinct | solitaire.py:8-42 | the board's 13 pile names are distinct |
| PyGames.ShapedDistinct | solitaire.py:8-42 | the board's 13 piles are distinct objects |
| PyGames.KeysSpelled | solitaire.py:17-40 | center keys are "1".."7" and win keys are "win" + the suit initial |
| PyGames.NewBoard | solitaire.py:8-42 | two cycle, seven center and four win piles, each new and empty, with their names, labels and kinds |
| PyGames.NewCycleGroup | solitaire.py:10-15 | the draw and discard piles |
| PyGames.NewCenterGroup | solitaire.py:16-31 | piles "1" to "7" |
| PyGames.NewWinGroup | solitaire.py:32-41 | the four foundations |
| PyGames.PileKindsByName | pile.py:58-62 | on the new board, a pile is a center pile by name exactly when its kind is Center, and a win pile exactly when Win |
| PyGames.CenterLookup | solitaire.py:76 | `board['center'][f'{i}']` is the `i`-th center pile |
| PyGames.CenterPilesDistinct | solitaire.py:16-31 | different center keys name different piles |
| PyGames.ShapedReady | solitaire.py:8-42 | the new board has the center and draw piles dealing needs |
| PyGames.OtherPilesApart | solitaire.py:8-42 | the draw, discard and win piles are not center piles |
| PyGames.PileIndices | turn.py:149-158 | positions in `get_piles` of the cycle, center and win piles |
| PyGames.CenterApart | solitaire.py:16-31 | the other center piles are not pile `t` |
| PyGames.DrawLookup | solitaire.py:80 | `board['cycle']['draw']` is the draw pile |
| PyGames.CenterDealtFlags | solitaire.py:83-94 | on new cards, only the top of a dealt run is face up with nothing above; the bottom has nothing below and the others a face-down card below |
| PyGames.RunOf | solitaire.py:73-76 | each of the first 28 positions lies in the run of one pile |
| PyGames.RunsAgree | solitaire.py:73-76 | the Python runs are the TypeScript runs |
| PyGames.Hi | solitaire.py:74-75 | a run ends within the list and by position 28 |
| PyGames.ConcatStep | solitaire.py:107-108 | one more pile adds its cards |
| PyGames.CardsOf | solitaire.py:106-108 | the loop concatenates the piles' cards in order |
| PyGames.ConcatMembers | solitaire.py:106-108 | a card is among them exactly when some pile holds it |
| PyGames.DealPartition | solitaire.py:73-76 | each position below 28 is in exactly one run, and the draw part starts at 28 |
| PyGames.RunUnique | solitaire.py:73-76 | the run a position belongs to is unique |
| PyGames.DealSlices | solitaire.py:74-75 | `cards[0:i]` and `cards[i:]` of the rest are the pile's run and what follows |
| PyGames.DistinctSlice | solitaire.py:74 | a slice of distinct cards is distinct |
| PyGames.OutsideRun | solitaire.py:74 | a card outside a run is not in it |
| PyGames.Game.constructor | solitaire.py:58-60 | the name, and a new board of 13 new empty piles |
| PyGames.Game.DealCards | solitaire.py:70-81 | IndexError exactly for an out-of-range pair, with nothing dealt; otherwise center pile `i` gets its run in order, Draw the rest, discard and win piles nothing, and each card its dealt state |
| PyGames.Game.Deal | solitaire.py:73-80 | the same for given cards |
| PyGames.Game.DealCenter | solitaire.py:73-76 | every center pile gets its run; the first 28 cards take their dealt states; the rest is returned untouched |
| PyGames.Game.DealPass | solitaire.py:74-76 | one pass deals pile `t`'s run and leaves every other pile and card alone |
| PyGames.Game.DealRun | solitaire.py:83-94 | the run is appended to its pile with the flags of `deal_cards_to_center_pile` |
| PyGames.Game.RunDealtAt | solitaire.py:83-94 | those flags are the dealt states of the positions |
| PyGames.Game.DealDraw | solitaire.py:77-80 | the rest is popped in order, flipped and added to Draw |
| PyGames.Game.DrawAll | solitaire.py:77-80 | the loop, for any start position |
| PyGames.Game.DrawOne | solitaire.py:78-80 | one card is flipped and added to the pile |
| PyGames.Game.GetCards | solitaire.py:105-109 | the cards of the selected piles in `get_piles` order |
| PyGames.Game.DealCardsToCenterPile | solitaire.py:83-94 | the cards are appended in order, the first gets nothing_below and the others facedown_below, all but the last are flipped and the last gets nothing_above |
| PyGames.Game.DealOne | solitaire.py:85-94 | one pass of that loop |

## Left out

- Random dealing: `Math.random` in `dealCards` (src/index.ts:29-30) and `shuffle_cards` with `randint` (solitaire.py:44-49) are not modelled. Only the fixed-list paths are modelled.
- Games.Game.DealCards: requires a fixed list of at least 28 catalog pairs. With fewer, `nextCard()` returns `undefined` and `setStack` throws; with an empty list the deal is random.
- Games.Game.DealCards: `dealt` (the created cards) is a ghost result; the source returns nothing.
- PyGames.CreateCards: requires a non-empty list, because the empty list shuffles randomly.
- Games.CreateCards, Games.NewCards, Games.NewCard: require every pair to index the suit and rank tables, because a card's suit and rank are table members here. The source also builds a card from an out-of-range pair, without throwing, and gives it an `undefined` suit or rank (src/index.ts:22, src/Card/index.ts:106-117). The failure comes later, when `getId` or `getSuit.getIndex` reads that card; such a card is not modelled.
- PyMoves.MoveChain.MakeMovesAsWritten: requires a non-empty chain. On an empty chain `node` is `None`, and reading `node.next` raises AttributeError (move.py:92-93); that error path is not modelled.
- PyGames.Game.DealCards: requires a non-empty list, for the same reason. It returns the created cards, or `None` for IndexError, where Python returns None or raises.
- PyGames.Game.DealCards: the lookup of the draw pile is done once, before the loop; the source repeats it on each pass, and it always yields the same pile.
- PyGames.Game.DealCardsToCenterPile: requires the name to be a center key (otherwise KeyError) and the cards to be distinct objects.
- PyGames.Game.Deal, PyGames.Game.DealCenter, Games.Game.Deal, Games.Game.DealTableau: require the cards to be distinct, which fresh cards are.
- PyMoves.MoveChain.AddNode: requires an unlinked node that is not already in the chain. Otherwise the Python list becomes cyclic and the next walk does not end.
- Moves.Move.MakeMove: its own contract leaves out the flags of the source pile's new top and of the destination's old top. Moves.Move.MakePileMove and Moves.Place state them.
- Moves.Move.MakeMove: is built on the corrected `makePileMove` (Moves.Move.MakePileMove). As written, a non-Cycle move of the bottom card of a pile throws inside `makePileMove` after the splice, so `makeMove` never places the run (see Findings).
- Moves.Move.MakeMove: requires the card to be present in its old stack. The searches have no lower bound, so absence crashes the source.
- Turns.Turn.GetPossibleMoves: the cache is keyed by the cell `(suit index, rank value - 1)` rather than by the text `getId(true)`. Turns.CellMatches proves that the two name the same identity. A `Set` of moves is a sequence without repeats.
- Turns.Turn.GetMovesForCard: after a thrown exception the search stops, and what the cache and the stack then hold is not described.
- Turns.Turn.GetMoveChainsForCard: it reads the cache. Its contract states the shape of each chain and that every free move is a chain by itself; it does not count the chains that pass through freed targets.
- Turns.Turn.GetMovesForCard, Turns.Turn.SearchFrom and the other search methods: require the card to be one of the turn's cards, which every card the source hands them is (the critical cards, a card on top, a pile's bottom card).
- Turns.Turn.GetMoves: requires the critical cards already held to be cards of the turn; a new turn holds none.
- Turns.Turn.GetMovesForCard: the promises of an entry that mention other cards (a card under a card without moves gets no Win move) hold when every card identity occurs once, as in a dealt deck. With repeated identities the cache can hold an entry written for another card of the same identity.
- Turns.Turn.GetMovesForCard: the promises are stated for the entry written at that call. A revisit returns the cached entry unchanged, and Turns.Turn.GetMoves states that every critical card's entry keeps them once the search is at rest.
- Turns.Turn.GetMoves: at rest, every critical card's entry is stated with `Offered`, which leaves out "a card under a card with moves gets its Win move". The cache only grows, and a probe answered while the card above was itself under examination (index.ts:56) can differ from that card's final entry, so the clause need not hold at rest. It is stated at the call that writes the entry (Turns.Turn.CollectMoves with `Decided`, Turns.Turn.FreedWinOffered).
- Turns.Turn.Throws: the model bounds when the search throws, but it does not prove that a board dealt from the 52 catalog pairs never does.
- Turns.Turn.CollectMoves, Turns.Turn.AddCenterMoves: `free` is a ghost result or parameter that names the value of `isFree` at lines 64-70; the source keeps it in a local.
- Turns.Turn.GetKingCenterMoves: modelled with the intended filter (Turns.KingPiles); see Findings for why the filter as written finds the same moves.
- Turns.Turn.Examine: it is `getMoves` on a new turn with no cards under examination, which is how `nextTurn` calls it. Turns.Turn.GetMoves states the general case.
- Turns.Turn.constructor, Games.Game.NextTurn, Games.Game.Deal: require the board's key order to list each of the thirteen piles once, as `Object.keys` does for every board; Boards.Board.constructor establishes it.
- Turns.Turn.GetMoveChains: appends the chains of all critical cards at once. The source pushes them card by card, which gives the same final list.
- Games.Game.NextTurn: states that the game goes on when some critical card is playable only for a deck with one card per identity; otherwise it states the limit, the false answer with no chain, and the chain shape.
- Console output: every `console.log`/`print` (move and chain printing, `printMoveChains`, `Move.print`, the `log` flag of `printBoard`, `get_moves`' print) is not modelled.
- `getFacedownCount` is not part of this model; nothing in the core uses it.
- Asset and icon paths of suits and face ranks are not modelled.
- Commented-out code (src/Move/index.ts:78-104, src/Turn/index.ts:202-227) is not modelled.
- The Python resolver beyond the opening checks of `get_moves_for_card` (turn.py:63-78), and `get_center_moves`, `get_king_center_moves`, `get_win_move` and `get_moves` (turn.py:46-50, 90-131), are not modelled. The TypeScript resolver models the same design.
- The Python stubs `make_move` (modelled as returning None), `make_cycle_move`, `make_pile_move`, `print_move` and `Card.qualified_name` are not modelled beyond that.
- Python `next_turn`, `print_board` and `Pile.print_cards` are output only and not modelled.
- The shared mutable default `cards=[]` of `Pile.__init__` is not modelled. The board always passes a new list.
- The test boards and the top-level script (src/index.ts:83-119, solitaire.py:117-136) are not modelled.
- PyCards.Pile.IsCenterPile: models `str.isdigit` on ASCII digits only. Python also counts other Unicode digits (such as '²' or '١') as digits; every pile name the program builds is ASCII ("1" to "7", "draw", "discard", "win…"), so the board's tests are unaffected (PyGames.PileKindsByName).
- Integer widths: rank values, indices and counts stay far below any limit, so unbounded integers are used.

## Findings

| source | as written | input that shows it | evidently intended | confidence | as-written member | corrected member |
|---|---|---|---|---|---|---|
| src/Move/index.ts:68-74 | `makePileMove` reads `pile[pile.length - 1]` after the splice without checking that cards remain | moving a run whose first card is at the bottom of its pile (index 0): the pile becomes empty, reading `isFacedown` of `undefined` throws, and the run already spliced out is on no pile (Moves.BottomPileMoveLosesRun) | only touch a new top card when the pile is not empty | not executed | Moves.Move.MakePileMoveAsWritten | Moves.Move.MakePileMove |
| src/Turn/index.ts:133-134 | `stack !== card.getStack` compares a property name (always a string) with the card's stack, which `dealCards` sets to a number | a King on tableau pile 3 after dealing: `'3' !== 3` holds, so the filter keeps the King's own pile (Turns.KingPilesAsWritten keeps it) and its bottom card is probed needlessly. The moves found are the same: that card is the King itself, which is under examination, or a face-down card dealt below it, and either probe answers [] (src/Turn/index.ts:56, 61) | exclude the King's own pile | not executed | Turns.KingOwnPileKept | Turns.KingPiles |
| move.py:91-97 | `make_moves` loops while `node.next != None`, so it stops before the last node | a chain of one move: the loop body never runs and no move is made (PyMoves.MoveChain.MakeMovesAsWritten) | apply every move of the chain, the last included | not executed | PyMoves.SingleMoveChain | PyMoves.MoveChain.MakeMoves |

=== FILE: boards.dfy ===
/** The board of the TypeScript draft (`Board` in src/Turn/index.ts): an object with one array of
    cards per pile name, which moves and dealing change in place. */
module Boards {

  import opened Stacks
  import opened Cards

  /** No card object occurs twice. */
  ghost predicate NoDuplicates(s: seq<Card>)
  {
    forall c | c in s :: multiset(s)[c] == 1
  }

  /** Every pile is present. */
  ghost predicate Complete(piles: map<PileId, seq<Card>>)
  {
    forall p: PileId :: p in piles
  }

  /** The piles named by `keys`, one after the other. */
  function Flatten(piles: map<PileId, seq<Card>>, keys: seq<PileId>): seq<Card>
    requires Complete(piles)
    decreases |keys|
  {
    if keys == [] then [] else piles[keys[0]] + Flatten(piles, keys[1..])
  }

  predicate DistinctKeys(keys: seq<PileId>)
  {
    forall i, j :: 0 <= i < j < |keys| ==> keys[i] != keys[j]
  }

  function Last<T>(s: seq<T>): T
    requires s != []
  {
    s[|s| - 1]
  }

  /** The top card of a pile, as a frame: nothing for an empty pile. */
  function TopSet(s: seq<Card>): set<Card>
  {
    if s == [] then {} else {Last(s)}
  }

  /** Each of the thirteen piles, once. */
  ghost predicate IsPileOrder(keys: seq<PileId>)
  {
    DistinctKeys(keys) && forall p: PileId :: p in keys
  }

  class Board {
    var piles: map<PileId, seq<Card>>
    /** The order in which `Object.keys`, `Object.values` and `Object.entries` list the piles,
        fixed when the object is built. */
    const order: seq<PileId>

    /** The thirteen piles exist, and no card lies in two places. */
    ghost predicate Valid()
      reads this
    {
      Complete(piles) && IsPileOrder(order) && NoDuplicates(AllCards())
    }

    /** `Object.values(board)` concatenated: the piles in `Object.keys` order. */
    function AllCards(): seq<Card>
      reads this
      requires Complete(piles)
    {
      Flatten(piles, order)
    }

    /** `newBoard`: the thirteen piles, all empty. */
    constructor ()
      ensures piles == (map p | p in InsertionOrder :: []) && order == KeyOrder
      ensures Valid() && AllCards() == []
    {
      piles := map p | p in InsertionOrder :: [];
      order := KeyOrder;
      new;
      EmptyPiles(piles);
      KeyOrderIsPermutation();
    }
  }

  lemma EmptyPiles(piles: map<PileId, seq<Card>>)
    requires piles == map p | p in InsertionOrder :: []
    ensures Complete(piles)
    ensures Flatten(piles, KeyOrder) == []
  {
    InsertionOrderComplete();
    assert forall p | p in piles :: piles[p] == [];
    FlattenEmpty(piles, KeyOrder);
  }

  lemma {:induction false} FlattenEmpty(piles: map<PileId, seq<Card>>, keys: seq<PileId>)
    requires Complete(piles)
    requires forall k | k in piles :: piles[k] == []
    ensures Flatten(piles, keys) == []
    decreases |keys|
  {
    if keys != [] {
      FlattenEmpty(piles, keys[1..]);
    }
  }

  /** Replacing one pile replaces its cards in the concatenation and leaves the other cards. */
  lemma {:induction false} FlattenUpdate(piles: map<PileId, seq<Card>>, keys: seq<PileId>, key: PileId, v: seq<Card>)
    requires Complete(piles)
    requires DistinctKeys(keys) && key in keys
    ensures multiset(Flatten(piles[key := v], keys)) + multiset(piles[key])
         == multiset(Flatten(piles, keys)) + multiset(v)
    decreases |keys|
  {
    var p := piles[key := v];
    if keys[0] == key {
      assert key !in keys[1..];
      FlattenSame(piles, p, keys[1..]);
    } else {
      assert key in keys[1..];
      FlattenUpdate(piles, keys[1..], key, v);
      var a := multiset(piles[keys[0]]);
      assert multiset(Flatten(p, keys)) + multiset(piles[key])
          == a + (multiset(Flatten(p, keys[1..])) + multiset(piles[key]));
      assert multiset(Flatten(piles, keys)) + multiset(v)
          == a + (multiset(Flatten(piles, keys[1..])) + multiset(v));
    }
  }

  /** Piles that agree on `keys` flatten alike. */
  lemma {:induction false} FlattenSame(p: map<PileId, seq<Card>>, q: map<PileId, seq<Card>>, keys: seq<PileId>)
    requires Complete(p) && Complete(q)
    requires forall i :: 0 <= i < |keys| ==> p[keys[i]] == q[keys[i]]
    ensures Flatten(p, keys) == Flatten(q, keys)
    decreases |keys|
  {
    if keys != [] {
      FlattenSame(p, q, keys[1..]);
    }
  }

  /** A card of a listed pile is among the cards of the board. */
  lemma {:induction false} InFlatten(piles: map<PileId, seq<Card>>, keys: seq<PileId>, p: PileId, c: Card)
    requires Complete(piles) && p in keys && c in piles[p]
    ensures c in Flatten(piles, keys)
    decreases |keys|
  {
    if keys[0] != p {
      InFlatten(piles, keys[1..], p, c);
    }
  }

  /** Two different piles are both part of the concatenation. */
  lemma {:induction false} FlattenContains(piles: map<PileId, seq<Card>>, keys: seq<PileId>, a: PileId, b: PileId)
    requires Complete(piles)
    requires DistinctKeys(keys) && a in keys && b in keys
    ensures multiset(piles[a]) <= multiset(Flatten(piles, keys))
    ensures a != b ==> multiset(piles[a]) + multiset(piles[b]) <= multiset(Flatten(piles, keys))
    decreases |keys|
  {
    var rest := keys[1..];
    if keys[0] == a {
      assert a !in rest;
      if a != b {
        assert b in rest;
        FlattenContains(piles, rest, b, b);
      }
    } else if keys[0] == b {
      assert b !in rest && a in rest;
      FlattenContains(piles, rest, a, a);
    } else {
      FlattenContains(piles, rest, a, b);
    }
  }

  /** On a valid board each pile is free of duplicates, and two piles share no card. */
  lemma PilesDisjoint(b: Board, x: PileId, y: PileId)
    requires b.Valid()
    ensures NoDuplicates(b.piles[x])
    ensures x != y ==> forall c :: c in b.piles[x] ==> c !in b.piles[y]
  {
    var keys := b.order;
    FlattenContains(b.piles, keys, x, y);
    var all := multiset(b.AllCards());
    forall c | c in b.piles[x] ensures multiset(b.piles[x])[c] == 1 {
      assert multiset(b.piles[x])[c] <= all[c];
    }
    if x != y {
      forall c | c in b.piles[x] ensures c !in b.piles[y] {
        assert multiset(b.piles[x])[c] + multiset(b.piles[y])[c] <= all[c];
      }
    }
  }
}

=== FILE: cards.dfy ===
/** The card entity of the TypeScript draft (`Card` in src/Card/index.ts): a fixed identity, a
    (suit, rank) pair from the tables, and the pile it lies on plus five flags that moves and
    dealing rewrite in place. */
module Cards {

  import opened Wrappers
  import opened Numerals
  import opened CardSuits
  import opened CardRanks
  import opened Stacks

  /** The part of a card that changes: its pile, the pile's kind and the five flags. */
  datatype CardState = CardState(
    stack: Stack,
    stackType: StackType,
    facedown: bool,
    movable: bool,
    facedownBelow: bool,
    blankBelow: bool,
    nothingAbove: bool)

  /** `suit.getName[0] + rank.getStrValue`: the identity's text, e.g. 'SA', 'H10', 'DK'. */
  function CardKey(s: CatalogSuit, r: CatalogRank): (k: string)
    ensures |k| >= 2 && k[0] == "SHCD"[s.index] && k[1..] == Codes[r.value - 1]
  {
    RankAtValue(r);
    [Initial(s)] + r.code
  }

  /** The text `getId` prints: the key, in brackets when `bracketed`. */
  function CardId(s: CatalogSuit, r: CatalogRank, bracketed: bool): string
  {
    if bracketed then "[" + CardKey(s, r) + "]" else CardKey(s, r)
  }

  /** Reads a key back into the identity it names, if it names one. */
  function ParseCardKey(k: string): Option<(CatalogSuit, CatalogRank)>
  {
    if |k| < 2 then None
    else
      match (SuitOfInitial(k[0]), RankOfCode(k[1..]))
      case (Some(s), Some(r)) => Some((s, r))
      case _ => None
  }

  /** Reads a printed id back into the identity and whether it was bracketed. */
  function ParseId(id: string): Option<(CatalogSuit, CatalogRank, bool)>
  {
    if |id| >= 2 && id[0] == '[' && id[|id| - 1] == ']' then
      match ParseCardKey(id[1..|id| - 1])
      case Some((s, r)) => Some((s, r, true))
      case None => None
    else
      match ParseCardKey(id)
      case Some((s, r)) => Some((s, r, false))
      case None => None
  }

  lemma CardKeyRoundTrip(s: CatalogSuit, r: CatalogRank)
    ensures ParseCardKey(CardKey(s, r)) == Some((s, r))
  {
    SuitOfInitialInverts(s);
    RankOfCodeInverts(r);
  }

  /** The printed id determines the identity and whether the card was shown face down. */
  lemma CardIdRoundTrip(s: CatalogSuit, r: CatalogRank, bracketed: bool)
    ensures ParseId(CardId(s, r, bracketed)) == Some((s, r, bracketed))
  {
    CardKeyRoundTrip(s, r);
    var k := CardKey(s, r);
    SuitAtIndex(s);
    if bracketed {
      var id := "[" + k + "]";
      assert id[1..|id| - 1] == k;
    } else {
      assert k[0] != '[';
    }
  }

  /** Two identities share a key only if they are the same identity, so a key names one card. */
  lemma CardKeyInjective(s: CatalogSuit, r: CatalogRank, s': CatalogSuit, r': CatalogRank)
    ensures CardKey(s, r) == CardKey(s', r') <==> s == s' && r == r'
  {
    CardKeyRoundTrip(s, r);
    CardKeyRoundTrip(s', r');
  }

  class Card {
    const suit: CatalogSuit
    const rank: CatalogRank
    var stack: Stack
    var stackType: StackType
    var facedown: bool
    var movable: bool
    var facedownBelow: bool
    var blankBelow: bool
    var nothingAbove: bool

    /** The recorded pile kind is the kind of the recorded pile. */
    ghost predicate Valid()
      reads this
    {
      stackType == GetStackType(stack)
    }

    function State(): CardState
      reads this
    {
      CardState(stack, stackType, facedown, movable, facedownBelow, blankBelow, nothingAbove)
    }

    /** A new card lies on Draw, face down and movable, with no structural flags, unless the
        caller says otherwise; the pile kind is derived from the pile. */
    constructor (suit: CatalogSuit, rank: CatalogRank, stack: Stack := Str(Draw),
                 facedown: bool := true, movable: bool := true, facedownBelow: bool := false,
                 blankBelow: bool := false, nothingAbove: bool := false)
      ensures this.suit == suit && this.rank == rank
      ensures State() == CardState(stack, GetStackType(stack), facedown, movable,
                                   facedownBelow, blankBelow, nothingAbove)
      ensures Valid()
    {
      this.suit := suit;
      this.rank := rank;
      this.stack := stack;
      this.facedown := facedown;
      this.movable := movable;
      this.facedownBelow := facedownBelow;
      this.blankBelow := blankBelow;
      this.nothingAbove := nothingAbove;
      this.stackType := GetStackType(stack);
    }

    /** `matches`: the same identity (equal rank values and suit indices name the same table
        entries). */
    function Matches(other: Card): (b: bool)
      ensures b <==> suit == other.suit && rank == other.rank
    {
      SuitIndexInjective(suit, other.suit);
      RankValueInjective(rank, other.rank);
      rank.value == other.rank.value && suit.index == other.suit.index
    }

    /** `isWinTarget`: an Ace has none; any other card goes onto the card of its own suit one
        rank lower. */
    function IsWinTarget(target: Card): (b: bool)
      ensures b <==> rank.value > 1 && target.suit == suit && target.rank == Ranks[rank.value - 2]
    {
      RankAtValue(rank);
      RankAtValue(target.rank);
      SuitIndexInjective(suit, target.suit);
      if rank.value == 1 then false
      else target.rank.value == rank.value - 1 && target.suit.index == suit.index
    }

    /** `isStackTarget`: a King has none; any other card goes onto a card of the other colour
        one rank higher. */
    function IsStackTarget(target: Card): (b: bool)
      ensures b <==> rank.value < 13 && target.suit.color != suit.color && target.rank == Ranks[rank.value]
    {
      RankAtValue(rank);
      RankAtValue(target.rank);
      if rank.value == 13 then false
      else target.suit.color != suit.color && target.rank.value - 1 == rank.value
    }

    /** `winStack`: the foundation of the card's suit, a Win pile named 'Win' and the suit's
        initial. */
    function WinStack(): (st: Stack)
      ensures st.Str? && PileOf(st).Foundation? && PileOf(st).suit as int == suit.index
      ensures Key(st) == "Win" + [Initial(suit)] && GetStackType(st) == Win
    {
      var st := Str(WinPile(suit));
      st
    }

    /** `getId(ignoreFacedown)`: the identity's key, bracketed when the card is face down
        unless told to ignore that. */
    function GetId(ignoreFacedown: bool := false): (id: string)
      reads this
      ensures ParseId(id) == Some((suit, rank, !ignoreFacedown && facedown))
      ensures ignoreFacedown ==> id == CardKey(suit, rank)
    {
      CardIdRoundTrip(suit, rank, !ignoreFacedown && facedown);
      CardId(suit, rank, !ignoreFacedown && facedown)
    }

    /** `isInSameStack`: the two recorded piles are the same JavaScript value; the number 3 and
        the string '3' name the same pile but are different values. */
    function IsInSameStack(target: Card): (b: bool)
      reads this, target
      ensures b ==> PileOf(stack) == PileOf(target.stack)
      ensures PileOf(stack) == PileOf(target.stack) && stack.Str? == target.stack.Str? ==> b
    {
      target.stack == stack
    }

    /** `isInWinPile`: the card lies on the foundation of its own suit. */
    function IsInWinPile(): (b: bool)
      reads this
      ensures b <==> PileOf(stack) == WinPile(suit)
      ensures b ==> GetStackType(stack) == Win
    {
      stack == WinStack()
    }

    /** `setStack`: the pile and its kind change together; nothing else does. */
    method SetStack(st: Stack)
      modifies this
      ensures State() == old(State()).(stack := st, stackType := GetStackType(st))
      ensures Valid()
    {
      SetStackType(st);
      stack := st;
    }

    method SetStackType(st: Stack)
      modifies this
      ensures State() == old(State()).(stackType := GetStackType(st))
    {
      stackType := GetStackType(st);
    }

    method SetMovable(m: bool)
      modifies this
      ensures State() == old(State()).(movable := m)
    {
      movable := m;
    }

    method SetFacedownBelow(f: bool)
      modifies this
      ensures State() == old(State()).(facedownBelow := f)
    {
      facedownBelow := f;
    }

    method SetBlankBelow(f: bool)
      modifies this
      ensures State() == old(State()).(blankBelow := f)
    {
      blankBelow := f;
    }

    method SetNothingAbove(f: bool)
      modifies this
      ensures State() == old(State()).(nothingAbove := f)
    {
      nothingAbove := f;
    }

    /** `flip`: turns the card over and changes nothing else, so two flips restore it. */
    method Flip()
      modifies this
      ensures State() == Flipped(old(State()))
    {
      facedown := !facedown;
    }
  }

  function Flipped(st: CardState): (r: CardState)
    ensures r.facedown != st.facedown && r.(facedown := st.facedown) == st
  {
    st.(facedown := !st.facedown)
  }

  /** `matches` is an equivalence: reflexive, symmetric and transitive. */
  lemma MatchesEquivalence(a: Card, b: Card, c: Card)
    ensures a.Matches(a)
    ensures a.Matches(b) ==> b.Matches(a)
    ensures a.Matches(b) && b.Matches(c) ==> a.Matches(c)
  {
  }

  /** The key without brackets is the memo key of the resolver: two cards share it exactly when
      they match. */
  lemma IdKeyMatches(a: Card, b: Card)
    ensures a.GetId(true) == b.GetId(true) <==> a.Matches(b)
  {
    CardKeyInjective(a.suit, a.rank, b.suit, b.rank);
  }

  /** Each suit has its own foundation. */
  lemma WinStackInjective(a: Card, b: Card)
    ensures a.WinStack() == b.WinStack() <==> a.suit == b.suit
  {
    SuitAtIndex(a.suit);
    SuitAtIndex(b.suit);
    SuitIndexInjective(a.suit, b.suit);
  }
}

=== FILE: games.dfy ===
/** The entry file of the TypeScript draft (src/index.ts): the `Game` object with its empty board,
    the cards built from a fixed list of identities, the deterministic deal, the two printed forms
    of a board and the end-of-turn test of `nextTurn`. */
module Games {

  import opened Wrappers
  import opened Numerals
  import opened CardSuits
  import opened CardRanks
  import opened Stacks
  import opened Cards
  import opened Boards
  import opened Moves
  import opened Turns

  /** A `[suitIndex, rankIndex]` entry of a fixed deal. */
  type Pair = (int, int)

  /** The pair names an entry of the suit table and of the rank table. */
  predicate InCatalog(p: Pair)
  {
    0 <= p.0 < 4 && 0 <= p.1 < 13
  }

  predicate AllInCatalog(ps: seq<Pair>)
  {
    forall k | 0 <= k < |ps| :: InCatalog(ps[k])
  }

  /** The identities in the order `createCards` builds them without a fixed list: the suits in
      table order, and within each suit the ranks in table order. */
  function StandardOrder(): (ps: seq<Pair>)
    ensures |ps| == 52
  {
    seq(52, k requires 0 <= k < 52 => (k / 13, k % 13))
  }

  /** Lexicographic order on pairs: by suit, then by rank. */
  predicate PairBefore(a: Pair, b: Pair)
  {
    a.0 < b.0 || (a.0 == b.0 && a.1 < b.1)
  }

  lemma StandardOrderInCatalog()
    ensures AllInCatalog(StandardOrder())
  {
  }

  /** Without a fixed list every one of the 52 identities is built once, suit by suit. */
  lemma StandardOrderComplete()
    ensures AllInCatalog(StandardOrder())
    ensures forall p | InCatalog(p) :: p in StandardOrder()
    ensures forall j, k | 0 <= j < k < 52 :: PairBefore(StandardOrder()[j], StandardOrder()[k])
  {
    var ps := StandardOrder();
    forall p | InCatalog(p) ensures p in ps {
      var k := 13 * p.0 + p.1;
      assert ps[k] == p;
    }
  }

  /** The state `new Card(suit, rank)` starts in: on Draw, face down, movable, no flags. */
  const Undealt: CardState := CardState(Str(Draw), Cycle, true, true, false, false, false)

  /** The suit table entry at index `i`. */
  function SuitAt(i: int): (s: CatalogSuit)
    requires 0 <= i < 4
    ensures s.index == i
  {
    SuitTable();
    Suits[i]
  }

  /** The rank table entry at index `i`. */
  function RankAt(i: int): (r: CatalogRank)
    requires 0 <= i < 13
    ensures r.value == i + 1
  {
    RankTable();
    Ranks[i]
  }

  /** `createCards`: a card per entry of the fixed list, in order, or, for an empty list, a card
      per identity in the standard order. The cards are new, distinct and undealt. */
  method CreateCards(fixedBoard: seq<Pair>) returns (cards: seq<Card>)
    requires AllInCatalog(fixedBoard)
    ensures |fixedBoard| > 0 ==> Pairs(cards) == fixedBoard
    ensures |fixedBoard| == 0 ==> Pairs(cards) == StandardOrder()
    ensures forall k | 0 <= k < |cards| :: fresh(cards[k]) && cards[k].State() == Undealt
    ensures Distinct(cards)
  {
    var pairs := if |fixedBoard| > 0 then fixedBoard else StandardOrder();
    StandardOrderInCatalog();
    cards := NewCards(pairs);
  }

  /** A new card for each pair, in order: the `map` of `createCards`. */
  method NewCards(pairs: seq<Pair>) returns (cards: seq<Card>)
    requires AllInCatalog(pairs)
    ensures Pairs(cards) == pairs
    ensures forall k | 0 <= k < |cards| :: fresh(cards[k]) && cards[k].State() == Undealt
    ensures Distinct(cards)
  {
    cards := [];
    for k := 0 to |pairs|
      invariant |cards| == k
      invariant forall j | 0 <= j < k :: Names(cards[j], pairs[j])
      invariant forall j | 0 <= j < k :: fresh(cards[j]) && cards[j].State() == Undealt
      invariant Distinct(cards)
    {
      var card := NewCard(pairs[k]);
      cards := cards + [card];
    }
    PairsOfNames(cards, pairs);
  }

  /** `new Card(suits[suitIndex], ranks[rankIndex])`, with every other argument defaulted. */
  method NewCard(p: Pair) returns (card: Card)
    requires InCatalog(p)
    ensures fresh(card) && Names(card, p) && card.State() == Undealt
  {
    card := new Card(SuitAt(p.0), RankAt(p.1));
  }

  /** The card is the one the pair names. */
  predicate Names(card: Card, p: Pair)
  {
    card.suit.index == p.0 && card.rank.value == p.1 + 1
  }

  lemma PairsOfNames(cards: seq<Card>, pairs: seq<Pair>)
    requires |cards| == |pairs|
    requires forall j | 0 <= j < |cards| :: Names(cards[j], pairs[j])
    ensures Pairs(cards) == pairs
  {
  }

  /** The pair list of `printBoard`'s stringify path: each card as its suit index and its rank
      value minus one; each pair names the card's own table entries, so it undoes `createCards`. */
  function Pairs(cards: seq<Card>): (ps: seq<Pair>)
    ensures |ps| == |cards| && AllInCatalog(ps)
  {
    seq(|cards|, k requires 0 <= k < |cards| => (cards[k].suit.index, cards[k].rank.value - 1))
  }

  /** Each pair of `Pairs` names the card's own table entries. */
  lemma PairsNameCards(cards: seq<Card>)
    ensures forall k | 0 <= k < |cards| :: SuitAt(Pairs(cards)[k].0) == cards[k].suit && RankAt(Pairs(cards)[k].1) == cards[k].rank
  {
    forall k | 0 <= k < |cards| ensures SuitAt(Pairs(cards)[k].0) == cards[k].suit && RankAt(Pairs(cards)[k].1) == cards[k].rank {
      SuitAtIndex(cards[k].suit);
      RankAtValue(cards[k].rank);
    }
  }

  /** The two numbers of each pair, in order, as decimal numerals. */
  function Numbers(ps: seq<Pair>): (parts: seq<string>)
    requires AllInCatalog(ps)
    ensures |parts| == 2 * |ps|
    ensures forall i | 0 <= i < |parts| :: parts[i] != [] && AllDigits(parts[i])
  {
    if ps == [] then [] else [NatToString(ps[0].0), NatToString(ps[0].1)] + Numbers(ps[1..])
  }

  /** The text the pair list becomes in a template string: every number, separated by commas. */
  function PairsText(ps: seq<Pair>): string
    requires AllInCatalog(ps)
  {
    Numerals.Join(Numbers(ps), ",")
  }

  /** Groups the numbers of a split pair text two by two. */
  function Regroup(parts: seq<string>): seq<Pair>
    requires forall i | 0 <= i < |parts| :: AllDigits(parts[i])
    decreases |parts|
  {
    if |parts| < 2 then [] else [(DigitsValue(parts[0]), DigitsValue(parts[1]))] + Regroup(parts[2..])
  }

  /** Reads a pair text back: an even number of non-empty numerals separated by commas. */
  function ParsePairs(text: string): Option<seq<Pair>>
  {
    if text == [] then Some([])
    else
      var parts := Split(text, ',');
      if |parts| % 2 == 0 && forall i | 0 <= i < |parts| :: parts[i] != [] && AllDigits(parts[i])
      then Some(Regroup(parts))
      else None
  }

  lemma {:induction false} RegroupNumbers(ps: seq<Pair>)
    requires AllInCatalog(ps)
    ensures Regroup(Numbers(ps)) == ps
    decreases |ps|
  {
    if ps != [] {
      RegroupNumbers(ps[1..]);
      NatToStringRoundTrip(ps[0].0);
      NatToStringRoundTrip(ps[0].1);
      assert Numbers(ps)[2..] == Numbers(ps[1..]);
      assert [ps[0]] + ps[1..] == ps;
    }
  }

  /** The printed pair list gives the pairs back. */
  lemma PairsTextRoundTrip(ps: seq<Pair>)
    requires AllInCatalog(ps)
    ensures ParsePairs(PairsText(ps)) == Some(ps)
  {
    var parts := Numbers(ps);
    RegroupNumbers(ps);
    if ps != [] {
      forall i | 0 <= i < |parts| ensures ',' !in parts[i] {
        assert forall j | 0 <= j < |parts[i]| :: IsDigit(parts[i][j]);
      }
      SplitJoin(parts, ',');
      assert PairsText(ps) != [] by {
        assert |parts[0]| > 0;
        JoinStartsWith(parts, ",");
      }
    }
  }

  lemma JoinStartsWith(parts: seq<string>, sep: string)
    requires parts != []
    ensures |Numerals.Join(parts, sep)| >= |parts[0]|
  {
  }

  /** The number of cards the first `n` tableau piles take: 1 + 2 + ... + n. */
  function Dealt(n: int): nat
    requires 0 <= n <= 7
  {
    if n == 0 then 0 else Dealt(n - 1) + n
  }

  /** Where tableau pile `i`'s cards start in the dealing order. */
  function Start(i: TableauNumber): (s: nat)
    ensures s + i as int <= 28
  {
    DealtBound(i as int);
    Dealt(i as int - 1)
  }

  /** Where they end: pile `i` takes `i` cards. */
  function End(i: TableauNumber): (e: nat)
    ensures e == Start(i) + i as int && e <= 28
  {
    DealtBound(i as int);
    Dealt(i as int)
  }

  /** The state `dealCards` leaves the card at position `j` (from the bottom) of tableau pile `i`
      in: on that pile; the bottom card over a blank space and every other one over a face-down
      card; only the top card turned face up, still movable and with nothing above it. */
  function DealtState(i: TableauNumber, j: int): CardState
  {
    CardState(Num(i), Center, j != i as int - 1, j == i as int - 1, j != 0, j == 0, j == i as int - 1)
  }

  class Game {
    const name: string
    const board: Board
    var limit: int
    var count: int

    /** A game starts on `newBoard`: the thirteen piles, all empty. */
    constructor (name: string)
      ensures this.name == name && fresh(board) && limit == 15 && count == 0
      ensures board.Valid() && board.order == KeyOrder && board.AllCards() == []
      ensures forall p: PileId :: board.piles[p] == []
    {
      this.name := name;
      board := new Board();
      limit := 15;
      count := 0;
      new;
      InsertionOrderComplete();
    }

    /** `dealCards` with a fixed list: tableau pile `i` receives the next `i` cards, in order, and
        the remaining cards go to Draw in order; every card ends on the board exactly once. */
    method DealCards(fixedBoard: seq<Pair>) returns (ghost dealt: seq<Card>)
      requires |fixedBoard| >= 28 && AllInCatalog(fixedBoard)
      requires board.Valid()
      modifies board`piles
      ensures board.Valid() && multiset(board.AllCards()) == multiset(old(board.AllCards())) + multiset(dealt)
      ensures Pairs(dealt) == fixedBoard
      ensures forall p: PileId :: board.piles[p] == old(board.piles[p]) + Received(p, dealt)
      ensures forall k | 0 <= k < 28 :: dealt[k].State() == DealtAt(k)
      ensures forall k | 28 <= k < |dealt| :: dealt[k].State() == Undealt
    {
      ghost var oldCards := board.AllCards();
      forall c | c in oldCards ensures allocated(c) {
        var p := FlattenFrom(board.piles, board.order, c);
      }
      var cards := CreateCards(fixedBoard);
      dealt := cards;
      Deal(cards);
      forall k | 0 <= k < |cards| ensures cards[k] !in oldCards {
        assert fresh(cards[k]);
      }
      FreshNoDuplicates(board.AllCards(), oldCards, dealt);
    }

    /** The loops of `dealCards` on the created cards: the tableau, then Draw. */
    method Deal(cards: seq<Card>)
      requires 28 <= |cards| && Distinct(cards)
      requires forall k | 0 <= k < |cards| :: cards[k].State() == Undealt
      requires Complete(board.piles) && IsPileOrder(board.order)
      modifies board`piles, set k | 0 <= k < 28 :: cards[k]
      ensures Complete(board.piles)
      ensures multiset(board.AllCards()) == multiset(old(board.AllCards())) + multiset(cards)
      ensures forall p: PileId :: board.piles[p] == old(board.piles[p]) + Received(p, cards)
      ensures forall k | 0 <= k < 28 :: cards[k].State() == DealtAt(k)
      ensures forall k | 28 <= k < |cards| :: cards[k].State() == Undealt
    {
      ghost var before := board.piles;
      DealTableau(cards);
      DealDraw(cards);
      DealtBoard(before, cards, board.order, board.piles);
      DealtBoardPiles(before, cards, board.piles);
    }

    /** The outer loop of `dealCards`: tableau piles 1 to 7 in turn. */
    method DealTableau(cards: seq<Card>)
      requires 28 <= |cards| && Distinct(cards)
      requires forall k | 0 <= k < |cards| :: cards[k].State() == Undealt
      requires Complete(board.piles)
      modifies board`piles, set k | 0 <= k < 28 :: cards[k]
      ensures board.piles == DealtPiles(old(board.piles), cards, 8)
      ensures forall k | 0 <= k < 28 :: cards[k].State() == DealtAt(k)
      ensures forall k | 28 <= k < |cards| :: cards[k].State() == Undealt
    {
      ghost var before := board.piles;
      var next := 0;
      var i := 1;
      while i <= 7
        invariant 1 <= i <= 8 && next == Dealt(i - 1) && next <= 28
        invariant board.piles == DealtPiles(before, cards, i)
        invariant forall k | 0 <= k < next :: cards[k].State() == DealtAt(k)
        invariant forall k | next <= k < |cards| :: cards[k].State() == Undealt
      {
        DealNextPile(i as TableauNumber, cards, next, before);
        next := next + i;
        i := i + 1;
      }
      assert i == 8 && Dealt(7) == 28;
    }

    /** One pass of the outer loop of `dealCards`: tableau pile `i` receives the next `i` cards
        of the dealing order, and those cards take their dealt states. */
    method DealNextPile(i: TableauNumber, cards: seq<Card>, next: nat, ghost before: map<PileId, seq<Card>>)
      requires 28 <= |cards| && Distinct(cards) && Complete(before) && next == Start(i)
      requires board.piles == DealtPiles(before, cards, i as int)
      requires forall k | 0 <= k < next :: cards[k].State() == DealtAt(k)
      requires forall k | next <= k < |cards| :: cards[k].State() == Undealt
      modifies board`piles, set k | next <= k < End(i) :: cards[k]
      ensures board.piles == DealtPiles(before, cards, i as int + 1)
      ensures forall k | 0 <= k < End(i) :: cards[k].State() == DealtAt(k)
      ensures forall k | End(i) <= k < |cards| :: cards[k].State() == Undealt
    {
      DealPile(i, cards, next, End(i));
      PileDealtAt(i, cards, next);
    }

    /** The inner loop of `dealCards` for tableau pile `i`: its `i` cards, from position `next`
        of the dealing order up to `hi`, each given its flags and placed on the pile. */
    method DealPile(i: TableauNumber, dealt: seq<Card>, next: nat, ghost hi: nat)
      requires next == Start(i) && hi == End(i) && hi <= |dealt| && Distinct(dealt)
      requires forall k | next <= k < hi :: dealt[k].State() == Undealt
      requires Tableau(i) in board.piles
      modifies board`piles, set k | next <= k < hi :: dealt[k]
      ensures board.piles == old(board.piles)[Tableau(i) := old(board.piles[Tableau(i)]) + dealt[next..hi]]
      ensures forall k | next <= k < hi :: dealt[k].State() == DealtState(i, k - next)
    {
      var j := i as int;
      ghost var p0 := board.piles;
      assert dealt[next..next] == [] && p0[Tableau(i)] + [] == p0[Tableau(i)];
      assert p0[Tableau(i) := p0[Tableau(i)]] == p0;
      while j > 0
        invariant 0 <= j <= i as int && next + (i as int - j) <= hi
        invariant board.piles == p0[Tableau(i) := p0[Tableau(i)] + dealt[next..next + (i as int - j)]]
        invariant forall k | next <= k < next + (i as int - j) :: dealt[k].State() == DealtState(i, k - next)
        invariant forall k | next + (i as int - j) <= k < hi :: dealt[k].State() == Undealt
      {
        var at := next + (i as int - j);
        var card := dealt[at];
        DealOne(i, j, card);
        PushCard(Tableau(i), card);
        SliceStep(dealt, next, at, p0[Tableau(i)]);
        UpdateTwice(p0, Tableau(i), p0[Tableau(i)] + dealt[next..at], p0[Tableau(i)] + dealt[next..at + 1]);
        j := j - 1;
      }
    }

    /** The body of the inner loop of `dealCards` for one card, `j` cards below the top of
        pile `i` counting the card itself: its pile, then blank-below for the first card dealt
        and face-down-below for the others, then face up with nothing above for the last card
        dealt and unmovable for the others. */
    static method DealOne(i: TableauNumber, j: int, card: Card)
      requires 1 <= j <= i as int && card.State() == Undealt
      modifies card
      ensures card.State() == DealtState(i, i as int - j)
    {
      card.SetStack(Num(i));
      if i as int != j {
        card.SetFacedownBelow(true);
      } else {
        card.SetBlankBelow(true);
      }
      if j == 1 {
        card.Flip();
        card.SetNothingAbove(true);
      } else {
        card.SetMovable(false);
      }
    }

    /** The last loop of `dealCards`: the cards after the first 28 go to Draw, in order. */
    method DealDraw(cards: seq<Card>)
      requires 28 <= |cards| && Draw in board.piles
      modifies board`piles
      ensures board.piles == old(board.piles)[Draw := old(board.piles[Draw]) + cards[28..]]
    {
      ghost var p0 := board.piles;
      assert p0[Draw] + cards[28..28] == p0[Draw];
      assert p0[Draw := p0[Draw]] == p0;
      var next := 28;
      while next < |cards|
        invariant 28 <= next <= |cards|
        invariant board.piles == p0[Draw := p0[Draw] + cards[28..next]]
      {
        PushCard(Draw, cards[next]);
        SliceStep(cards, 28, next, p0[Draw]);
        UpdateTwice(p0, Draw, p0[Draw] + cards[28..next], p0[Draw] + cards[28..next + 1]);
        next := next + 1;
      }
      assert cards[28..next] == cards[28..];
    }

    /** `nextTurn`: a turn over `board` finds the moves of the critical cards and the move
        chains that free them; the game stops (false) at the turn limit or when no chain was
        found, and otherwise goes on (undefined, here `None`). The turn's `boardIsWinnable` is
        never set, so the answer is never true. */
    method NextTurn(board: Board, limit: int := 15, count: int := 1) returns (r: Option<bool>, threw: bool, ghost turn: Turn)
      requires Complete(board.piles) && IsPileOrder(board.order)
      ensures fresh(turn) && turn.board == board && turn.turnNumber == count && turn.cards == board.AllCards()
      ensures turn.criticalCards == CriticalOf(turn.cards)
      ensures threw ==> turn.Throws()
      ensures !threw ==> (r == Some(false) <==> count == limit || turn.moveChains == [])
      ensures r != Some(true)
      ensures forall k | 0 <= k < |turn.moveChains| ::
                turn.moveChains[k] != [] && exists c | c in turn.criticalCards :: Last(turn.moveChains[k]).card.Matches(c)
      ensures !threw && count != limit && UniqueIds(turn.cards) && (exists c | c in turn.criticalCards :: turn.Playable(c)) ==>
                r == None
    {
      var t := new Turn(board, count);
      turn := t;
      threw := t.Examine();
      if threw {
        return None, true, turn;
      }
      t.GetMoveChains();
      if count == limit || !t.HasPossibleMoves() {
        return Some(false), false, turn;
      }
      if t.boardIsWinnable {
        return Some(true), false, turn;
      }
      r := None;
    }

    /** `this.board[pile].push(card)`. */
    method PushCard(pile: PileId, card: Card)
      requires pile in board.piles
      modifies board`piles
      ensures board.piles == old(board.piles)[pile := old(board.piles[pile]) + [card]]
    {
      board.piles := board.piles[pile := board.piles[pile] + [card]];
    }
  }

  /** No line break and no space: a piece `printBoard` can separate again. */
  predicate Printable(s: string)
  {
    forall i | 0 <= i < |s| :: s[i] != '\n' && s[i] != ' '
  }

  /** What `cards.map((card) => card.getId())` gives. */
  function Ids(cards: seq<Card>): (ids: seq<string>)
    reads set c | c in cards
    ensures |ids| == |cards|
    ensures forall k | 0 <= k < |cards| ::
              ParseId(ids[k]) == Some((cards[k].suit, cards[k].rank, cards[k].facedown)) && Printable(ids[k])
  {
    if cards == [] then []
    else
      IdPrintable(cards[0]);
      [cards[0].GetId()] + Ids(cards[1..])
  }

  lemma IdPrintable(card: Card)
    ensures Printable(card.GetId())
  {
    var k := CardKey(card.suit, card.rank);
    assert forall i | 0 <= i < 13 :: Printable(Codes[i]);
    assert Printable(k[1..]);
  }

  /** The line `printBoard` writes for one pile: its property name, a colon and the ids of its
      cards, separated by spaces. */
  function PileLine(p: PileId, cards: seq<Card>): string
    reads set c | c in cards
  {
    Name(p) + ": " + Numerals.Join(Ids(cards), " ")
  }

  /** The lines of the piles named by `keys`, in that order. */
  function BoardLines(piles: map<PileId, seq<Card>>, keys: seq<PileId>): (lines: seq<string>)
    requires Complete(piles)
    reads set c | c in Flatten(piles, keys)
    ensures |lines| == |keys|
    ensures forall k | 0 <= k < |keys| :: lines[k] == PileLine(keys[k], piles[keys[k]])
    decreases |keys|
  {
    if keys == [] then []
    else
      var n := |keys| - 1;
      FlattenSnoc(piles, keys[..n], keys[n]);
      assert keys[..n] + [keys[n]] == keys;
      BoardLines(piles, keys[..n]) + [PileLine(keys[n], piles[keys[n]])]
  }

  lemma {:induction false} FlattenSnoc(piles: map<PileId, seq<Card>>, keys: seq<PileId>, p: PileId)
    requires Complete(piles)
    ensures Flatten(piles, keys + [p]) == Flatten(piles, keys) + piles[p]
    decreases |keys|
  {
    if keys == [] {
      assert ([p])[1..] == [];
    } else {
      FlattenSnoc(piles, keys[1..], p);
      assert (keys + [p])[1..] == keys[1..] + [p];
    }
  }

  /** Each line followed by a line break. */
  function Text(lines: seq<string>): string
  {
    if lines == [] then "" else lines[0] + "\n" + Text(lines[1..])
  }

  /** `printBoard`: with `stringify`, the pair of every card in property order, as the numbers
      of a template string; otherwise one line per pile, in property order. The console output
      is left out. */
  method PrintBoard(board: Board, stringify: bool := false) returns (result: string)
    requires Complete(board.piles)
    ensures stringify ==> result == PairsText(Pairs(board.AllCards()))
    ensures !stringify ==> result == Text(BoardLines(board.piles, board.order))
  {
    if stringify {
      result := PairsText(Pairs(board.AllCards()));
    } else {
      result := PileLines(board.piles, board.order);
    }
  }

  /** The loop of `printBoard` without `stringify`: a line per pile of `order`, each followed by
      a line break. */
  method PileLines(piles: map<PileId, seq<Card>>, order: seq<PileId>) returns (result: string)
    requires Complete(piles)
    ensures result == Text(BoardLines(piles, order))
  {
    result := "";
    for k := 0 to |order|
      invariant result == Text(BoardLines(piles, order[..k]))
    {
      var stack := order[k];
      BoardTextStep(piles, order, k);
      result := result + PileLine(stack, piles[stack]) + "\n";
    }
    assert order[..|order|] == order;
  }

  /** One more pile adds its line and a line break to the text. */
  lemma BoardTextStep(piles: map<PileId, seq<Card>>, order: seq<PileId>, k: nat)
    requires Complete(piles) && k < |order|
    ensures Text(BoardLines(piles, order[..k + 1]))
         == Text(BoardLines(piles, order[..k])) + PileLine(order[k], piles[order[k]]) + "\n"
  {
    var lines := BoardLines(piles, order[..k]);
    var line := PileLine(order[k], piles[order[k]]);
    var keys := order[..k + 1];
    assert |keys| - 1 == k && keys[..k] == order[..k] && keys[k] == order[k];
    assert BoardLines(piles, keys) == lines + [line];
    TextAppend(lines, line);
  }

  lemma {:induction false} TextAppend(lines: seq<string>, line: string)
    ensures Text(lines + [line]) == Text(lines) + line + "\n"
    decreases |lines|
  {
    if lines == [] {
      assert [line][1..] == [];
    } else {
      TextAppend(lines[1..], line);
      assert (lines + [line])[1..] == lines[1..] + [line];
    }
  }

  /** Split at the line breaks, the text gives its lines back, followed by the empty rest after
      the last break. */
  lemma {:induction false} TextLines(lines: seq<string>)
    requires forall k | 0 <= k < |lines| :: '\n' !in lines[k]
    ensures Split(Text(lines), '\n') == lines + [""]
    decreases |lines|
  {
    if lines != [] {
      TextLines(lines[1..]);
      SplitAppend(lines[0], Text(lines[1..]), '\n');
      assert lines[0] + "\n" + Text(lines[1..]) == lines[0] + ['\n'] + Text(lines[1..]);
      assert [lines[0]] + lines[1..] == lines;
    }
  }

  /** A pile's line starts with the pile's name and a colon and a space; what follows is empty
      for an empty pile, and otherwise splits at the spaces into the cards' ids, which read back
      as the cards' identities and face-down flags. */
  lemma PileLineRoundTrip(p: PileId, cards: seq<Card>)
    ensures var line := PileLine(p, cards);
            var n := |Name(p)| + 2;
            |line| >= n && line[..n] == Name(p) + ": " &&
            (cards == [] ==> line[n..] == "") &&
            (cards != [] ==> Split(line[n..], ' ') == Ids(cards))
  {
    var ids := Ids(cards);
    var line := PileLine(p, cards);
    var n := |Name(p)| + 2;
    assert line == (Name(p) + ": ") + Numerals.Join(ids, " ");
    assert line[n..] == Numerals.Join(ids, " ");
    if cards != [] {
      forall i | 0 <= i < |ids| ensures ' ' !in ids[i] {
        assert Printable(ids[i]);
      }
      SplitJoin(ids, ' ');
    }
  }

  /** The printed board has one line per pile, in property order, and nothing after the last
      line break. */
  lemma BoardTextLines(board: Board)
    requires Complete(board.piles)
    ensures var lines := BoardLines(board.piles, board.order);
            Split(Text(lines), '\n') == lines + [""] &&
            forall k | 0 <= k < |board.order| :: lines[k] == PileLine(board.order[k], board.piles[board.order[k]])
  {
    var lines := BoardLines(board.piles, board.order);
    forall k | 0 <= k < |lines| ensures '\n' !in lines[k] {
      var p := board.order[k];
      NamePrintable(p);
      var ids := Ids(board.piles[p]);
      JoinPrintable(ids);
      assert lines[k] == Name(p) + ": " + Numerals.Join(ids, " ");
    }
    TextLines(lines);
  }

  lemma NamePrintable(p: PileId)
    ensures '\n' !in Name(p)
  {
    if p.Tableau? {
      assert AllDigits(NatToString(p.n as int));
    }
  }

  lemma {:induction false} JoinPrintable(ids: seq<string>)
    requires forall k | 0 <= k < |ids| :: Printable(ids[k])
    ensures '\n' !in Numerals.Join(ids, " ")
    decreases |ids|
  {
    if |ids| > 1 {
      JoinPrintable(ids[1..]);
      assert Printable(ids[0]);
    } else if |ids| == 1 {
      assert Printable(ids[0]);
    }
  }

  /** A card of the concatenation lies in one of the piles. */
  lemma {:induction false} FlattenFrom(piles: map<PileId, seq<Card>>, keys: seq<PileId>, c: Card) returns (p: PileId)
    requires Complete(piles) && c in Flatten(piles, keys)
    ensures c in piles[p]
    decreases |keys|
  {
    if c in piles[keys[0]] {
      p := keys[0];
    } else {
      p := FlattenFrom(piles, keys[1..], c);
    }
  }

  lemma UpdateTwice<K, V>(m: map<K, V>, k: K, a: V, b: V)
    ensures m[k := a][k := b] == m[k := b]
  {
  }

  /** The piles `before` with tableau piles 1 to `upto` - 1 dealt from `cards`, one after the other. */
  ghost function DealtPiles(before: map<PileId, seq<Card>>, cards: seq<Card>, upto: int): (r: map<PileId, seq<Card>>)
    requires 1 <= upto <= 8 && 28 <= |cards| && Complete(before)
    ensures Complete(r)
    decreases upto
  {
    if upto == 1 then before
    else
      var i := (upto - 1) as TableauNumber;
      var d := DealtPiles(before, cards, upto - 1);
      d[Tableau(i) := d[Tableau(i)] + cards[Start(i)..End(i)]]
  }

  /** What `dealCards` adds to pile `p`: tableau pile `i` its `i` cards, Draw the cards after
      the first 28, the other piles nothing. */
  function Received(p: PileId, cards: seq<Card>): seq<Card>
    requires 28 <= |cards|
  {
    match p
    case Tableau(i) => cards[Start(i)..End(i)]
    case Draw => cards[28..]
    case _ => []
  }

  /** Pile by pile: tableau piles 1 to `upto` - 1 received their cards, the others are as they were. */
  lemma {:induction false} DealtPilesAt(before: map<PileId, seq<Card>>, cards: seq<Card>, upto: int, p: PileId)
    requires 1 <= upto <= 8 && 28 <= |cards| && Complete(before)
    ensures DealtPiles(before, cards, upto)[p]
         == if p.Tableau? && p.n as int < upto then before[p] + cards[Start(p.n)..End(p.n)] else before[p]
    decreases upto
  {
    if upto > 1 {
      DealtPilesAt(before, cards, upto - 1, p);
    }
  }

  /** The dealt piles hold the cards they held before and the first `Dealt(upto - 1)` cards. */
  lemma {:induction false} DealtPilesCards(before: map<PileId, seq<Card>>, cards: seq<Card>, order: seq<PileId>, upto: int)
    requires 1 <= upto <= 8 && 28 <= |cards| && Complete(before) && IsPileOrder(order) && Dealt(upto - 1) <= 28
    ensures multiset(Flatten(DealtPiles(before, cards, upto), order)) == multiset(Flatten(before, order)) + multiset(cards[..Dealt(upto - 1)])
    decreases upto
  {
    if upto > 1 {
      var i := (upto - 1) as TableauNumber;
      DealtPilesCards(before, cards, order, upto - 1);
      var d := DealtPiles(before, cards, upto - 1);
      AddToPile(d, order, Tableau(i), cards[Start(i)..End(i)]);
      assert cards[..Start(i)] + cards[Start(i)..End(i)] == cards[..End(i)];
    }
  }

  lemma DealtBoardPiles(before: map<PileId, seq<Card>>, cards: seq<Card>, after: map<PileId, seq<Card>>)
    requires 28 <= |cards| && Complete(before)
    requires after == DealtPiles(before, cards, 8)[Draw := DealtPiles(before, cards, 8)[Draw] + cards[28..]]
    ensures forall p: PileId :: after[p] == before[p] + Received(p, cards)
  {
    forall p: PileId ensures after[p] == before[p] + Received(p, cards) {
      DealtPilesAt(before, cards, 8, p);
    }
  }

  /** All of `dealCards`'s piles: every card dealt is on the board once more than before. */
  lemma DealtBoard(before: map<PileId, seq<Card>>, cards: seq<Card>, order: seq<PileId>, after: map<PileId, seq<Card>>)
    requires 28 <= |cards| && Complete(before) && IsPileOrder(order)
    requires after == DealtPiles(before, cards, 8)[Draw := DealtPiles(before, cards, 8)[Draw] + cards[28..]]
    ensures Complete(after)
    ensures multiset(Flatten(after, order)) == multiset(Flatten(before, order)) + multiset(cards)
  {
    DealtPilesCards(before, cards, order, 8);
    assert Dealt(7) == 28;
    AddToPile(DealtPiles(before, cards, 8), order, Draw, cards[28..]);
    SplitAt(cards, 28);
  }

  lemma SplitAt<T>(s: seq<T>, n: nat)
    requires n <= |s|
    ensures multiset(s[..n]) + multiset(s[n..]) == multiset(s)
  {
    assert s[..n] + s[n..] == s;
  }

  /** Cards that were not on a board free of duplicates, and are distinct, leave it free of
      duplicates when added. */
  lemma FreshNoDuplicates(all: seq<Card>, before: seq<Card>, added: seq<Card>)
    requires multiset(all) == multiset(before) + multiset(added)
    requires NoDuplicates(before) && Distinct(added)
    requires forall c | c in added :: c !in before
    ensures NoDuplicates(all)
  {
    forall c | c in all ensures multiset(all)[c] == 1 {
      if c in added {
        var k :| 0 <= k < |added| && added[k] == c;
        DistinctCount(added, k);
      } else {
        assert multiset(added)[c] == 0;
      }
    }
  }

  lemma {:induction false} DistinctCount(s: seq<Card>, k: nat)
    requires Distinct(s) && k < |s|
    ensures multiset(s)[s[k]] == 1
    decreases |s|
  {
    var n := |s| - 1;
    assert s == s[..n] + [s[n]];
    if k == n {
      assert s[k] !in s[..n];
    } else {
      DistinctCount(s[..n], k);
    }
  }

  lemma SliceStep<T>(s: seq<T>, a: nat, b: nat, prefix: seq<T>)
    requires a <= b < |s|
    ensures s[a..b + 1] == s[a..b] + [s[b]]
    ensures prefix + s[a..b] + [s[b]] == prefix + s[a..b + 1]
    ensures s[..b + 1] == s[..b] + [s[b]]
  {
  }

  /** No card occurs twice in `cards`. */
  predicate Distinct(cards: seq<Card>)
  {
    forall a, b | 0 <= a < b < |cards| :: cards[a] != cards[b]
  }


  lemma {:induction false} DealtBound(n: int)
    requires 0 <= n <= 7
    ensures Dealt(n) <= 28
    decreases 7 - n
  {
    if n < 7 {
      DealtBound(n + 1);
    }
  }

  /** The tableau pile that position `k` of the dealing order goes to. */
  function PileAt(k: int): (i: TableauNumber)
    requires 0 <= k < 28
    ensures Start(i) <= k < End(i)
  {
    PileFrom(k, 1)
  }

  function PileFrom(k: int, i: TableauNumber): (r: TableauNumber)
    requires Start(i) <= k < 28
    ensures Start(r) <= k < End(r)
    decreases 7 - i as int
  {
    if k < End(i) then i else PileFrom(k, i + 1)
  }

  /** The state `dealCards` leaves the card at position `k` of the dealing order in. */
  ghost function DealtAt(k: int): CardState
    requires 0 <= k < 28
  {
    DealtState(PileAt(k), k - Start(PileAt(k)))
  }

  /** The states `DealPile` leaves pile `i`'s cards in are their states in the dealing order. */
  lemma PileDealtAt(i: TableauNumber, dealt: seq<Card>, next: nat)
    requires next == Start(i) && End(i) <= |dealt|
    requires forall k | next <= k < End(i) :: dealt[k].State() == DealtState(i, k - next)
    ensures forall k | next <= k < End(i) :: dealt[k].State() == DealtAt(k)
  {
    forall k | next <= k < End(i) ensures dealt[k].State() == DealtAt(k) {
      PileAtUnique(i, k);
    }
  }

  /** Each position of the dealing order belongs to one tableau pile only. */
  lemma PileAtUnique(i: TableauNumber, k: int)
    requires Start(i) <= k < End(i)
    ensures PileAt(k) == i
  {
    var r := PileAt(k);
    if r < i {
      DealtMonotone(r as int, i as int - 1);
    } else if i < r {
      DealtMonotone(i as int, r as int - 1);
    }
  }

  lemma {:induction false} DealtMonotone(a: int, b: int)
    requires 0 <= a <= b <= 7
    ensures Dealt(a) <= Dealt(b)
    decreases b - a
  {
    if a < b {
      DealtMonotone(a, b - 1);
    }
  }
}

=== FILE: moves.dfy ===
/** A move of the TypeScript draft (`Move` in src/Move/index.ts) and its application to the
    board: the moved cards are spliced out of their pile, appended to the destination, and the
    flags of the cards around the cut and the join are patched in place. */
module Moves {

  import opened Stacks
  import opened Cards
  import opened Boards

  /** `MoveType`: 'Win' or 'Center'. */
  datatype MoveType = ToWin | ToCenter

  /** `k` is the highest position of `pile` holding a card that matches `card`: where the
      downward search from the top stops. */
  predicate TopMatch(card: Card, pile: seq<Card>, k: int)
  {
    0 <= k < |pile| && card.Matches(pile[k]) && forall j :: k < j < |pile| ==> !card.Matches(pile[j])
  }

  /** The cards a move takes from its pile: the found card alone from a Cycle pile, the run from
      the found card to the top otherwise. */
  function Taken(pile: seq<Card>, k: nat, cycle: bool): (run: seq<Card>)
    requires k < |pile|
    ensures run != [] && run[0] == pile[k]
  {
    if cycle then [pile[k]] else pile[k..]
  }

  /** What stays in the pile. */
  function Left(pile: seq<Card>, k: nat, cycle: bool): seq<Card>
    requires k < |pile|
  {
    if cycle then pile[..k] + pile[k + 1..] else pile[..k]
  }

  /** The piles after a move: the taken cards leave `from` and are appended to `to`. */
  function AfterMove(piles: map<PileId, seq<Card>>, from: PileId, to: PileId, k: nat, cycle: bool): map<PileId, seq<Card>>
    requires from in piles && to in piles && k < |piles[from]|
  {
    var removed := piles[from := Left(piles[from], k, cycle)];
    removed[to := removed[to] + Taken(piles[from], k, cycle)]
  }

  /** The destination pile just before the taken cards are appended. */
  function DestBefore(piles: map<PileId, seq<Card>>, from: PileId, to: PileId, k: nat, cycle: bool): seq<Card>
    requires from in piles && to in piles && k < |piles[from]|
  {
    if from == to then Left(piles[from], k, cycle) else piles[to]
  }

  /** The cards whose flags a move patches besides the moved ones: the new top of a Center or
      Win source pile and the old top of the destination. */
  function Tops(src: seq<Card>, dest: seq<Card>, k: nat, cycle: bool): (r: set<Card>)
    requires k < |src|
    ensures forall c | c in r :: (!cycle && 0 < k && c == src[k - 1]) || (dest != [] && c == Last(dest))
  {
    NewTop(src, k, cycle) + TopSet(dest)
  }

  /** The card left on top of a Center or Win source pile, as a frame. */
  function NewTop(src: seq<Card>, k: nat, cycle: bool): set<Card>
    requires k < |src|
  {
    if !cycle && k > 0 then {src[k - 1]} else {}
  }

  /** What taking a card does to it: the first taken card is turned face up (Cycle pile) or
      loses its below-flags (other piles); the rest of a run is untouched. */
  function TakeState(s: CardState, i: nat, cycle: bool): CardState
  {
    if i != 0 then s
    else if cycle then s.(facedown := false)
    else s.(blankBelow := false, facedownBelow := false)
  }

  /** What placing a run does to its i-th card: the first one gets blankBelow when the
      destination was empty, every one lies on the new pile, the last one has nothing above it. */
  function PlaceState(s: CardState, i: nat, n: nat, destEmpty: bool, to: Stack): CardState
  {
    var s1 := if i == 0 && destEmpty then s.(blankBelow := true) else s;
    var s2 := s1.(stack := to, stackType := GetStackType(to));
    if i == n - 1 then s2.(nothingAbove := true) else s2
  }

  /** The flags a moved card ends with. */
  function RunState(s: CardState, i: nat, n: nat, cycle: bool, destEmpty: bool, to: Stack): (r: CardState)
    ensures r.stack == to && r.stackType == GetStackType(to)
    ensures r.facedown == (s.facedown && !(i == 0 && cycle))
    ensures r.nothingAbove == (s.nothingAbove || i == n - 1)
    ensures r.blankBelow == (if i == 0 && destEmpty then true else if i == 0 && !cycle then false else s.blankBelow)
    ensures r.facedownBelow == (if i == 0 && !cycle then false else s.facedownBelow)
    ensures r.movable == s.movable
  {
    PlaceState(TakeState(s, i, cycle), i, n, destEmpty, to)
  }

  lemma TakenLeft(pile: seq<Card>, k: nat, cycle: bool)
    requires k < |pile|
    ensures multiset(Left(pile, k, cycle)) + multiset(Taken(pile, k, cycle)) == multiset(pile)
    ensures !cycle ==> Left(pile, k, cycle) + Taken(pile, k, cycle) == pile
  {
    if cycle {
      assert pile == pile[..k] + [pile[k]] + pile[k + 1..];
    } else {
      assert pile == pile[..k] + pile[k..];
    }
  }

  /** A move keeps every card on the board: the cards over all piles are the same multiset
      before and after, and only the two named piles change. */
  lemma MoveConservesCards(piles: map<PileId, seq<Card>>, keys: seq<PileId>, from: PileId, to: PileId, k: nat, cycle: bool)
    requires Complete(piles) && DistinctKeys(keys) && from in keys && to in keys
    requires k < |piles[from]|
    ensures Complete(AfterMove(piles, from, to, k, cycle))
    ensures multiset(Flatten(AfterMove(piles, from, to, k, cycle), keys)) == multiset(Flatten(piles, keys))
    ensures forall p :: p != from && p != to ==> AfterMove(piles, from, to, k, cycle)[p] == piles[p]
  {
    var src := piles[from];
    TakenLeft(src, k, cycle);
    RemoveFromPile(piles, keys, from, Left(src, k, cycle), Taken(src, k, cycle));
    AddToPile(piles[from := Left(src, k, cycle)], keys, to, Taken(src, k, cycle));
  }

  /** Replacing a pile by part of it takes the other part off the board. */
  lemma RemoveFromPile(piles: map<PileId, seq<Card>>, keys: seq<PileId>, from: PileId, left: seq<Card>, run: seq<Card>)
    requires Complete(piles) && DistinctKeys(keys) && from in keys
    requires multiset(piles[from]) == multiset(left) + multiset(run)
    ensures multiset(Flatten(piles[from := left], keys)) + multiset(run) == multiset(Flatten(piles, keys))
  {
    FlattenUpdate(piles, keys, from, left);
    var f0 := multiset(Flatten(piles, keys));
    var f1 := multiset(Flatten(piles[from := left], keys));
    assert f1 + multiset(run) + multiset(left) == f0 + multiset(left);
    Cancel(f1 + multiset(run), f0, multiset(left));
  }

  /** Appending cards to a pile puts them on the board. */
  lemma AddToPile(piles: map<PileId, seq<Card>>, keys: seq<PileId>, to: PileId, run: seq<Card>)
    requires Complete(piles) && DistinctKeys(keys) && to in keys
    ensures multiset(Flatten(piles[to := piles[to] + run], keys)) == multiset(Flatten(piles, keys)) + multiset(run)
  {
    FlattenUpdate(piles, keys, to, piles[to] + run);
    var f1 := multiset(Flatten(piles, keys));
    var f2 := multiset(Flatten(piles[to := piles[to] + run], keys));
    assert f2 + multiset(piles[to]) == f1 + multiset(run) + multiset(piles[to]);
    Cancel(f2, f1 + multiset(run), multiset(piles[to]));
  }

  lemma Cancel<T>(a: multiset<T>, b: multiset<T>, c: multiset<T>)
    requires a + c == b + c
    ensures a == b
  {
    assert forall x :: a[x] == (a + c)[x] - c[x];
  }

  /** `makePileMove` as written reads the new top of the source pile without checking that one is
      left. When the moved card lay at the bottom, the run has already been spliced out when the
      read fails, and the exception leaves it on no pile: the board has lost those cards. */
  lemma BottomPileMoveLosesRun(piles: map<PileId, seq<Card>>, keys: seq<PileId>, from: PileId)
    requires Complete(piles) && DistinctKeys(keys) && from in keys
    requires piles[from] != []
    requires NoDuplicates(Flatten(piles, keys))
    ensures multiset(Flatten(piles[from := []], keys)) + multiset(piles[from]) == multiset(Flatten(piles, keys))
    ensures forall c :: c in piles[from] ==> c !in Flatten(piles[from := []], keys)
    ensures |Flatten(piles[from := []], keys)| < |Flatten(piles, keys)|
  {
    FlattenUpdate(piles, keys, from, []);
    var after := multiset(Flatten(piles[from := []], keys));
    var before := multiset(Flatten(piles, keys));
    assert after + multiset(piles[from]) == before;
    forall c | c in piles[from] ensures c !in Flatten(piles[from := []], keys) {
      assert before[c] == 1;
      assert after[c] + multiset(piles[from])[c] == 1;
    }
    assert |after| + |multiset(piles[from])| == |before|;
  }

  /** Two positions of a sequence without duplicates hold different objects. */
  lemma DistinctPositions(s: seq<Card>, i: int, j: int)
    requires NoDuplicates(s) && 0 <= i < j < |s|
    ensures s[i] != s[j]
  {
    assert s == s[..j] + s[j..];
    assert s[..j][i] == s[i] && s[j..][0] == s[j];
    assert multiset(s)[s[i]] == multiset(s[..j])[s[i]] + multiset(s[j..])[s[i]];
  }

  /** No two positions of a sequence without duplicates hold the same object. */
  lemma DistinctAll(s: seq<Card>)
    requires NoDuplicates(s)
    ensures forall i, j :: 0 <= i < j < |s| ==> s[i] != s[j]
  {
    forall i, j | 0 <= i < j < |s| ensures s[i] != s[j] {
      DistinctPositions(s, i, j);
    }
  }

  /** The first card of a run taken from a Center or Win pile loses its below-flags. */
  method ClearBelow(c: Card)
    modifies c
    ensures c.State() == old(c.State()).(blankBelow := false, facedownBelow := false)
  {
    if c.blankBelow {
      c.SetBlankBelow(false);
    }
    if c.facedownBelow {
      c.SetFacedownBelow(false);
    }
  }

  /** The card left on top of a Center or Win pile is turned face up with nothing above it. */
  method Uncover(c: Card)
    modifies c
    ensures c.State() == old(c.State()).(facedown := false, nothingAbove := true)
  {
    if c.facedown {
      c.Flip();
    }
    c.SetNothingAbove(true);
  }

  class Move {
    const card: Card
    const targetCard: Card?
    const oldStack: Stack
    var newStack: Stack
    const moveType: MoveType

    /** The pile the card lies on now is recorded as the pile it leaves. */
    constructor (card: Card, targetCard: Card?, newStack: Stack, moveType: MoveType)
      ensures this.card == card && this.targetCard == targetCard
      ensures this.newStack == newStack && this.moveType == moveType
      ensures oldStack == card.stack
    {
      this.card := card;
      this.targetCard := targetCard;
      this.oldStack := card.stack;
      this.newStack := newStack;
      this.moveType := moveType;
    }

    /** `setNewStack`: only the destination changes. */
    method SetNewStack(s: Stack)
      modifies this
      ensures newStack == s
    {
      newStack := s;
    }

    /** The downward search of `makeCycleMove` and `makePileMove`: from the top of the pile to
        the first card that matches. It has no lower bound, so the card must be present. */
    method FindFromTop(pile: seq<Card>) returns (k: int)
      requires exists i :: 0 <= i < |pile| && card.Matches(pile[i])
      ensures TopMatch(card, pile, k)
    {
      k := |pile| - 1;
      var found := card.Matches(pile[k]);
      while !found
        invariant 0 <= k < |pile| && found == card.Matches(pile[k])
        invariant forall j :: k < j < |pile| ==> !card.Matches(pile[j])
        invariant exists i :: 0 <= i <= k && card.Matches(pile[i])
        decreases k
      {
        k := k - 1;
        found := card.Matches(pile[k]);
      }
    }

    /** `makeCycleMove`: removes the topmost matching card from the source pile and returns it,
        turned face up. */
    method MakeCycleMove(board: Board) returns (moved: seq<Card>, k: nat)
      requires Complete(board.piles) && NoDuplicates(board.piles[PileOf(oldStack)])
      requires exists i :: 0 <= i < |board.piles[PileOf(oldStack)]| && card.Matches(board.piles[PileOf(oldStack)][i])
      modifies board, board.piles[PileOf(oldStack)]
      ensures TopMatch(card, old(board.piles[PileOf(oldStack)]), k)
      ensures moved == Taken(old(board.piles[PileOf(oldStack)]), k, true)
      ensures board.piles == old(board.piles)[PileOf(oldStack) := Left(old(board.piles[PileOf(oldStack)]), k, true)]
      ensures moved[0].State() == TakeState(old(moved[0].State()), 0, true)
      ensures forall c :: c in board.piles[PileOf(oldStack)] ==> c.State() == old(c.State())
    {
      var key := PileOf(oldStack);
      var pile := board.piles[key];
      var i := FindFromTop(pile);
      k := i;
      moved := [pile[k]];
      board.piles := board.piles[key := pile[..k] + pile[k + 1..]];
      LeftTakenDisjointAll(pile, k, true);
      if moved[0].facedown {
        moved[0].Flip();
      }
    }

    /** `makePileMove`, with the new top of the source pile patched only when one is left:
        the run from the topmost matching card up is cut off in order, its first card loses its
        below-flags, and the card left on top is turned face up with nothing above it. */
    method MakePileMove(board: Board) returns (moved: seq<Card>, k: nat)
      requires Complete(board.piles) && NoDuplicates(board.piles[PileOf(oldStack)])
      requires exists i :: 0 <= i < |board.piles[PileOf(oldStack)]| && card.Matches(board.piles[PileOf(oldStack)][i])
      modifies board, board.piles[PileOf(oldStack)]
      ensures TopMatch(card, old(board.piles[PileOf(oldStack)]), k)
      ensures moved == Taken(old(board.piles[PileOf(oldStack)]), k, false)
      ensures board.piles == old(board.piles)[PileOf(oldStack) := Left(old(board.piles[PileOf(oldStack)]), k, false)]
      ensures forall i :: 0 <= i < |moved| ==> moved[i].State() == TakeState(old(moved[i].State()), i, false)
      ensures k > 0 ==> var top := old(board.piles[PileOf(oldStack)])[k - 1];
                        top.State() == old(top.State()).(facedown := false, nothingAbove := true)
      ensures forall i :: 0 <= i < k - 1 ==>
                var c := old(board.piles[PileOf(oldStack)])[i]; c.State() == old(c.State())
    {
      var key := PileOf(oldStack);
      var pile := board.piles[key];
      var i := FindFromTop(pile);
      k := i;
      moved := pile[k..];
      board.piles := board.piles[key := pile[..k]];
      DistinctAll(pile);
      ClearBelow(moved[0]);
      if k > 0 {
        Uncover(pile[k - 1]);
      }
    }

    /** `makePileMove` as written: when the moved card lay at the bottom, reading the new top of
        the emptied pile throws (`threw`), after the run has been spliced out and its first card
        patched. */
    method MakePileMoveAsWritten(board: Board) returns (moved: seq<Card>, threw: bool, k: int)
      requires Complete(board.piles) && NoDuplicates(board.piles[PileOf(oldStack)])
      requires exists i :: 0 <= i < |board.piles[PileOf(oldStack)]| && card.Matches(board.piles[PileOf(oldStack)][i])
      modifies board, board.piles[PileOf(oldStack)]
      ensures TopMatch(card, old(board.piles[PileOf(oldStack)]), k)
      ensures threw <==> k == 0
      ensures moved == Taken(old(board.piles[PileOf(oldStack)]), k, false)
      ensures board.piles == old(board.piles)[PileOf(oldStack) := Left(old(board.piles[PileOf(oldStack)]), k, false)]
      ensures forall i :: 0 <= i < |moved| ==> moved[i].State() == TakeState(old(moved[i].State()), i, false)
      ensures k > 0 ==> var top := old(board.piles[PileOf(oldStack)])[k - 1];
                        top.State() == old(top.State()).(facedown := false, nothingAbove := true)
      ensures forall i :: 0 <= i < k - 1 ==>
                var c := old(board.piles[PileOf(oldStack)])[i]; c.State() == old(c.State())
    {
      var key := PileOf(oldStack);
      var pile := board.piles[key];
      k := FindFromTop(pile);
      moved := pile[k..];
      board.piles := board.piles[key := pile[..k]];
      DistinctAll(pile);
      ClearBelow(moved[0]);
      var left := board.piles[key];
      if |left| == 0 {
        // `pile[pile.length - 1]` is undefined and reading `isFacedown` from it throws.
        threw := true;
        return;
      }
      threw := false;
      Uncover(left[|left| - 1]);
    }

    /** `makeMove`: takes the cards (one from a Cycle pile, the run otherwise), appends them in
        order to the destination pile and patches the flags at the join; `moved` is its
        `cardsToMove`. Every card stays on the board, only the source and destination piles
        change, and no card but the moved ones and the two tops at the cut and the join changes
        its flags. The run is cut by the corrected `makePileMove`. */
    method MakeMove(board: Board) returns (k: nat, cycle: bool, moved: seq<Card>)
      requires board.Valid()
      requires exists i :: 0 <= i < |board.piles[PileOf(oldStack)]| && card.Matches(board.piles[PileOf(oldStack)][i])
      modifies board, board.piles[PileOf(oldStack)], board.piles[PileOf(newStack)]
      ensures cycle == (old(card.stackType) == Cycle)
      ensures TopMatch(card, old(board.piles[PileOf(oldStack)]), k)
      ensures moved == Taken(old(board.piles[PileOf(oldStack)]), k, cycle)
      ensures board.piles == AfterMove(old(board.piles), PileOf(oldStack), PileOf(newStack), k, cycle)
      ensures board.Valid() && multiset(board.AllCards()) == multiset(old(board.AllCards()))
      ensures var destEmpty := DestBefore(old(board.piles), PileOf(oldStack), PileOf(newStack), k, cycle) == [];
              forall i :: 0 <= i < |moved| ==>
                moved[i].State() == RunState(old(moved[i].State()), i, |moved|, cycle, destEmpty, newStack)
      ensures var tops := Tops(old(board.piles[PileOf(oldStack)]), DestBefore(old(board.piles), PileOf(oldStack), PileOf(newStack), k, cycle), k, cycle);
              forall c: Card | old(allocated(c)) && c !in moved && c !in tops :: c.State() == old(c.State())
    {
      var from := PileOf(oldStack);
      var to := PileOf(newStack);
      ghost var piles0 := board.piles;
      PilesDisjoint(board, from, to);
      moved, k, cycle := Take(board);
      MoveKeepsValid(piles0, board.order, from, to, k, cycle);
      ghost var dest := DestBefore(piles0, from, to, k, cycle);
      ghost var mid := board.piles;
      assert mid == piles0[from := Left(piles0[from], k, cycle)] && mid[to] == dest;
      label taken:
      Place(board, moved, to, newStack);
      assert board.piles == mid[to := dest + moved] == AfterMove(piles0, from, to, k, cycle);
    }

    /** The first half of `makeMove`: a card on a Cycle pile is taken alone, any other card
        with the cards above it. */
    method Take(board: Board) returns (moved: seq<Card>, k: nat, cycle: bool)
      requires Complete(board.piles) && NoDuplicates(board.piles[PileOf(oldStack)])
      requires exists i :: 0 <= i < |board.piles[PileOf(oldStack)]| && card.Matches(board.piles[PileOf(oldStack)][i])
      modifies board, board.piles[PileOf(oldStack)]
      ensures cycle == (old(card.stackType) == Cycle)
      ensures TopMatch(card, old(board.piles[PileOf(oldStack)]), k)
      ensures moved == Taken(old(board.piles[PileOf(oldStack)]), k, cycle)
      ensures board.piles == old(board.piles)[PileOf(oldStack) := Left(old(board.piles[PileOf(oldStack)]), k, cycle)]
      ensures forall i :: 0 <= i < |moved| ==> moved[i].State() == TakeState(old(moved[i].State()), i, cycle)
      ensures !cycle && k > 0 ==> var top := old(board.piles[PileOf(oldStack)])[k - 1];
                top.State() == old(top.State()).(facedown := false, nothingAbove := true)
      ensures cycle ==> forall c :: c in board.piles[PileOf(oldStack)] ==> c.State() == old(c.State())
      ensures forall c: Card | old(allocated(c)) && c !in moved && c !in NewTop(old(board.piles[PileOf(oldStack)]), k, cycle) ::
                c.State() == old(c.State())
    {
      ghost var src := board.piles[PileOf(oldStack)];
      cycle := card.stackType == Cycle;
      if cycle {
        moved, k := MakeCycleMove(board);
      } else {
        moved, k := MakePileMove(board);
      }
      forall c: Card | old(allocated(c)) && c in src && c !in moved && c !in NewTop(src, k, cycle)
        ensures c.State() == old(c.State())
      {
        SparedByTake(src, k, cycle, c);
      }
    }
  }

  /** A card of the source pile that is neither taken nor the new top lies below it, or is left
      beside the taken card of a Cycle pile. */
  lemma SparedByTake(src: seq<Card>, k: nat, cycle: bool, c: Card)
    requires k < |src| && c in src && c !in Taken(src, k, cycle)
    requires !(!cycle && 0 < k && c == src[k - 1])
    ensures cycle ==> c in Left(src, k, cycle)
    ensures !cycle ==> exists i :: 0 <= i < k - 1 && src[i] == c
  {
    var i :| 0 <= i < |src| && src[i] == c;
    if cycle {
      assert i != k;
      if i < k {
        assert src[..k][i] == c;
      } else {
        assert src[k + 1..][i - k - 1] == c;
      }
    }
  }

  /** The tail of `makeMove`: the join is patched, every moved card is told its new pile, the
      run is appended in order, and its last card has nothing above it. */
  method Place(board: Board, moved: seq<Card>, to: PileId, st: Stack)
    requires Complete(board.piles) && moved != [] && NoDuplicates(moved)
    requires forall c :: c in board.piles[to] ==> c !in moved
    modifies board, TopSet(board.piles[to]), set c | c in moved
    ensures board.piles == old(board.piles)[to := old(board.piles[to]) + moved]
    ensures forall i :: 0 <= i < |moved| ==>
              moved[i].State() == PlaceState(old(moved[i].State()), i, |moved|, old(board.piles[to]) == [], st)
    ensures old(board.piles[to]) != [] ==>
              Last(old(board.piles[to])).State() == old(Last(board.piles[to]).State()).(nothingAbove := false)
    ensures forall c: Card | old(allocated(c)) && c !in moved && c !in TopSet(old(board.piles[to])) :: c.State() == old(c.State())
  {
    var newPile := board.piles[to];
    DistinctAll(moved);
    assert newPile != [] ==> Last(newPile) in newPile && Last(newPile) !in moved;
    Join(newPile, moved[0]);
    Append(board, moved, to, st);
  }

  /** Every moved card is told its new pile, the run is appended in order, and its last card
      has nothing above it. */
  method Append(board: Board, moved: seq<Card>, to: PileId, st: Stack)
    requires Complete(board.piles) && moved != [] && NoDuplicates(moved)
    modifies board, set c | c in moved
    ensures board.piles == old(board.piles)[to := old(board.piles[to]) + moved]
    ensures forall i :: 0 <= i < |moved| ==>
              moved[i].State() == old(moved[i].State()).(stack := st, stackType := GetStackType(st),
                                                         nothingAbove := i == |moved| - 1 || old(moved[i].nothingAbove))
  {
    Relocate(moved, st);
    board.piles := board.piles[to := board.piles[to] + moved];
    DistinctAll(moved);
    moved[|moved| - 1].SetNothingAbove(true);
  }

  /** Moving keeps a board without duplicates free of them, keeps every card, and leaves the
      source pile's cards apart from the destination's. */
  lemma MoveKeepsValid(piles: map<PileId, seq<Card>>, keys: seq<PileId>, from: PileId, to: PileId, k: nat, cycle: bool)
    requires Complete(piles) && IsPileOrder(keys) && NoDuplicates(Flatten(piles, keys)) && k < |piles[from]|
    ensures NoDuplicates(piles[from])
    ensures from != to ==> forall c :: c in piles[from] ==> c !in piles[to]
    ensures Complete(AfterMove(piles, from, to, k, cycle))
    ensures multiset(Flatten(AfterMove(piles, from, to, k, cycle), keys)) == multiset(Flatten(piles, keys))
    ensures NoDuplicates(Flatten(AfterMove(piles, from, to, k, cycle), keys))
    ensures NoDuplicates(Taken(piles[from], k, cycle))
    ensures forall c :: c in DestBefore(piles, from, to, k, cycle) ==> c !in Taken(piles[from], k, cycle)
  {
    FlattenContains(piles, keys, from, to);
    var all := multiset(Flatten(piles, keys));
    forall c | c in piles[from] ensures multiset(piles[from])[c] == 1 {
      assert multiset(piles[from])[c] <= all[c];
    }
    if from != to {
      forall c | c in piles[from] ensures c !in piles[to] {
        assert multiset(piles[from])[c] + multiset(piles[to])[c] <= all[c];
      }
    }
    MoveConservesCards(piles, keys, from, to, k, cycle);
    SamePermutation(Flatten(piles, keys), Flatten(AfterMove(piles, from, to, k, cycle), keys));
    TakenDisjoint(piles, from, to, k, cycle);
  }

  /** The card left on top of a Center or Win pile is neither taken nor on another pile. */
  lemma TopStaysOut(piles: map<PileId, seq<Card>>, from: PileId, to: PileId, k: nat)
    requires from in piles && to in piles && 0 < k < |piles[from]| && NoDuplicates(piles[from])
    requires from != to ==> forall c :: c in piles[from] ==> c !in piles[to]
    ensures piles[from][k - 1] !in Taken(piles[from], k, false)
    ensures from != to ==> piles[from][k - 1] !in piles[to]
    ensures from == to ==> Last(DestBefore(piles, from, to, k, false)) == piles[from][k - 1]
  {
    LeftTakenDisjoint(piles[from], k, false, piles[from][k - 1]);
  }

  /** A rearrangement of a sequence without duplicates has none either. */
  lemma SamePermutation(a: seq<Card>, b: seq<Card>)
    requires NoDuplicates(a) && multiset(a) == multiset(b)
    ensures NoDuplicates(b)
  {
    forall c | c in b ensures multiset(b)[c] == 1 {
      assert c in multiset(b);
    }
  }

  /** The taken cards are distinct, and none of them lies on the destination before the join. */
  lemma TakenDisjoint(piles: map<PileId, seq<Card>>, from: PileId, to: PileId, k: nat, cycle: bool)
    requires from in piles && to in piles && k < |piles[from]|
    requires NoDuplicates(piles[from])
    requires from != to ==> forall c :: c in piles[from] ==> c !in piles[to]
    ensures NoDuplicates(Taken(piles[from], k, cycle))
    ensures forall c :: c in DestBefore(piles, from, to, k, cycle) ==> c !in Taken(piles[from], k, cycle)
  {
    var src := piles[from];
    var run := Taken(src, k, cycle);
    TakenLeft(src, k, cycle);
    var m := multiset(Left(src, k, cycle)) + multiset(run);
    forall c | c in run ensures multiset(run)[c] == 1 {
      assert m[c] == 1;
    }
    forall c | c in DestBefore(piles, from, to, k, cycle) ensures c !in run {
      if from == to {
        LeftTakenDisjoint(src, k, cycle, c);
      } else {
        assert multiset(run)[c] <= m[c];
      }
    }
  }

  /** The join: the destination's top card gets something above it, or the first moved card
      learns that it lies on an empty pile. */
  method Join(dest: seq<Card>, first: Card)
    requires first !in dest
    modifies TopSet(dest), first
    ensures dest != [] ==> Last(dest).State() == old(Last(dest).State()).(nothingAbove := false)
    ensures dest != [] ==> first.State() == old(first.State())
    ensures dest == [] ==> first.State() == old(first.State()).(blankBelow := true)
  {
    if |dest| > 0 {
      dest[|dest| - 1].SetNothingAbove(false);
    } else {
      first.SetBlankBelow(true);
    }
  }

  /** `setStack` on every moved card, in order. */
  method Relocate(cs: seq<Card>, st: Stack)
    requires NoDuplicates(cs)
    modifies set c | c in cs
    ensures forall i :: 0 <= i < |cs| ==>
      cs[i].State() == old(cs[i].State()).(stack := st, stackType := GetStackType(st))
  {
    DistinctAll(cs);
    var i := 0;
    while i < |cs|
      invariant 0 <= i <= |cs|
      invariant forall j :: 0 <= j < i ==> cs[j].State() == old(cs[j].State()).(stack := st, stackType := GetStackType(st))
      invariant forall j :: i <= j < |cs| ==> cs[j].State() == old(cs[j].State())
    {
      cs[i].SetStack(st);
      i := i + 1;
    }
  }

  lemma LeftTakenDisjointAll(pile: seq<Card>, k: nat, cycle: bool)
    requires k < |pile| && NoDuplicates(pile)
    ensures forall c :: c in Left(pile, k, cycle) ==> c !in Taken(pile, k, cycle)
  {
    forall c | c in Left(pile, k, cycle) ensures c !in Taken(pile, k, cycle) {
      LeftTakenDisjoint(pile, k, cycle, c);
    }
  }

  /** A card left in the pile is not among the cards taken from it (the pile has no duplicates). */
  lemma LeftTakenDisjoint(pile: seq<Card>, k: nat, cycle: bool, c: Card)
    requires k < |pile| && NoDuplicates(pile) && c in Left(pile, k, cycle)
    ensures c !in Taken(pile, k, cycle)
  {
    TakenLeft(pile, k, cycle);
    var m := multiset(Left(pile, k, cycle)) + multiset(Taken(pile, k, cycle));
    assert m[c] == 1;
  }
}

=== FILE: numerals.dfy ===
/** Decimal numerals and the handful of string tests the card code relies on:
    JavaScript's `Number.prototype.toString`, `parseInt` and `String.prototype.startsWith`,
    Python's `str`, `str.isdigit` and `str.startswith`, and the two joins used by `printBoard`. */
module Numerals {

  predicate IsDigit(c: char) { '0' <= c <= '9' }

  predicate AllDigits(s: string) { forall i :: 0 <= i < |s| ==> IsDigit(s[i]) }

  function DigitChar(d: nat): (c: char)
    requires d < 10
    ensures IsDigit(c)
  {
    ('0' as int + d) as char
  }

  function DigitValue(c: char): (d: nat)
    requires IsDigit(c)
    ensures d < 10 && DigitChar(d) == c
  {
    c as int - '0' as int
  }

  /** The decimal numeral of `n`, most significant digit first. */
  function NatToString(n: nat): (s: string)
    ensures s != [] && AllDigits(s)
    ensures n > 0 ==> s[0] != '0'
    decreases n
  {
    if n < 10 then [DigitChar(n)] else NatToString(n / 10) + [DigitChar(n % 10)]
  }

  /** `value.toString()` in JavaScript and `f'{value}'` / `str(value)` in Python, for an integer. */
  function IntToString(i: int): string
  {
    if i < 0 then "-" + NatToString(-i) else NatToString(i)
  }

  /** The number a string of decimal digits denotes. */
  function DigitsValue(s: string): nat
    requires AllDigits(s)
    decreases |s|
  {
    if s == [] then 0 else DigitsValue(s[..|s| - 1]) * 10 + DigitValue(s[|s| - 1])
  }

  /** Reading a numeral back gives the number it was written from. */
  lemma {:induction false} NatToStringRoundTrip(n: nat)
    ensures DigitsValue(NatToString(n)) == n
    decreases n
  {
    if n >= 10 {
      NatToStringRoundTrip(n / 10);
      var s := NatToString(n);
      assert s[..|s| - 1] == NatToString(n / 10);
    }
  }

  lemma NatToStringInjective(a: nat, b: nat)
    requires NatToString(a) == NatToString(b)
    ensures a == b
  {
    NatToStringRoundTrip(a);
    NatToStringRoundTrip(b);
  }

  /** `s.startsWith(prefix)` in JavaScript, `s.startswith(prefix)` in Python. */
  predicate StartsWith(s: string, prefix: string)
  {
    |prefix| <= |s| && s[..|prefix|] == prefix
  }

  /** Python's `str.isdigit`, restricted to ASCII digits. */
  predicate PyIsDigit(s: string)
  {
    s != [] && AllDigits(s)
  }

  /** The white space `parseInt` skips before a numeral (StrWhiteSpaceChar of ECMAScript): tab,
      vertical tab, form feed, the byte order mark U+FEFF, the space separators of Unicode
      (U+0020, U+00A0, U+1680, U+2000 to U+200A, U+202F, U+205F, U+3000) and the line
      terminators (line feed, carriage return, U+2028, U+2029). */
  predicate IsJsWhiteSpace(c: char)
  {
    var n := c as int;
    n == 0x09 || n == 0x0A || n == 0x0B || n == 0x0C || n == 0x0D || n == 0x20 || n == 0xA0 ||
    n == 0x1680 || 0x2000 <= n <= 0x200A || n == 0x2028 || n == 0x2029 || n == 0x202F ||
    n == 0x205F || n == 0x3000 || n == 0xFEFF
  }

  predicate IsHexDigit(c: char)
  {
    IsDigit(c) || 'a' <= c <= 'f' || 'A' <= c <= 'F'
  }

  function TrimStart(s: string): (t: string)
    ensures |t| <= |s| && (t == [] || !IsJsWhiteSpace(t[0]))
    decreases |s|
  {
    if s != [] && IsJsWhiteSpace(s[0]) then TrimStart(s[1..]) else s
  }

  /** `!isNaN(parseInt(s))` for a call without a radix, following steps 1 to 11 of
      section 19.2.5 of ECMA-262: white space is skipped, then one sign, then a `0x`/`0X`
      prefix switches to radix 16; the result is NaN exactly when no digit of the radix follows. */
  predicate ParseIntIsNumber(s: string)
  {
    var t := TrimStart(s);
    var u := if t != [] && (t[0] == '+' || t[0] == '-') then t[1..] else t;
    if |u| >= 2 && u[0] == '0' && (u[1] == 'x' || u[1] == 'X') then |u| >= 3 && IsHexDigit(u[2])
    else u != [] && IsDigit(u[0])
  }

  /** A property key JavaScript treats as an array index: a canonical numeral below 2^32 - 1.
      Such keys come first, in ascending order, in `Object.keys` and `Object.values`. */
  predicate IsArrayIndexKey(k: string)
  {
    k != [] && AllDigits(k) && (k[0] != '0' || k == "0") && DigitsValue(k) < 0xFFFF_FFFF
  }

  /** `parts.join(sep)` (JavaScript) / `sep.join(parts)` (Python). */
  function Join(parts: seq<string>, sep: string): (s: string)
    decreases |parts|
  {
    if parts == [] then ""
    else if |parts| == 1 then parts[0]
    else parts[0] + sep + Join(parts[1..], sep)
  }

  /** Splits `s` at every occurrence of `sep`: the inverse of `Join` for parts free of `sep`. */
  function Split(s: string, sep: char): (parts: seq<string>)
    ensures |parts| > 0
    decreases |s|
  {
    if s == [] then [""]
    else
      var rest := Split(s[1..], sep);
      if s[0] == sep then [""] + rest else [[s[0]] + rest[0]] + rest[1..]
  }

  lemma {:induction false} SplitNoSeparator(s: string, sep: char)
    requires sep !in s
    ensures Split(s, sep) == [s]
    decreases |s|
  {
    if s != [] {
      SplitNoSeparator(s[1..], sep);
      assert [s[0]] + s[1..] == s;
    }
  }

  lemma {:induction false} SplitAppend(a: string, b: string, sep: char)
    requires sep !in a
    ensures Split(a + [sep] + b, sep) == [a] + Split(b, sep)
    decreases |a|
  {
    if a == [] {
      assert a + [sep] + b == [sep] + b;
      assert ([sep] + b)[1..] == b;
    } else {
      SplitAppend(a[1..], b, sep);
      assert (a + [sep] + b)[1..] == a[1..] + [sep] + b;
      assert [a[0]] + a[1..] == a;
    }
  }

  /** Splitting a join at the separator gives the parts back. */
  lemma {:induction false} SplitJoin(parts: seq<string>, sep: char)
    requires parts != []
    requires forall i :: 0 <= i < |parts| ==> sep !in parts[i]
    ensures Split(Join(parts, [sep]), sep) == parts
    decreases |parts|
  {
    if |parts| == 1 {
      SplitNoSeparator(parts[0], sep);
    } else {
      SplitJoin(parts[1..], sep);
      SplitAppend(parts[0], Join(parts[1..], [sep]), sep);
      assert [parts[0]] + parts[1..] == parts;
    }
  }
}

=== FILE: py_cards.dfy ===
/** The card and the pile of the Python draft (card.py, pile.py). A card holds its suit and rank
    from the tables, the pile it was last added to and four flags; a pile holds its name, its
    display name, its kind and the list of its cards, bottom first. The two refer to each other,
    so they share a module. */
module PyCards {

  import opened Wrappers
  import opened Numerals
  import opened CardSuits
  import opened CardRanks
  import opened Stacks
  import opened PyLists

  /** The position of an identity in the resolver's `visited` grid: the suit's index and the
      rank's value less one. */
  type Cell = (int, int)

  /** `f'{suit.name[0]}{rank.value}'` for the identity at `cell`: the suit's initial and the
      decimal value, e.g. 'S1', 'H10', 'D13'; the rank's key is not used. */
  function KeyOf(cell: Cell): (k: string)
    requires 0 <= cell.0 < 4 && 0 <= cell.1 < 13
    ensures |k| >= 2 && k[0] == "SHCD"[cell.0] && k[1..] == NatToString(cell.1 + 1)
  {
    ["SHCD"[cell.0]] + NatToString(cell.1 + 1)
  }

  /** Reads an unbracketed id back into the cell of the identity it names, if it names one. */
  function ParseKey(k: string): Option<Cell>
  {
    if |k| < 2 || !AllDigits(k[1..]) then None
    else
      var v := DigitsValue(k[1..]);
      var i := if k[0] == 'S' then 0 else if k[0] == 'H' then 1 else if k[0] == 'C' then 2
               else if k[0] == 'D' then 3 else -1;
      if 0 <= i && 1 <= v <= 13 && NatToString(v) == k[1..] then Some((i, v - 1)) else None
  }

  /** Reads a printed id back into the cell it names and whether it was bracketed. */
  function ParseId(id: string): Option<(Cell, bool)>
  {
    if |id| >= 2 && id[0] == '[' && id[|id| - 1] == ']' then
      match ParseKey(id[1..|id| - 1])
      case Some(cell) => Some((cell, true))
      case None => None
    else
      match ParseKey(id)
      case Some(cell) => Some((cell, false))
      case None => None
  }

  lemma KeyRoundTrip(cell: Cell)
    requires 0 <= cell.0 < 4 && 0 <= cell.1 < 13
    ensures ParseKey(KeyOf(cell)) == Some(cell)
  {
    NatToStringRoundTrip(cell.1 + 1);
  }

  /** The id text, bracketed or not, determines the identity and the bracket. */
  lemma IdRoundTrip(cell: Cell, bracketed: bool)
    requires 0 <= cell.0 < 4 && 0 <= cell.1 < 13
    ensures ParseId(if bracketed then "[" + KeyOf(cell) + "]" else KeyOf(cell)) == Some((cell, bracketed))
  {
    KeyRoundTrip(cell);
    var k := KeyOf(cell);
    if bracketed {
      var id := "[" + k + "]";
      assert id[1..|id| - 1] == k;
    } else {
      assert k[0] != '[';
    }
  }

  /** The four flags and the pile of a card: the part that changes. */
  datatype CardState = CardState(
    facedown: bool,
    pile: Pile?,
    facedownBelow: bool,
    nothingAbove: bool,
    nothingBelow: bool)

  class Card {
    const suit: CatalogSuit
    const rank: CatalogRank
    var facedown: bool
    var pile: Pile?
    var facedownBelow: bool
    var nothingAbove: bool
    var nothingBelow: bool

    function State(): CardState
      reads this
    {
      CardState(facedown, pile, facedownBelow, nothingAbove, nothingBelow)
    }

    /** The identity's cell in the `visited` grid. */
    function Cell(): (cell: Cell)
      ensures 0 <= cell.0 < 4 && 0 <= cell.1 < 13
    {
      (suit.index, rank.value - 1)
    }

    /** A new card is face up, on no pile, with all three structural flags clear, unless the
        caller says otherwise. */
    constructor (suit: CatalogSuit, rank: CatalogRank, pile: Pile? := null, facedown: bool := false,
                 facedownBelow: bool := false, nothingAbove: bool := false, nothingBelow: bool := false)
      ensures this.suit == suit && this.rank == rank
      ensures State() == CardState(facedown, pile, facedownBelow, nothingAbove, nothingBelow)
    {
      this.suit := suit;
      this.rank := rank;
      this.facedown := facedown;
      this.pile := pile;
      this.facedownBelow := facedownBelow;
      this.nothingAbove := nothingAbove;
      this.nothingBelow := nothingBelow;
    }

    /** `win_pile`: the name of the foundation of the card's suit, 'win' and the upper-case
        initial. */
    function WinPile(): (name: string)
      ensures |name| == 4 && StartsWith(name, "win") && SuitOfInitial(name[3]) == Some(suit)
    {
      SuitOfInitialInverts(suit);
      "win" + [Initial(suit)]
    }

    /** `in_win_pile`: the card's pile is named like a foundation, of any suit; reading the name
        of a missing pile raises AttributeError (`None`). */
    function InWinPile(): (r: Option<bool>)
      reads this
      ensures r.None? <==> pile == null
      ensures r == Some(true) <==> pile != null && pile.IsWinPile()
    {
      if pile == null then None else Some(StartsWith(pile.name, "win"))
    }

    /** `id(show_facedown)`: the identity's text, bracketed when the card is face down and the
        caller asks to show that. */
    function Id(showFacedown: bool := true): (id: string)
      reads this
      ensures ParseId(id) == Some((Cell(), showFacedown && facedown))
      ensures !showFacedown ==> id == KeyOf(Cell())
    {
      IdRoundTrip(Cell(), showFacedown && facedown);
      if showFacedown && facedown then "[" + KeyOf(Cell()) + "]" else KeyOf(Cell())
    }

    /** `flip`: turns the card over and changes nothing else, so two flips restore it. */
    method Flip()
      modifies this
      ensures State() == old(State()).(facedown := !old(facedown))
    {
      facedown := !facedown;
    }

    method SetPile(newPile: Pile?)
      modifies this
      ensures State() == old(State()).(pile := newPile)
    {
      pile := newPile;
    }

    method SetFacedownBelow(f: bool)
      modifies this
      ensures State() == old(State()).(facedownBelow := f)
    {
      facedownBelow := f;
    }

    method SetNothingAbove(f: bool)
      modifies this
      ensures State() == old(State()).(nothingAbove := f)
    {
      nothingAbove := f;
    }

    method SetNothingBelow(f: bool)
      modifies this
      ensures State() == old(State()).(nothingBelow := f)
    {
      nothingBelow := f;
    }
  }

  /** `cards_match`: the same suit and the same rank, i.e. the same identity. */
  predicate CardsMatch(a: Card, b: Card): (r: bool)
    ensures r <==> a.Cell() == b.Cell()
  {
    SuitIndexInjective(a.suit, b.suit);
    RankValueInjective(a.rank, b.rank);
    a.suit == b.suit && a.rank == b.rank
  }

  /** `cards_in_same_pile`: `Pile` has no `__eq__`, so `==` compares pile objects. Both cards
      lie on one and the same pile, or both lie on none. */
  predicate CardsInSamePile(a: Card, b: Card): (r: bool)
    reads a, b
    ensures r <==> (a.pile == null && b.pile == null) || (a.pile != null && b.pile != null && a.pile == b.pile)
  {
    a.pile == b.pile
  }

  /** `card_is_center_target`: a King has none; any other card goes onto a card of the other
      colour one rank higher. */
  function CardIsCenterTarget(card: Card, target: Card): (b: bool)
    ensures b <==> card.rank.value < 13 && card.suit.color != target.suit.color
                   && target.rank == Ranks[card.rank.value]
  {
    RankAtValue(card.rank);
    RankAtValue(target.rank);
    if card.rank.value == 13 then false
    else if card.suit.color == target.suit.color then false
    else card.rank.value == target.rank.value - 1
  }

  /** `card_is_win_target`: an Ace has none; any other card goes onto the card of its own suit
      one rank lower. */
  function CardIsWinTarget(card: Card, target: Card): (b: bool)
    ensures b <==> card.rank.value > 1 && target.suit == card.suit
                   && target.rank == Ranks[card.rank.value - 2]
  {
    RankAtValue(card.rank);
    RankAtValue(target.rank);
    SuitIndexInjective(card.suit, target.suit);
    if card.rank.value == 1 then false
    else if card.suit.index != target.suit.index then false
    else card.rank.value == target.rank.value + 1
  }

  /** Two cards match exactly when their unbracketed ids are equal and exactly when they share a
      cell of the `visited` grid: the id is the resolver's cache key, the cell its visit mark. */
  lemma MatchByIdAndCell(a: Card, b: Card)
    ensures CardsMatch(a, b) <==> a.Id(false) == b.Id(false)
    ensures CardsMatch(a, b) <==> a.Cell() == b.Cell()
  {
    SuitIndexInjective(a.suit, b.suit);
    RankValueInjective(a.rank, b.rank);
    KeyRoundTrip(a.Cell());
    KeyRoundTrip(b.Cell());
  }

  /** A card has at most one win target identity, and no target is both a center target and a
      win target of the same card. */
  lemma TargetsDisjoint(card: Card, t: Card, u: Card)
    ensures CardIsWinTarget(card, t) && CardIsWinTarget(card, u) ==> CardsMatch(t, u)
    ensures !(CardIsCenterTarget(card, t) && CardIsWinTarget(card, t))
  {
  }

  /** The center-target colour test is a parity test on suit indices, and a center target is one
      rank up while a win target is one rank down: the target's rank decides which predicate can
      hold. */
  lemma TargetRanks(card: Card, t: Card)
    ensures CardIsCenterTarget(card, t) ==> card.suit.index % 2 != t.suit.index % 2
                                            && t.rank.value == card.rank.value + 1
    ensures CardIsWinTarget(card, t) ==> t.rank.value == card.rank.value - 1
  {
    ColorByParity(card.suit, t.suit);
    RankTable();
  }

  /** A foundation name check is weaker than the card's own foundation: `in_win_pile` holds on
      the foundation of another suit too. */
  lemma InWinPileAnySuit(card: Card)
    requires card.pile != null && card.pile.name == "winH" && card.suit.index == 0
    ensures card.InWinPile() == Some(true) && card.pile.name != card.WinPile()
  {
  }

  class Pile {
    const name: string
    const qualifiedName: string
    const kind: StackType
    var cards: seq<Card>

    constructor (name: string, qualifiedName: string, kind: StackType, cards: seq<Card>)
      ensures this.name == name && this.qualifiedName == qualifiedName && this.kind == kind
      ensures this.cards == cards
    {
      this.name := name;
      this.qualifiedName := qualifiedName;
      this.kind := kind;
      this.cards := cards;
    }

    /** `at_index(idx)`: the card at a Python index, counted from the top when negative;
        IndexError (`None`) outside the list. */
    function AtIndex(idx: int): (r: Option<Card>)
      reads this
      ensures r.Some? <==> -|cards| <= idx < |cards|
      ensures r.Some? ==> r.value == cards[if idx < 0 then |cards| + idx else idx]
    {
      match Index(idx, |cards|)
      case Some(k) => Some(cards[k])
      case None => None
    }

    /** `top_card`: the last card; IndexError on an empty pile. */
    function TopCard(): (r: Option<Card>)
      reads this
      ensures r.Some? <==> cards != []
      ensures r.Some? ==> r.value == cards[|cards| - 1]
    {
      AtIndex(-1)
    }

    /** `get_index(card)`: the position of the first occurrence; ValueError when absent. */
    function GetIndex(card: Card): (r: Option<nat>)
      reads this
      ensures r.Some? <==> card in cards
      ensures r.Some? ==> r.value < |cards| && cards[r.value] == card && card !in cards[..r.value]
    {
      IndexOf(cards, card)
    }

    function Length(): (n: nat)
      reads this
      ensures n == |cards|
    {
      |cards|
    }

    function IsEmpty(): (e: bool)
      reads this
      ensures e <==> TopCard().None?
    {
      Length() == 0
    }

    /** `is_center_pile`: the name is a non-empty string of digits, so a pile named like a
        foundation is not one. */
    predicate IsCenterPile(): (r: bool)
      ensures r ==> !StartsWith(name, "win")
    {
      assert PyIsDigit(name) ==> IsDigit(name[0]);
      PyIsDigit(name)
    }

    /** `is_win_pile`: the name starts with 'win', so a pile named by a number is not one. */
    predicate IsWinPile(): (r: bool)
      ensures r ==> !PyIsDigit(name)
    {
      assert StartsWith(name, "win") ==> name[0] == "win"[0];
      StartsWith(name, "win")
    }

    /** `add_card`: the card records this pile and goes on top. */
    method AddCard(card: Card)
      modifies this, card
      ensures cards == old(cards) + [card]
      ensures card.State() == old(card.State()).(pile := this)
      ensures TopCard() == Some(card) && Length() == old(Length()) + 1
    {
      card.SetPile(this);
      cards := cards + [card];
    }

    /** `remove_card(index)`: takes out and returns the card at a Python index, the top by
        default; the others keep their order. IndexError (`None`, nothing removed) outside the
        list. */
    method RemoveCard(index: int := -1) returns (r: Option<Card>)
      modifies this
      ensures Index(index, old(|cards|)).None? ==> r.None? && cards == old(cards)
      ensures Index(index, old(|cards|)).Some? ==>
        var k := Index(index, old(|cards|)).value;
        r == Some(old(cards)[k]) && cards == old(cards)[..k] + old(cards)[k + 1..]
      ensures r.Some? ==> multiset(cards) + multiset{r.value} == multiset(old(cards))
    {
      match Index(index, |cards|)
      case None =>
        r := None;
      case Some(k) =>
        r := Some(cards[k]);
        assert cards == cards[..k] + [cards[k]] + cards[k + 1..];
        cards := cards[..k] + cards[k + 1..];
    }

    /** `slice_cards(start, end)`: returns `cards[start:end]` and keeps `cards[0:start]`. */
    method SliceCards(start: int, end: int) returns (slice: seq<Card>)
      modifies this
      ensures slice == Slice(old(cards), start, end)
      ensures cards == Slice(old(cards), 0, start)
    {
      slice := Slice(cards, start, end);
      cards := Slice(cards, 0, start);
    }

    /** `has_facedown`: counts the face-down cards and answers whether there is any. */
    method HasFacedown() returns (r: bool)
      ensures r <==> exists k | 0 <= k < |cards| :: cards[k].facedown
    {
      var count := 0;
      var i := 0;
      while i < |cards|
        invariant 0 <= i <= |cards|
        invariant count >= 0
        invariant count > 0 <==> exists k | 0 <= k < i :: cards[k].facedown
      {
        if cards[i].facedown {
          count := count + 1;
        }
        i := i + 1;
      }
      r := count > 0;
    }
  }

  /** `get_index` and `at_index` agree: the card found by one is read back by the other. */
  lemma IndexRoundTrip(p: Pile, c: Card)
    requires c in p.cards
    ensures p.GetIndex(c).Some? && p.AtIndex(p.GetIndex(c).value) == Some(c)
  {
  }

  /** `slice_cards` loses the cards from `end` upward: with `0 <= start <= end < len`, what the
      pile keeps and what it returns are fewer than it held. */
  lemma SliceCardsDropsTail(s: seq<Card>, start: int, end: int)
    requires 0 <= start <= end < |s|
    ensures Slice(s, 0, start) + Slice(s, start, end) == s[..end]
    ensures |Slice(s, 0, start)| + |Slice(s, start, end)| < |s|
  {
  }

  /** Slicing to the end keeps every card: the kept prefix and the returned run make up the
      old list. */
  lemma SliceCardsToEnd(s: seq<Card>, start: int, end: int)
    requires 0 <= start <= |s| <= end
    ensures Slice(s, 0, start) + Slice(s, start, end) == s
  {
    assert s[..start] + s[start..] == s;
  }
}

=== FILE: py_games.dfy ===
/** The entry file of the Python draft (solitaire.py): the board of thirteen named piles, the
    cards built from a fixed list of (suit, rank) indices, the deal and the card list of a board. */
module PyGames {

  import opened Wrappers
  import opened Numerals
  import opened CardSuits
  import opened CardRanks
  import opened Stacks
  import opened PyLists
  import opened PyCards
  import opened PyTurns
  import Games

  /** A `(suit index, rank index)` entry of a fixed deal. */
  type Pair = (int, int)

  function Min(a: int, b: int): int
  {
    if a <= b then a else b
  }

  /** The cell of `Card(suits[s], ranks[r])`: Python indices, so a negative index counts from
      the end of the table, and one outside the table raises IndexError (`None`). */
  function PairCell(p: Pair): (r: Option<Cell>)
    ensures r.Some? <==> -4 <= p.0 < 4 && -13 <= p.1 < 13
    ensures r.Some? ==> r.value.0 == (if p.0 < 0 then p.0 + 4 else p.0)
                        && r.value.1 == (if p.1 < 0 then p.1 + 13 else p.1)
  {
    match (Index(p.0, 4), Index(p.1, 13))
    case (Some(s), Some(r)) => Some((s as int, r as int))
    case _ => None
  }

  /** A pair inside both tables names the same identity in both drafts: Python's `suits[s]`,
      `ranks[r]` and the TypeScript `createCards` agree there. */
  lemma PairCellCatalog(p: Pair)
    requires Games.InCatalog(p)
    ensures PairCell(p) == Some(p)
  {
  }

  /** The state a new card starts in: face up, on no pile, no flags. */
  const Fresh: CardState := CardState(false, null, false, false, false)

  predicate DistinctCards(cs: seq<Card>)
  {
    forall a, b | 0 <= a < b < |cs| :: cs[a] != cs[b]
  }

  predicate DistinctPiles(ps: seq<Pile>)
  {
    forall a, b | 0 <= a < b < |ps| :: ps[a] != ps[b]
  }

  /** `create_cards` with a fixed list: a new card per pair, in order; IndexError (`None`) when
      some pair is outside the tables. */
  method CreateCards(fixed: seq<Pair>) returns (r: Option<seq<Card>>)
    requires fixed != []
    ensures r.None? <==> exists k | 0 <= k < |fixed| :: PairCell(fixed[k]).None?
    ensures r.Some? ==> |r.value| == |fixed| && DistinctCards(r.value)
    ensures r.Some? ==> forall k | 0 <= k < |fixed| ::
      fresh(r.value[k]) && Some(r.value[k].Cell()) == PairCell(fixed[k]) && r.value[k].State() == Fresh
  {
    var cards: seq<Card> := [];
    for k := 0 to |fixed|
      invariant |cards| == k
      invariant forall j | 0 <= j < k :: PairCell(fixed[j]).Some?
      invariant forall j | 0 <= j < k ::
        fresh(cards[j]) && Some(cards[j].Cell()) == PairCell(fixed[j]) && cards[j].State() == Fresh
      invariant DistinctCards(cards)
    {
      var cell := PairCell(fixed[k]);
      if cell.None? {
        return None;
      }
      var card := new Card(Games.SuitAt(cell.value.0), Games.RankAt(cell.value.1));
      cards := cards + [card];
    }
    return Some(cards);
  }

  const CycleKeys: seq<string> := ["draw", "discard"]
  const CenterKeys: seq<string> := ["1", "2", "3", "4", "5", "6", "7"]
  const WinKeys: seq<string> := ["winS", "winH", "winC", "winD"]

  const CycleLabels: seq<string> := ["Draw", "Discard"]
  const CenterLabels: seq<string> := ["Pile 1", "Pile 2", "Pile 3", "Pile 4", "Pile 5", "Pile 6", "Pile 7"]
  const WinLabels: seq<string> := ["Win (Spades)", "Win (Hearts)", "Win (Clubs)", "Win (Diamonds)"]

  /** A group of `new_board`: one pile per key, named after its key, with its display name and
      the group's kind. */
  predicate GroupShaped(g: seq<Entry>, keys: seq<string>, labels: seq<string>, kind: StackType)
    requires |keys| == |labels|
  {
    |g| == |keys| && forall k | 0 <= k < |g| ::
      g[k].key == keys[k] && g[k].pile.name == keys[k] && g[k].pile.qualifiedName == labels[k] && g[k].pile.kind == kind
  }

  /** The shape `new_board` gives a board: the cycle group holds 'draw' and 'discard', the
      center group '1' to '7', the win group 'winS', 'winH', 'winC', 'winD'; each pile is named
      after its key and has the kind of its group. */
  predicate Shaped(b: Board)
  {
    GroupShaped(b.cycle, CycleKeys, CycleLabels, Cycle) && GroupShaped(b.center, CenterKeys, CenterLabels, Center)
    && GroupShaped(b.win, WinKeys, WinLabels, Win)
  }

  /** The thirteen keys of a board, group by group. */
  const BoardKeys: seq<string> := CycleKeys + CenterKeys + WinKeys

  lemma BoardKeysDistinct()
    ensures |BoardKeys| == 13
    ensures forall x, y | 0 <= x < y < 13 :: BoardKeys[x] != BoardKeys[y]
  {
  }

  /** On a board of that shape the thirteen piles are thirteen different piles, as they carry
      thirteen different names. */
  lemma ShapedDistinct(b: Board)
    requires Shaped(b)
    ensures DistinctPiles(GetPiles(b))
  {
    var ps := GetPiles(b);
    BoardKeysDistinct();
    forall k | 0 <= k < 13 ensures ps[k].name == BoardKeys[k] {
      if k < 2 {
        assert ps[k] == b.cycle[k].pile;
      } else if k < 9 {
        assert ps[k] == b.center[k - 2].pile;
      } else {
        assert ps[k] == b.win[k - 9].pile;
      }
    }
  }

  /** The center keys are the numerals of 1 to 7, and the win keys 'win' and a suit initial. */
  lemma KeysSpelled()
    ensures forall k | 0 <= k < 7 :: CenterKeys[k] == NatToString(k + 1)
    ensures forall k | 0 <= k < 4 :: WinKeys[k] == "win" + ["SHCD"[k]]
  {
  }

  /** `new_board`: thirteen new, empty piles in the shape above. */
  method NewBoard() returns (b: Board)
    ensures Shaped(b) && DistinctPiles(GetPiles(b))
    ensures forall k | 0 <= k < 13 :: fresh(GetPiles(b)[k]) && GetPiles(b)[k].cards == []
  {
    var cycle := NewCycleGroup();
    var center := NewCenterGroup();
    var win := NewWinGroup();
    b := Board(cycle, center, win);
    var ps := GetPiles(b);
    assert ps == Values(cycle) + Values(center) + Values(win);
    ShapedDistinct(b);
  }

  method NewCycleGroup() returns (g: seq<Entry>)
    ensures GroupShaped(g, CycleKeys, CycleLabels, Cycle)
    ensures forall k | 0 <= k < |g| :: fresh(g[k].pile) && g[k].pile.cards == []
  {
    var draw := new Pile("draw", "Draw", Cycle, []);
    var discard := new Pile("discard", "Discard", Cycle, []);
    g := [Entry("draw", draw), Entry("discard", discard)];
  }

  method NewCenterGroup() returns (g: seq<Entry>)
    ensures GroupShaped(g, CenterKeys, CenterLabels, Center)
    ensures forall k | 0 <= k < |g| :: fresh(g[k].pile) && g[k].pile.cards == []
  {
    var p1 := new Pile("1", "Pile 1", Center, []);
    var p2 := new Pile("2", "Pile 2", Center, []);
    var p3 := new Pile("3", "Pile 3", Center, []);
    var p4 := new Pile("4", "Pile 4", Center, []);
    var p5 := new Pile("5", "Pile 5", Center, []);
    var p6 := new Pile("6", "Pile 6", Center, []);
    var p7 := new Pile("7", "Pile 7", Center, []);
    g := [Entry("1", p1), Entry("2", p2), Entry("3", p3), Entry("4", p4), Entry("5", p5), Entry("6", p6),
          Entry("7", p7)];
  }

  method NewWinGroup() returns (g: seq<Entry>)
    ensures GroupShaped(g, WinKeys, WinLabels, Win)
    ensures forall k | 0 <= k < |g| :: fresh(g[k].pile) && g[k].pile.cards == []
  {
    var winS := new Pile("winS", "Win (Spades)", Win, []);
    var winH := new Pile("winH", "Win (Hearts)", Win, []);
    var winC := new Pile("winC", "Win (Clubs)", Win, []);
    var winD := new Pile("winD", "Win (Diamonds)", Win, []);
    g := [Entry("winS", winS), Entry("winH", winH), Entry("winC", winC), Entry("winD", winD)];
  }

  /** The kind stored in a pile agrees with the kind its name implies: `is_center_pile` holds
      exactly on the center piles and `is_win_pile` exactly on the win piles. */
  lemma PileKindsByName(b: Board)
    requires Shaped(b)
    ensures forall k | 0 <= k < |GetPiles(b)| ::
      (GetPiles(b)[k].IsCenterPile() <==> GetPiles(b)[k].kind == Center)
      && (GetPiles(b)[k].IsWinPile() <==> GetPiles(b)[k].kind == Win)
  {
    var ps := GetPiles(b);
    forall k | 0 <= k < 13
      ensures (ps[k].IsCenterPile() <==> ps[k].kind == Center) && (ps[k].IsWinPile() <==> ps[k].kind == Win)
    {
      if k < 2 {
        assert ps[k] == b.cycle[k].pile;
        assert !IsDigit(ps[k].name[0]);
      } else if k < 9 {
        assert ps[k] == b.center[k - 2].pile;
        assert ps[k].name == CenterKeys[k - 2];
      } else {
        assert ps[k] == b.win[k - 9].pile;
        assert ps[k].name == WinKeys[k - 9];
      }
    }
  }

  /** `board['center'][f'{i}']` is center pile `i`. */
  lemma CenterLookup(b: Board, i: TableauNumber)
    requires CenterReady(b)
    ensures Lookup(b.center, IntToString(i as int)) == Some(b.center[i as int - 1].pile)
  {
    KeysSpelled();
    var r := Lookup(b.center, IntToString(i as int));
    assert b.center[i as int - 1].key == IntToString(i as int);
    var k :| 0 <= k < 7 && b.center[k] == Entry(IntToString(i as int), r.value);
    assert CenterKeys[k] == NatToString(k + 1);
    NatToStringInjective(k + 1, i as int);
  }

  /** Different tableau numbers name different center piles. */
  lemma CenterPilesDistinct(b: Board, i: TableauNumber, j: TableauNumber)
    requires Shaped(b) && i != j
    ensures b.center[i as int - 1].pile != b.center[j as int - 1].pile
  {
    ShapedDistinct(b);
    var ps := GetPiles(b);
    assert ps[i as int + 1] == b.center[i as int - 1].pile && ps[j as int + 1] == b.center[j as int - 1].pile;
  }

  /** What the tableau part of the deal needs of a board: seven center piles, found under the
      numerals '1' to '7', all different. */
  predicate CenterReady(b: Board)
  {
    |b.center| == 7
    && (forall x | 0 <= x < 7 :: b.center[x].key == CenterKeys[x])
    && (forall x, y | 0 <= x < y < 7 :: b.center[x].pile != b.center[y].pile)
  }

  /** What the draw part of the deal needs: 'draw' is the first of the two cycle piles. */
  predicate DrawReady(b: Board)
  {
    |b.cycle| == 2 && Lookup(b.cycle, "draw") == Some(b.cycle[0].pile)
  }

  lemma ShapedReady(b: Board)
    requires Shaped(b)
    ensures CenterReady(b) && DrawReady(b)
  {
    forall x, y | 0 <= x < y < 7 ensures b.center[x].pile != b.center[y].pile {
      CenterPilesDistinct(b, (x + 1) as TableauNumber, (y + 1) as TableauNumber);
    }
    DrawLookup(b);
  }

  /** The discard and win piles are neither the draw pile nor a center pile, and the draw pile
      is not a center pile. */
  predicate PilesApart(b: Board)
    requires |b.cycle| == 2 && |b.center| == 7 && |b.win| == 4
  {
    && (forall x | 0 <= x < 7 :: b.center[x].pile != b.cycle[0].pile && b.center[x].pile != b.cycle[1].pile)
    && (forall x, y | 0 <= x < 4 && 0 <= y < 7 :: b.win[x].pile != b.center[y].pile)
    && (forall x | 0 <= x < 4 :: b.win[x].pile != b.cycle[0].pile)
    && b.cycle[1].pile != b.cycle[0].pile
  }

  lemma OtherPilesApart(b: Board)
    requires Shaped(b)
    ensures PilesApart(b)
  {
    ShapedDistinct(b);
    PileIndices(b);
  }

  /** Where each group's piles sit in `get_piles`. */
  lemma PileIndices(b: Board)
    requires |b.cycle| == 2 && |b.center| == 7 && |b.win| == 4
    ensures forall x | 0 <= x < 2 :: GetPiles(b)[x] == b.cycle[x].pile
    ensures forall x | 0 <= x < 7 :: GetPiles(b)[x + 2] == b.center[x].pile
    ensures forall x | 0 <= x < 4 :: GetPiles(b)[x + 9] == b.win[x].pile
  {
    var ps := GetPiles(b);
    assert ps[..2] == Values(b.cycle) && ps[2..9] == Values(b.center) && ps[9..] == Values(b.win);
    forall x | 0 <= x < 7 ensures ps[x + 2] == b.center[x].pile {
      assert ps[x + 2] == ps[2..9][x];
    }
    forall x | 0 <= x < 4 ensures ps[x + 9] == b.win[x].pile {
      assert ps[x + 9] == ps[9..][x];
    }
  }

  /** The other center piles are not the center pile of `t`. */
  lemma CenterApart(b: Board, t: TableauNumber)
    requires CenterReady(b)
    ensures forall x | 0 <= x < 7 && x != t as int - 1 :: b.center[x].pile != b.center[t as int - 1].pile
  {
    var y := t as int - 1;
    forall x | 0 <= x < 7 && x != y ensures b.center[x].pile != b.center[y].pile {
      if x < y {
        assert b.center[x].pile != b.center[y].pile;
      } else {
        assert b.center[y].pile != b.center[x].pile;
      }
    }
  }

  /** `board['cycle']['draw']` is the first cycle pile. */
  lemma DrawLookup(b: Board)
    requires Shaped(b)
    ensures Lookup(b.cycle, "draw") == Some(b.cycle[0].pile)
  {
  }

  /** The state `deal_cards_to_center_pile` leaves the card at position `j` of a run of `count`
      cards in, from the state `st` it had: the bottom card gets nothing_below and every other
      card facedown_below; every card but the top is flipped; the top gets nothing_above; and
      `add_card` records the pile. */
  function CenterDealt(st: CardState, j: int, count: int, p: Pile): CardState
  {
    CardState(
      if j != count - 1 then !st.facedown else st.facedown,
      p,
      if j != 0 then true else st.facedownBelow,
      if j == count - 1 then true else st.nothingAbove,
      if j == 0 then true else st.nothingBelow)
  }

  /** On new cards, only the top card of a dealt pile is face up; the bottom card has nothing
      below it and every other card a face-down card. */
  lemma CenterDealtFlags(j: int, count: int, p: Pile)
    requires 0 <= j < count
    ensures var st := CenterDealt(Fresh, j, count, p);
      (st.facedown <==> j < count - 1) && (st.nothingAbove <==> j == count - 1)
      && (st.nothingBelow <==> j == 0) && (st.facedownBelow <==> j > 0) && st.pile == p
  {
  }

  /** Where the run of tableau pile `i` starts in the dealing order: pile `i` takes `i` cards
      after piles 1 to `i - 1`; position 28, after pile 7, is where the draw part starts. */
  function First(i: int): nat
    requires 1 <= i <= 8
  {
    if i == 1 then 0 else if i == 2 then 1 else if i == 3 then 3 else if i == 4 then 6
    else if i == 5 then 10 else if i == 6 then 15 else if i == 7 then 21 else 28
  }

  /** The tableau pile whose run holds position `k` of the dealing order. */
  function RunOf(k: nat): (i: TableauNumber)
    requires k < 28
    ensures First(i as int) <= k < First(i as int) + i as int
  {
    if k < 1 then 1 else if k < 3 then 2 else if k < 6 then 3 else if k < 10 then 4
    else if k < 15 then 5 else if k < 21 then 6 else 7
  }

  /** Both drafts deal in the same order: the runs start where the TypeScript deal starts them,
      and each position belongs to the same pile. */
  lemma RunsAgree(k: nat)
    requires k < 28
    ensures forall i: TableauNumber :: First(i as int) == Games.Start(i)
    ensures RunOf(k) == Games.PileAt(k)
  {
    assert Games.Dealt(0) == 0 && Games.Dealt(1) == 1 && Games.Dealt(2) == 3 && Games.Dealt(3) == 6;
    assert Games.Dealt(4) == 10 && Games.Dealt(5) == 15 && Games.Dealt(6) == 21;
    Games.PileAtUnique(RunOf(k), k);
  }

  /** Where tableau pile `i`'s cards start and end among `n` dealt cards: the deal slices the
      list, so a short list leaves the last piles short or empty. */
  function Lo(i: TableauNumber, n: nat): nat
  {
    Min(First(i as int), n)
  }

  function Hi(i: TableauNumber, n: nat): (h: nat)
    ensures Lo(i, n) <= h <= n && h <= 28
  {
    Min(First(i as int) + i as int, n)
  }

  /** A card flipped and added to a pile, as the draw loop of `deal_cards` leaves it. */
  function DrawDealt(p: Pile): CardState
  {
    Fresh.(facedown := true, pile := p)
  }

  /** All the cards of the piles `ps`, pile by pile. */
  function Concat(ps: seq<Pile>): seq<Card>
    reads set p | p in ps
  {
    if ps == [] then [] else Concat(ps[..|ps| - 1]) + ps[|ps| - 1].cards
  }

  lemma ConcatStep(ps: seq<Pile>, k: nat)
    requires k < |ps|
    ensures Concat(ps[..k + 1]) == Concat(ps[..k]) + ps[k].cards
  {
    assert ps[..k + 1][..k] == ps[..k];
  }

  /** The loop of `get_cards`: the cards of each pile in turn are appended to the list. */
  method CardsOf(piles: seq<Pile>) returns (cards: seq<Card>)
    ensures cards == Concat(piles)
  {
    cards := [];
    for k := 0 to |piles|
      invariant cards == Concat(piles[..k])
    {
      ConcatStep(piles, k);
      cards := cards + piles[k].cards;
    }
    assert piles[..|piles|] == piles;
  }

  /** A card is among the cards of the piles exactly when it lies on one of them. */
  lemma {:induction false} ConcatMembers(ps: seq<Pile>, c: Card)
    ensures c in Concat(ps) <==> exists k | 0 <= k < |ps| :: c in ps[k].cards
  {
    if ps != [] {
      var init := ps[..|ps| - 1];
      ConcatMembers(init, c);
      assert forall k | 0 <= k < |ps| - 1 :: ps[k] == init[k];
    }
  }

  /** The deal partitions the cards: position `k` of `n` lies in the run of exactly one tableau
      pile when it is among the first 28, and otherwise in the part that goes to 'draw'. */
  lemma DealPartition(k: nat, n: nat)
    requires k < n
    ensures forall i: TableauNumber :: Lo(i, n) <= k < Hi(i, n) <==> k < 28 && i == RunOf(k)
    ensures Min(28, n) <= k <==> 28 <= k
  {
    forall i: TableauNumber | Lo(i, n) <= k < Hi(i, n) ensures k < 28 && i == RunOf(k) {
      RunUnique(i, k);
    }
  }

  /** Each position of the first 28 lies in one run only. */
  lemma RunUnique(i: TableauNumber, k: nat)
    requires First(i as int) <= k < First(i as int) + i as int
    ensures k < 28 && RunOf(k) == i
  {
  }

  /** Python's `cards[0:i]` and `cards[i:]` on what is left before tableau pile `i`: the run of
      pile `i` and what is left after it. */
  lemma DealSlices(cards: seq<Card>, rest: seq<Card>, i: TableauNumber)
    requires rest == cards[Lo(i, |cards|)..]
    ensures Slice(rest, 0, i as int) == cards[Lo(i, |cards|)..Hi(i, |cards|)]
    ensures Slice(rest, i as int, |rest|) == cards[Hi(i, |cards|)..]
  {
    var n, lo, hi := |cards|, Lo(i, |cards|), Hi(i, |cards|);
    var cut := Bound(i as int, |rest|);
    if First(i as int) + i as int <= n {
      assert lo == First(i as int) && hi == lo + i as int && cut == i as int;
    } else {
      assert hi == n && cut == |rest| && lo + cut == n;
    }
    assert rest[0..cut] == cards[lo..hi];
    assert rest[cut..|rest|] == cards[hi..];
  }

  lemma DistinctSlice(cards: seq<Card>, a: nat, b: nat)
    requires DistinctCards(cards) && a <= b <= |cards|
    ensures DistinctCards(cards[a..b])
  {
    forall x, y | 0 <= x < y < b - a ensures cards[a..b][x] != cards[a..b][y] {
      assert cards[a..b][x] == cards[a + x] && cards[a..b][y] == cards[a + y];
    }
  }

  /** The cards outside a run of distinct cards are not in it. */
  lemma OutsideRun(cards: seq<Card>, lo: nat, hi: nat)
    requires DistinctCards(cards) && lo <= hi <= |cards|
    ensures forall k | 0 <= k < |cards| && !(lo <= k < hi) :: cards[k] !in cards[lo..hi]
  {
    forall k, m | 0 <= k < |cards| && !(lo <= k < hi) && 0 <= m < hi - lo ensures cards[lo..hi][m] != cards[k] {
      assert cards[lo..hi][m] == cards[lo + m];
    }
  }

  class Game {
    const name: string
    const board: Board

    /** A game starts on `new_board`. */
    constructor (name: string)
      ensures this.name == name && Shaped(board)
      ensures forall k | 0 <= k < 13 :: fresh(GetPiles(board)[k]) && GetPiles(board)[k].cards == []
    {
      this.name := name;
      var b := NewBoard();
      this.board := b;
    }

    function CenterPile(i: TableauNumber): Pile
      requires |board.center| == 7
    {
      board.center[i as int - 1].pile
    }

    function DrawPile(): Pile
      requires |board.cycle| == 2
    {
      board.cycle[0].pile
    }

    /** The state the deal leaves position `k` of `n` dealt cards in, `k` below 28: the flags of
        its place in its tableau pile. */
    function DealtAt(k: int, n: nat): CardState
      requires |board.center| == 7 && 0 <= k < 28 && k < n
    {
      var i := RunOf(k);
      CenterDealt(Fresh, k - First(i as int), Hi(i, n) - First(i as int), CenterPile(i))
    }

    /** The center piles, which the tableau part of the deal changes. */
    function CenterPiles(): set<Pile>
    {
      set k | 0 <= k < |board.center| :: board.center[k].pile
    }

    /** `deal_cards` with a fixed list: IndexError (`None`, nothing dealt) when a pair is outside
        the tables; otherwise the new cards, of which each board pile receives its range in order,
        in the state the deal leaves them in. (The Python method returns None; the cards it
        creates are returned here so that the contract can name them.) */
    method DealCards(fixed: seq<Pair>) returns (dealt: Option<seq<Card>>)
      requires fixed != [] && Shaped(board)
      modifies set k | 0 <= k < 13 :: GetPiles(board)[k]
      ensures dealt.None? <==> exists k | 0 <= k < |fixed| :: PairCell(fixed[k]).None?
      ensures dealt.None? ==> forall k | 0 <= k < 13 :: GetPiles(board)[k].cards == old(GetPiles(board)[k].cards)
      ensures dealt.Some? ==> |dealt.value| == |fixed| && DistinctCards(dealt.value)
      ensures dealt.Some? ==> forall k | 0 <= k < |fixed| ::
        fresh(dealt.value[k]) && Some(dealt.value[k].Cell()) == PairCell(fixed[k])
      ensures dealt.Some? ==> var d, n := dealt.value, |dealt.value|;
        forall i: TableauNumber :: CenterPile(i).cards == old(CenterPile(i).cards) + d[Lo(i, n)..Hi(i, n)]
      ensures dealt.Some? ==> DrawPile().cards == old(DrawPile().cards) + dealt.value[Min(28, |dealt.value|)..]
      ensures board.cycle[1].pile.cards == old(board.cycle[1].pile.cards)
      ensures forall x | 0 <= x < 4 :: board.win[x].pile.cards == old(board.win[x].pile.cards)
      ensures dealt.Some? ==> var d, n := dealt.value, |dealt.value|;
        forall k | 0 <= k < n :: d[k].State() == if k < 28 then DealtAt(k, n) else DrawDealt(DrawPile())
    {
      var created := CreateCards(fixed);
      if created.None? {
        return None;
      }
      var cards := created.value;
      ShapedReady(board);
      OtherPilesApart(board);
      PileIndices(board);
      Deal(cards);
      dealt := Some(cards);
    }

    /** The two loops of `deal_cards` on the created cards: the first 28 go to the tableau, the
        rest to 'draw'; the discard and win piles are not touched. */
    method Deal(cards: seq<Card>)
      requires CenterReady(board) && DrawReady(board) && |board.win| == 4 && PilesApart(board)
      requires DistinctCards(cards)
      requires forall k | 0 <= k < |cards| :: cards[k].State() == Fresh
      modifies CenterPiles(), DrawPile(), set c | c in cards
      ensures forall i: TableauNumber :: CenterPile(i).cards == old(CenterPile(i).cards) + cards[Lo(i, |cards|)..Hi(i, |cards|)]
      ensures DrawPile().cards == old(DrawPile().cards) + cards[Min(28, |cards|)..]
      ensures board.cycle[1].pile.cards == old(board.cycle[1].pile.cards)
      ensures forall x | 0 <= x < 4 :: board.win[x].pile.cards == old(board.win[x].pile.cards)
      ensures forall k | 0 <= k < |cards| :: cards[k].State() == if k < 28 then DealtAt(k, |cards|) else DrawDealt(DrawPile())
    {
      var rest := DealCenter(cards);
      DealDraw(rest, cards);
    }

    /** The first loop of `deal_cards`: tableau pile `i`, for `i` from 1 to 7, receives the next
        `i` cards (fewer, or none, once the list runs out); returns what is left. */
    method DealCenter(cards: seq<Card>) returns (rest: seq<Card>)
      requires CenterReady(board) && DistinctCards(cards)
      requires forall k | 0 <= k < |cards| :: cards[k].State() == Fresh
      modifies CenterPiles(), set c | c in cards
      ensures rest == cards[Min(28, |cards|)..]
      ensures forall i: TableauNumber :: CenterPile(i).cards == old(CenterPile(i).cards) + cards[Lo(i, |cards|)..Hi(i, |cards|)]
      ensures forall k | 0 <= k < |cards| && k < 28 :: cards[k].State() == DealtAt(k, |cards|)
      ensures forall k | 28 <= k < |cards| :: cards[k].State() == Fresh
    {
      var n := |cards|;
      rest := cards;
      ghost var done := 0;
      for i := 1 to 8
        invariant done == Min(First(i), n)
        invariant rest == cards[done..]
        invariant forall j: TableauNumber | j as int < i :: CenterPile(j).cards == old(CenterPile(j).cards) + cards[Lo(j, n)..Hi(j, n)]
        invariant forall j: TableauNumber | i <= j as int :: CenterPile(j).cards == old(CenterPile(j).cards)
        invariant forall k | 0 <= k < done :: cards[k].State() == DealtAt(k, n)
        invariant forall k | done <= k < n :: cards[k].State() == Fresh
      {
        var t := i as TableauNumber;
        ghost var next := Hi(t, n);
        assert next == Min(First(i + 1), n);
        rest := DealPass(t, cards, rest, done, next);
        done := next;
      }
    }

    /** One pass of the first loop of `deal_cards`, for tableau pile `t`: its run `cards[lo..hi]`
        is taken off the front of `rest` and dealt onto it, and the others are kept for the later
        passes. */
    method DealPass(t: TableauNumber, cards: seq<Card>, rest: seq<Card>, ghost lo: nat, ghost hi: nat) returns (left: seq<Card>)
      requires CenterReady(board) && DistinctCards(cards)
      requires lo == Lo(t, |cards|) && hi == Hi(t, |cards|) && rest == cards[lo..]
      requires forall k | lo <= k < |cards| :: cards[k].State() == Fresh
      modifies CenterPiles(), set c | c in cards
      ensures left == cards[hi..]
      ensures CenterPile(t).cards == old(CenterPile(t).cards) + cards[lo..hi]
      ensures forall j: TableauNumber | j != t :: CenterPile(j).cards == old(CenterPile(j).cards)
      ensures forall k | 0 <= k < lo :: cards[k].State() == old(cards[k].State())
      ensures forall k | lo <= k < hi :: cards[k].State() == DealtAt(k, |cards|)
      ensures forall k | hi <= k < |cards| :: cards[k].State() == Fresh
    {
      DealSlices(cards, rest, t);
      var toDeal := Slice(rest, 0, t as int);
      left := Slice(rest, t as int, |rest|);
      DistinctSlice(cards, lo, hi);
      OutsideRun(cards, lo, hi);
      DealRun(t, cards, toDeal, lo, hi);
      RunDealtAt(t, cards, lo, hi);
    }

    /** One pass of the first loop of `deal_cards`: the run `cards[lo..hi]` is dealt onto tableau
        pile `t`; the other center piles are left alone. */
    method DealRun(t: TableauNumber, cards: seq<Card>, toDeal: seq<Card>, ghost lo: nat, ghost hi: nat)
      requires CenterReady(board) && lo <= hi <= |cards| && toDeal == cards[lo..hi] && DistinctCards(toDeal)
      requires forall k | lo <= k < hi :: cards[k].State() == Fresh
      modifies CenterPile(t), set c | c in toDeal
      ensures CenterPile(t).cards == old(CenterPile(t).cards) + toDeal
      ensures forall j: TableauNumber | j != t :: CenterPile(j).cards == old(CenterPile(j).cards)
      ensures forall k | lo <= k < hi :: cards[k].State() == CenterDealt(Fresh, k - lo, hi - lo, CenterPile(t))
    {
      CenterApart(board, t);
      CenterLookup(board, t);
      DealCardsToCenterPile(toDeal, IntToString(t as int));
      forall k | lo <= k < hi ensures cards[k].State() == CenterDealt(Fresh, k - lo, hi - lo, CenterPile(t)) {
        assert toDeal[k - lo] == cards[k];
      }
    }

    /** The states a run of pile `t` is dealt into are the states of its positions in the deal. */
    lemma RunDealtAt(t: TableauNumber, cards: seq<Card>, lo: nat, hi: nat)
      requires |board.center| == 7 && lo == Lo(t, |cards|) && hi == Hi(t, |cards|)
      requires forall k | lo <= k < hi :: cards[k].State() == CenterDealt(Fresh, k - lo, hi - lo, CenterPile(t))
      ensures forall k | lo <= k < hi :: cards[k].State() == DealtAt(k, |cards|)
    {
      forall k | lo <= k < hi ensures cards[k].State() == DealtAt(k, |cards|) {
        RunUnique(t, k);
      }
    }

    /** The second loop of `deal_cards`: each remaining card, first to last, is taken off the
        front of the list, flipped and added to 'draw'. */
    method DealDraw(rest: seq<Card>, ghost cards: seq<Card>)
      requires DrawReady(board) && DistinctCards(cards) && rest == cards[Min(28, |cards|)..]
      requires forall k | 0 <= k < |cards| && 28 <= k :: cards[k].State() == Fresh
      modifies DrawPile(), set c | c in rest
      ensures DrawPile().cards == old(DrawPile().cards) + rest
      ensures forall k | 28 <= k < |cards| :: cards[k].State() == DrawDealt(DrawPile())
    {
      var draw := Lookup(board.cycle, "draw").value;
      DrawAll(rest, cards, Min(28, |cards|), draw);
    }

    /** The loop of `DealDraw` on the pile it found: `rest`, the cards of `cards` from `base` on,
        go onto `draw` one by one, first to last. */
    static method DrawAll(rest: seq<Card>, ghost cards: seq<Card>, ghost base: nat, draw: Pile)
      requires DistinctCards(cards) && base <= |cards| && rest == cards[base..]
      requires forall k | base <= k < |cards| :: cards[k].State() == Fresh
      modifies draw, set c | c in rest
      ensures draw.cards == old(draw.cards) + rest
      ensures forall k | base <= k < |cards| :: cards[k].State() == DrawDealt(draw)
    {
      ghost var i := 0;
      var left := rest;
      while |left| > 0
        invariant 0 <= i <= |rest| && left == rest[i..]
        invariant draw.cards == old(draw.cards) + rest[..i]
        invariant forall k | base <= k < base + i :: cards[k].State() == DrawDealt(draw)
        invariant forall k | base + i <= k < |cards| :: cards[k].State() == old(cards[k].State())
        decreases |left|
      {
        var card := left[0];
        left := left[1..];
        assert card == cards[base + i];
        DrawOne(card, draw);
        assert rest[..i + 1] == rest[..i] + [card];
        i := i + 1;
      }
      assert rest[..i] == rest;
    }

    /** One pass of the second loop of `deal_cards`. */
    static method DrawOne(card: Card, draw: Pile)
      modifies card, draw
      ensures card.State() == old(card.State()).(facedown := !old(card.facedown), pile := draw)
      ensures draw.cards == old(draw.cards) + [card]
    {
      card.Flip();
      draw.AddCard(card);
    }

    /** `get_cards`: the cards of the selected groups' piles, pile by pile. */
    method GetCards(cycle: bool := true, center: bool := true, win: bool := true) returns (cards: seq<Card>)
      ensures cards == Concat(GetPiles(board, cycle, center, win))
    {
      cards := CardsOf(GetPiles(board, cycle, center, win));
    }

    /** `deal_cards_to_center_pile`: each card, bottom first, gets its flags for its place in the
        run and goes onto the center pile named `name`. */
    method DealCardsToCenterPile(cards: seq<Card>, name: string)
      requires DistinctCards(cards) && Lookup(board.center, name).Some?
      modifies Lookup(board.center, name).value, set c | c in cards
      ensures var pile := Lookup(board.center, name).value;
        pile.cards == old(pile.cards) + cards
        && forall j | 0 <= j < |cards| :: cards[j].State() == CenterDealt(old(cards[j].State()), j, |cards|, pile)
    {
      var pile := Lookup(board.center, name).value;
      var count := |cards|;
      for i := 0 to |cards|
        invariant pile.cards == old(pile.cards) + cards[..i]
        invariant forall j | 0 <= j < i :: cards[j].State() == CenterDealt(old(cards[j].State()), j, count, pile)
        invariant forall j | i <= j < count :: cards[j].State() == old(cards[j].State())
      {
        DealOne(cards[i], i, count, pile);
        assert cards[..i + 1] == cards[..i] + [cards[i]];
      }
      assert cards[..|cards|] == cards;
    }

    /** One pass of the loop of `deal_cards_to_center_pile`. */
    static method DealOne(card: Card, i: int, count: int, pile: Pile)
      modifies card, pile
      ensures card.State() == CenterDealt(old(card.State()), i, count, pile)
      ensures pile.cards == old(pile.cards) + [card]
    {
      if i == 0 {
        card.SetNothingBelow(true);
      } else {
        card.SetFacedownBelow(true);
      }
      if i != count - 1 {
        card.Flip();
      } else {
        card.SetNothingAbove(true);
      }
      pile.AddCard(card);
    }
  }
}

=== FILE: py_lists.dfy ===
/** The Python list operations the Python draft relies on: indexing with negative positions,
    slicing with clamped bounds, `list.index` and `filter`. */
module PyLists {

  import opened Wrappers

  /** A slice bound as Python reads it: counted from the end when negative, then clamped to
      0..n. */
  function Bound(i: int, n: nat): (b: nat)
    ensures b <= n
    ensures 0 <= i <= n ==> b == i
    ensures i > n ==> b == n
    ensures i < 0 && -i <= n ==> b == n + i
    ensures i < -(n as int) ==> b == 0
  {
    if i < 0 then (if n + i < 0 then 0 else n + i) else if i > n then n else i
  }

  /** `s[a:b]`: never fails; an empty list when the bounds cross. */
  function Slice<T>(s: seq<T>, a: int, b: int): (r: seq<T>)
    ensures Bound(a, |s|) <= Bound(b, |s|) ==> r == s[Bound(a, |s|)..Bound(b, |s|)]
    ensures Bound(a, |s|) > Bound(b, |s|) ==> r == []
  {
    var lo := Bound(a, |s|);
    var hi := Bound(b, |s|);
    if lo <= hi then s[lo..hi] else []
  }

  /** The position `s[i]` reads, if `i` is a valid index: negative positions count from the end;
      anything else raises IndexError. */
  function Index(i: int, n: nat): (r: Option<nat>)
    ensures r.Some? <==> -(n as int) <= i < n
    ensures r.Some? ==> r.value < n && (if i < 0 then r.value == n + i else r.value == i)
  {
    if 0 <= i < n then Some(i) else if -(n as int) <= i < 0 then Some(n + i) else None
  }

  /** `s.index(x)`: the first position holding `x`; ValueError (here `None`) when absent. */
  function IndexOf<T(==)>(s: seq<T>, x: T): (r: Option<nat>)
    ensures r.Some? <==> x in s
    ensures r.Some? ==> r.value < |s| && s[r.value] == x && x !in s[..r.value]
    decreases |s|
  {
    if s == [] then None
    else if s[0] == x then Some(0)
    else
      var rest := IndexOf(s[1..], x);
      assert s[1..][..if rest.Some? then rest.value else 0] == s[1..if rest.Some? then rest.value + 1 else 1];
      match rest
      case None => None
      case Some(k) => Some(k + 1)
  }

  /** `list(filter(f, s))`. */
  function Filter<T>(s: seq<T>, f: T -> bool): (r: seq<T>)
    ensures |r| <= |s|
    ensures forall k | 0 <= k < |r| :: r[k] in s && f(r[k])
    ensures forall k | 0 <= k < |s| && f(s[k]) :: s[k] in r
    decreases |s|
  {
    if s == [] then []
    else if f(s[0]) then [s[0]] + Filter(s[1..], f)
    else Filter(s[1..], f)
  }

  /** Filtering keeps the order: the filter of a concatenation is the concatenation of the
      filters. */
  lemma {:induction false} FilterAppend<T>(a: seq<T>, b: seq<T>, f: T -> bool)
    ensures Filter(a + b, f) == Filter(a, f) + Filter(b, f)
    decreases |a|
  {
    if a != [] {
      FilterAppend(a[1..], b, f);
      assert (a + b)[0] == a[0] && (a + b)[1..] == a[1..] + b;
      if f(a[0]) {
        calc {
          Filter(a + b, f);
          [a[0]] + Filter(a[1..] + b, f);
          [a[0]] + (Filter(a[1..], f) + Filter(b, f));
          ([a[0]] + Filter(a[1..], f)) + Filter(b, f);
        }
      }
    } else {
      assert a + b == b;
    }
  }

  /** A list whose every element passes is kept whole. */
  lemma {:induction false} FilterAll<T>(s: seq<T>, f: T -> bool)
    requires forall k | 0 <= k < |s| :: f(s[k])
    ensures Filter(s, f) == s
    decreases |s|
  {
    if s != [] {
      FilterAll(s[1..], f);
    }
  }
}

=== FILE: py_moves.dfy ===
/** Moves and move chains of the Python draft (move.py): a move records a card, its target, the
    pile it leaves and the pile it goes to; a chain is a singly linked list of move nodes that
    grows at its tail. */
module PyMoves {

  import opened Wrappers
  import opened PyCards

  /** `MoveType`, a string enumeration. */
  datatype MoveType = WinMove | CenterMove

  /** The string each member of `MoveType` is equal to. */
  function MoveTypeName(t: MoveType): string
  {
    match t
    case WinMove => "Win"
    case CenterMove => "Center"
  }

  class Move {
    const card: Card
    const target: Card?
    const oldStack: Pile
    var newStack: Pile
    const moveType: MoveType

    /** The fields are exactly the constructor's arguments, which is all the accessors return. */
    constructor (card: Card, target: Card?, oldStack: Pile, newStack: Pile, moveType: MoveType)
      ensures this.card == card && this.target == target && this.oldStack == oldStack
      ensures this.newStack == newStack && this.moveType == moveType
    {
      this.card := card;
      this.target := target;
      this.oldStack := oldStack;
      this.newStack := newStack;
      this.moveType := moveType;
    }

    /** `set_new_stack`: only the destination changes (the other fields are constant). */
    method SetNewStack(newStack: Pile)
      modifies this
      ensures this.newStack == newStack
    {
      this.newStack := newStack;
    }

    /** `make_move` is a stub: whatever board it is given, it returns the Python value `None`
        (the `None` of `Option` here is that value, not an exception). */
    function MakeMove<B>(board: Option<B>): (r: Option<B>)
      ensures r.None?
    {
      None
    }
  }

  class MoveNode {
    const move: Move
    var next: MoveNode?

    constructor (move: Move, next: MoveNode?)
      ensures this.move == move && this.next == next
    {
      this.move := move;
      this.next := next;
    }

    /** `set_next`: only the link changes. */
    method SetNext(next: MoveNode?)
      modifies this
      ensures this.next == next
    {
      this.next := next;
    }
  }

  /** The moves held by a sequence of nodes, in order. */
  function MovesOf(nodes: seq<MoveNode>): (ms: seq<Move>)
    ensures |ms| == |nodes|
    ensures forall k | 0 <= k < |nodes| :: ms[k] == nodes[k].move
  {
    if nodes == [] then [] else [nodes[0].move] + MovesOf(nodes[1..])
  }

  class MoveChain {
    var head: MoveNode?
    /** The nodes reachable from `head`, in link order. */
    ghost var nodes: seq<MoveNode>

    /** The chain is an acyclic list: `head` is the first node, each node links to the next
        and the last links to None. */
    ghost predicate Valid()
      reads this, set n | n in nodes
    {
      (head == null <==> nodes == [])
      && (head != null ==> head == nodes[0])
      && (forall i | 0 <= i < |nodes| - 1 :: nodes[i].next == nodes[i + 1])
      && (nodes != [] ==> nodes[|nodes| - 1].next == null)
      && (forall i, j | 0 <= i < j < |nodes| :: nodes[i] != nodes[j])
    }

    ghost function Moves(): seq<Move>
      reads this
    {
      MovesOf(nodes)
    }

    /** `MoveChain(head)`: any list may be handed in, and `nodes` names the nodes reachable
        from `head` in link order. */
    constructor (head: MoveNode?, ghost nodes: seq<MoveNode>)
      requires (head == null <==> nodes == []) && (head != null ==> head == nodes[0])
      requires forall i | 0 <= i < |nodes| - 1 :: nodes[i].next == nodes[i + 1]
      requires nodes != [] ==> nodes[|nodes| - 1].next == null
      requires forall i, j | 0 <= i < j < |nodes| :: nodes[i] != nodes[j]
      ensures this.head == head && this.nodes == nodes && Valid()
    {
      this.head := head;
      this.nodes := nodes;
    }

    /** `add_node`: on an empty chain the node becomes the head and is returned; otherwise the
        walk from the head stops at the node whose link is None and links the new node there,
        returning None. Earlier nodes keep their order. */
    method AddNode(node: MoveNode) returns (r: MoveNode?)
      requires Valid() && node !in nodes && node.next == null
      modifies this, set n | n in nodes
      ensures Valid() && nodes == old(nodes) + [node]
      ensures Moves() == old(Moves()) + [node.move]
      ensures r == (if old(head) == null then node else null)
    {
      if head == null {
        head := node;
        nodes := [node];
        r := node;
        return;
      }
      var n := head;
      ghost var i := 0;
      while n.next != null
        invariant 0 <= i < |nodes| && n == nodes[i]
        invariant n.next == (if i < |nodes| - 1 then nodes[i + 1] else null)
        decreases |nodes| - i
      {
        n := n.next;
        i := i + 1;
      }
      n.SetNext(node);
      nodes := nodes + [node];
      r := null;
      assert MovesOf(nodes) == MovesOf(old(nodes)) + [node.move];
    }

    /** `make_moves` as written: the loop runs while the current node has a successor, so it
        hands every move but the last to `make_move`; the result is the board itself for a
        single-node chain, and otherwise `None`, which here is the Python value `None` that the
        stub returns, not an exception. An empty chain raises AttributeError, hence the
        precondition. */
    method MakeMovesAsWritten<B>(board: B) returns (applied: seq<Move>, result: Option<B>)
      requires Valid() && head != null
      ensures applied == Moves()[..|nodes| - 1] && |applied| < |Moves()|
      ensures result == (if |nodes| == 1 then Some(board) else None)
    {
      var node := head;
      var current := Some(board);
      applied := [];
      ghost var i := 0;
      while node.next != null
        invariant 0 <= i < |nodes| && node == nodes[i]
        invariant node.next == (if i < |nodes| - 1 then nodes[i + 1] else null)
        invariant applied == Moves()[..i]
        invariant current == (if i == 0 then Some(board) else None)
        decreases |nodes| - i
      {
        var move := node.move;
        applied := applied + [move];
        current := move.MakeMove(current);
        node := node.next;
        i := i + 1;
      }
      result := current;
    }

    /** `make_moves` as evidently intended: every move of the chain, the last included, is handed
        to `make_move` in order, and an empty chain returns the board untouched. A non-empty
        chain yields `None`, the Python value the stub returns, not an exception. */
    method MakeMoves<B>(board: B) returns (applied: seq<Move>, result: Option<B>)
      requires Valid()
      ensures applied == Moves()
      ensures result == (if nodes == [] then Some(board) else None)
    {
      var node := head;
      var current := Some(board);
      applied := [];
      ghost var i := 0;
      while node != null
        invariant 0 <= i <= |nodes|
        invariant node == (if i < |nodes| then nodes[i] else null)
        invariant applied == Moves()[..i]
        invariant current == (if i == 0 then Some(board) else None)
        decreases |nodes| - i
      {
        var move := node.move;
        applied := applied + [move];
        current := move.MakeMove(current);
        node := node.next;
        i := i + 1;
      }
      assert Moves()[..i] == Moves();
      result := current;
    }
  }

  /** The single-node chain shows the difference: as written nothing is applied, as intended
      its one move is. */
  method SingleMoveChain<B>(m: Move, board: B) returns (writtenApplied: seq<Move>, intendedApplied: seq<Move>)
    ensures writtenApplied == [] && intendedApplied == [m]
  {
    var node := new MoveNode(m, null);
    var chain := new MoveChain(node, [node]);
    var result;
    writtenApplied, result := chain.MakeMovesAsWritten(board);
    intendedApplied, result := chain.MakeMoves(board);
  }
}

=== FILE: py_turns.dfy ===
/** The Python draft's resolver (turn.py): the board as three groups of named piles, the
    critical cards, the visit grid and the move cache of a turn, the target searches and the
    opening checks of `get_moves_for_card`. */
module PyTurns {

  import opened Wrappers
  import opened Stacks
  import opened PyLists
  import opened PyCards
  import opened PyMoves

  /** A dictionary entry of a board group: the key and its pile. */
  datatype Entry = Entry(key: string, pile: Pile)

  /** The board dictionary: the 'cycle', 'center' and 'win' groups, each a dictionary from pile
      name to pile kept in insertion order. */
  datatype Board = Board(cycle: seq<Entry>, center: seq<Entry>, win: seq<Entry>)

  /** `group.values()`: the piles in insertion order. */
  function Values(group: seq<Entry>): (ps: seq<Pile>)
    ensures |ps| == |group|
    ensures forall k | 0 <= k < |group| :: ps[k] == group[k].pile
  {
    if group == [] then [] else [group[0].pile] + Values(group[1..])
  }

  /** `group[key]`: the pile under `key`; KeyError (`None`) when there is none. */
  function Lookup(group: seq<Entry>, key: string): (r: Option<Pile>)
    ensures r.None? <==> forall k | 0 <= k < |group| :: group[k].key != key
    ensures r.Some? ==> exists k | 0 <= k < |group| :: group[k] == Entry(key, r.value)
  {
    if group == [] then None
    else if group[0].key == key then (assert group[0] == Entry(key, group[0].pile); Some(group[0].pile))
    else
      var r := Lookup(group[1..], key);
      assert forall k | 1 <= k < |group| :: group[k] == group[1..][k - 1];
      r
  }

  /** `get_piles`: the piles of the selected groups, cycle first, then center, then win. */
  function GetPiles(board: Board, cycle: bool := true, center: bool := true, win: bool := true): (ps: seq<Pile>)
    ensures |ps| == (if cycle then |board.cycle| else 0) + (if center then |board.center| else 0)
                    + (if win then |board.win| else 0)
    ensures cycle ==> ps[..|board.cycle|] == Values(board.cycle)
    ensures win ==> ps[|ps| - |board.win|..] == Values(board.win)
    ensures center ==> var c := if cycle then |board.cycle| else 0;
                       ps[c..c + |board.center|] == Values(board.center)
  {
    var a := if cycle then Values(board.cycle) else [];
    var b := if center then Values(board.center) else [];
    var c := if win then Values(board.win) else [];
    assert (a + b + c)[..|a|] == a;
    assert (a + b + c)[|a|..|a| + |b|] == b;
    a + b + c
  }

  /** `TargetType`, a string enumeration. */
  datatype TargetType = TargetCenter | TargetWin | TargetBoth

  /** The string each member of `TargetType` is equal to; a `MoveType` member compares equal
      to the `TargetType` member with the same string. */
  function TargetTypeName(t: TargetType): string
  {
    match t
    case TargetCenter => "Center"
    case TargetWin => "Win"
    case TargetBoth => "Both"
  }

  /** `is_critical_card`: a face-up card on a center pile with a face-down card or nothing
      below it. */
  predicate IsCritical(c: Card)
    reads c
    requires c.pile != null
  {
    c.pile.kind == Center && !c.facedown && (c.facedownBelow || c.nothingBelow)
  }

  /** The critical cards of `cs`, in order. */
  function CriticalOf(cs: seq<Card>): (r: seq<Card>)
    reads set c | c in cs
    requires forall k | 0 <= k < |cs| :: cs[k].pile != null
    ensures forall k | 0 <= k < |r| :: r[k] in cs && r[k].pile != null && IsCritical(r[k])
    ensures forall k | 0 <= k < |cs| && IsCritical(cs[k]) :: cs[k] in r
  {
    if cs == [] then []
    else
      var rest := CriticalOf(cs[1..]);
      assert forall k | 1 <= k < |cs| :: cs[k] == cs[1..][k - 1];
      if IsCritical(cs[0]) then [cs[0]] + rest else rest
  }

  /** The critical cards keep the order of the card list: those of a concatenation are those of
      each part, concatenated. */
  lemma {:induction false} CriticalOfAppend(a: seq<Card>, b: seq<Card>)
    requires forall k | 0 <= k < |a| :: a[k].pile != null
    requires forall k | 0 <= k < |b| :: b[k].pile != null
    ensures CriticalOf(a + b) == CriticalOf(a) + CriticalOf(b)
    decreases |a|
  {
    if a == [] {
      assert a + b == b;
    } else {
      assert (a + b)[0] == a[0] && (a + b)[1..] == a[1..] + b;
      CriticalOfAppend(a[1..], b);
    }
  }

  /** Moves of one type, as `get_possible_moves` selects them. */
  function OfType(ms: seq<Move>, tt: TargetType): seq<Move>
  {
    Filter(ms, (m: Move) => MoveTypeName(m.moveType) == TargetTypeName(tt))
  }

  /** Every move is a win move or a center move: the two selections split a cached list. */
  lemma {:induction false} OfTypeSplit(ms: seq<Move>)
    ensures |OfType(ms, TargetWin)| + |OfType(ms, TargetCenter)| == |ms|
    ensures OfType(ms, TargetBoth) == []
    decreases |ms|
  {
    if ms != [] {
      OfTypeSplit(ms[1..]);
    }
  }

  lemma MatchByCells(card: Card, cs: seq<Card>)
    ensures forall k | 0 <= k < |cs| :: CardsMatch(card, cs[k]) <==> cs[k].Cell() == card.Cell()
  {
    forall k | 0 <= k < |cs|
      ensures CardsMatch(card, cs[k]) <==> cs[k].Cell() == card.Cell()
    {
      MatchByIdAndCell(card, cs[k]);
    }
  }

  /** The result of the opening checks of `get_moves_for_card`: it returned a list, it goes on
      to build the card's moves, or it raised AttributeError on a card without a pile. */
  datatype Outcome = Returned(moves: seq<Move>) | Continues | Raised

  class Turn {
    const board: Board
    const cards: seq<Card>
    /** 52 rows of 13 flags; only the first four rows, one per suit, are ever used. */
    const visited: array2<bool>
    var cardsToCheck: seq<Card>
    /** Keyed by a card's unbracketed id. */
    var possibleMoves: map<string, seq<Move>>

    /** The cache discipline: every visited identity has a cache entry. */
    ghost predicate Valid()
      reads this, visited
    {
      visited.Length0 == 52 && visited.Length1 == 13
      && forall i, j | 0 <= i < 4 && 0 <= j < 13 && visited[i, j] :: KeyOf((i, j)) in possibleMoves
    }

    /** A new turn has visited nothing, checks nothing and caches nothing. */
    constructor (board: Board, cards: seq<Card>)
      ensures this.board == board && this.cards == cards
      ensures fresh(visited) && visited.Length0 == 52 && visited.Length1 == 13
      ensures forall i, j | 0 <= i < 52 && 0 <= j < 13 :: !visited[i, j]
      ensures cardsToCheck == [] && possibleMoves == map[]
      ensures Valid()
    {
      this.board := board;
      this.cards := cards;
      visited := new bool[52, 13]((i, j) => false);
      cardsToCheck := [];
      possibleMoves := map[];
    }

    /** The identities (suit row and rank column) whose flag is still clear; a first visit removes
        one. */
    ghost function Unvisited(): set<Cell>
      reads this, visited
      requires visited.Length0 == 52 && visited.Length1 == 13
    {
      set i, j | 0 <= i < 4 && 0 <= j < 13 && !visited[i, j] :: (i, j)
    }

    /** `get_critical_cards`: the critical cards in the order of `cards`; AttributeError
        (`None`) as soon as one card lies on no pile. */
    function GetCriticalCards(): (r: Option<seq<Card>>)
      reads set c | c in cards
      ensures r.None? <==> exists k | 0 <= k < |cards| :: cards[k].pile == null
      ensures r.Some? ==> r.value == CriticalOf(cards)
    {
      if forall k | 0 <= k < |cards| :: cards[k].pile != null then Some(CriticalOf(cards)) else None
    }

    /** `is_being_checked`: some card on the check list has the same identity. */
    function IsBeingChecked(card: Card): (b: bool)
      reads this
      ensures b <==> exists k | 0 <= k < |cardsToCheck| :: cardsToCheck[k].Cell() == card.Cell()
    {
      MatchByCells(card, cardsToCheck);
      exists k | 0 <= k < |cardsToCheck| :: CardsMatch(card, cardsToCheck[k])
    }

    /** `has_been_visited`: the identity's flag in the grid, set exactly when the identity has
        left the unvisited set. */
    function HasBeenVisited(card: Card): (r: bool)
      reads this, visited
      requires visited.Length0 == 52 && visited.Length1 == 13
      ensures r <==> card.Cell() !in Unvisited()
    {
      visited[card.Cell().0, card.Cell().1]
    }

    /** `visit`: sets the identity's flag and no other. */
    method Visit(card: Card)
      requires visited.Length0 == 52 && visited.Length1 == 13
      modifies visited
      ensures HasBeenVisited(card)
      ensures forall i, j | 0 <= i < 52 && 0 <= j < 13 && (i, j) != card.Cell() :: visited[i, j] == old(visited[i, j])
    {
      visited[card.suit.index, card.rank.value - 1] := true;
    }

    /** `get_target`: the cards of the turn that are center targets (or win targets) of `card`,
        in order; asked for both kinds it falls through and returns None. */
    function GetTarget(card: Card, targetType: TargetType): (r: Option<seq<Card>>)
      ensures r.None? <==> targetType == TargetBoth
      ensures targetType == TargetCenter ==>
        (forall k | 0 <= k < |r.value| :: r.value[k] in cards && CardIsCenterTarget(card, r.value[k]))
        && (forall k | 0 <= k < |cards| && CardIsCenterTarget(card, cards[k]) :: cards[k] in r.value)
      ensures targetType == TargetWin ==>
        (forall k | 0 <= k < |r.value| :: r.value[k] in cards && CardIsWinTarget(card, r.value[k]))
        && (forall k | 0 <= k < |cards| && CardIsWinTarget(card, cards[k]) :: cards[k] in r.value)
    {
      match targetType
      case TargetCenter => Some(Filter(cards, (t: Card) => CardIsCenterTarget(card, t)))
      case TargetWin => Some(Filter(cards, (t: Card) => CardIsWinTarget(card, t)))
      case TargetBoth => None
    }

    /** `get_possible_moves`: the cached list for both kinds, otherwise its moves of the asked
        kind in order; KeyError (`None`) for an identity with no entry. */
    function GetPossibleMoves(card: Card, targetType: TargetType): (r: Option<seq<Move>>)
      reads this, card
      ensures r.None? <==> card.Id(false) !in possibleMoves
      ensures r.Some? && targetType == TargetBoth ==> r.value == possibleMoves[card.Id(false)]
      ensures r.Some? && targetType != TargetBoth ==>
        (forall k | 0 <= k < |r.value| :: r.value[k] in possibleMoves[card.Id(false)]
                                          && MoveTypeName(r.value[k].moveType) == TargetTypeName(targetType))
        && (forall k | 0 <= k < |possibleMoves[card.Id(false)]|
                       && MoveTypeName(possibleMoves[card.Id(false)][k].moveType) == TargetTypeName(targetType)
              :: possibleMoves[card.Id(false)][k] in r.value)
    {
      var key := card.Id(false);
      if key !in possibleMoves then None
      else if targetType == TargetBoth then Some(possibleMoves[key])
      else Some(OfType(possibleMoves[key], targetType))
    }

    /** The opening checks of `get_moves_for_card`, in their order: read the card's pile kind
        (AttributeError without a pile); return [] while the card is being checked; return the
        cached moves of a visited identity; otherwise mark it visited, cache [] under its id
        before anything recurses, and return [] for a face-down center card. */
    method BeginMovesForCard(card: Card, targetType: TargetType := TargetBoth) returns (o: Outcome)
      requires Valid()
      modifies this, visited
      ensures Valid() && cardsToCheck == old(cardsToCheck)
      ensures card.pile == null ==> o == Raised && unchanged(this, visited)
      ensures card.pile != null && old(IsBeingChecked(card)) ==> o == Returned([]) && unchanged(this, visited)
      ensures card.pile != null && !old(IsBeingChecked(card)) && old(HasBeenVisited(card)) ==>
        old(GetPossibleMoves(card, targetType)).Some?
        && o == Returned(old(GetPossibleMoves(card, targetType)).value) && unchanged(this, visited)
      ensures card.pile != null && !old(IsBeingChecked(card)) && !old(HasBeenVisited(card)) ==>
        HasBeenVisited(card)
        && possibleMoves == old(possibleMoves)[card.Id(false) := []]
        && Unvisited() == old(Unvisited()) - {card.Cell()} && |Unvisited()| < old(|Unvisited()|)
        && o == (if card.pile.kind == Center && card.facedown then Returned([]) else Continues)
    {
      if card.pile == null {
        return Raised;
      }
      var pileType := card.pile.kind;
      if IsBeingChecked(card) {
        return Returned([]);
      }
      if HasBeenVisited(card) {
        var moves := GetPossibleMoves(card, targetType);
        return Returned(moves.value);
      }
      ghost var before := Unvisited();
      Visit(card);
      possibleMoves := possibleMoves[card.Id(false) := []];
      assert Unvisited() == before - {card.Cell()};
      if pileType == Center && card.facedown {
        return Returned([]);
      }
      return Continues;
    }
  }
}

=== FILE: ranks.dfy ===
/** The thirteen ranks, as the rank tables of the two drafts build them
    (src/Card/index.ts derives each display code, rank.py passes it in). */
module CardRanks {

  import opened Numerals
  import opened Wrappers

  /** A rank: name, value, display code (`strValue` / `key`) and whether it was built as a
      `FaceRank` (whose image path is presentation only). */
  datatype Rank = Rank(name: string, value: int, code: string, face: bool)

  /** `new Rank(name, value)` (`face` false) or `new FaceRank(name, value)` (`face` true) of the
      TypeScript draft: the code is the first letter of the name for the value 1 and for values
      above 10, the numeral otherwise. */
  function TsRank(name: string, value: int, face: bool): (r: Rank)
    requires name != ""
    ensures r.name == name && r.value == value && r.face == face
    ensures value == 1 || value > 10 ==> r.code == [name[0]]
    ensures 1 < value <= 10 ==> r.code == NatToString(value)
  {
    Rank(name, value, if value == 1 || value > 10 then [name[0]] else IntToString(value), face)
  }

  /** `Rank(name, value, key)` or `FaceRank(name, value, key, img)` of the Python draft:
      `key or f'{value}'`, so a missing or empty key falls back to the numeral. */
  function PyRank(name: string, value: int, key: Option<string>, face: bool): (r: Rank)
    ensures r.name == name && r.value == value && r.face == face
    ensures key == None || key == Some("") ==> r.code == IntToString(value)
    ensures key.Some? && key.value != "" ==> r.code == key.value
  {
    Rank(name, value, if key.Some? && key.value != "" then key.value else IntToString(value), face)
  }

  const Ranks: seq<Rank> := [
    TsRank("Ace", 1, false),
    TsRank("Two", 2, false),
    TsRank("Three", 3, false),
    TsRank("Four", 4, false),
    TsRank("Five", 5, false),
    TsRank("Six", 6, false),
    TsRank("Seven", 7, false),
    TsRank("Eight", 8, false),
    TsRank("Nine", 9, false),
    TsRank("Ten", 10, false),
    TsRank("Jack", 11, true),
    TsRank("Queen", 12, true),
    TsRank("King", 13, true)
  ]

  const PyRanks: seq<Rank> := [
    PyRank("Ace", 1, Some("A"), false),
    PyRank("Two", 2, None, false),
    PyRank("Three", 3, None, false),
    PyRank("Four", 4, None, false),
    PyRank("Five", 5, None, false),
    PyRank("Six", 6, None, false),
    PyRank("Seven", 7, None, false),
    PyRank("Eight", 8, None, false),
    PyRank("Nine", 9, None, false),
    PyRank("Ten", 10, None, false),
    PyRank("Jack", 11, Some("J"), true),
    PyRank("Queen", 12, Some("Q"), true),
    PyRank("King", 13, Some("K"), true)
  ]

  /** The display codes in table order. */
  const Codes: seq<string> := ["A", "2", "3", "4", "5", "6", "7", "8", "9", "10", "J", "Q", "K"]

  /** A rank of the table: the only ranks a card ever holds. */
  type CatalogRank = r: Rank | 1 <= r.value <= 13 && r == Ranks[r.value - 1] witness Rank("Ace", 1, "A", false)

  /** The table: thirteen ranks with values 1 to 13 in order, coded A, 2 ... 10, J, Q, K;
      only Jack, Queen and King are face ranks. */
  lemma RankTable()
    ensures |Ranks| == 13
    ensures forall i :: 0 <= i < 13 ==> Ranks[i].value == i + 1 && Ranks[i].code == Codes[i]
    ensures forall i :: 0 <= i < 13 ==> (Ranks[i].face <==> i >= 10)
  {
    assert NatToString(10) == "10";
  }

  /** The two drafts build the same table: deriving the code from the name (TypeScript) and
      passing 'A', 'J', 'Q', 'K' or nothing (Python) give the same thirteen ranks. */
  lemma RankTablesAgree()
    ensures PyRanks == Ranks
  {
    assert NatToString(10) == "10";
  }

  /** A catalog rank is the table entry at position value - 1; so the value identifies the rank. */
  lemma RankAtValue(r: CatalogRank)
    ensures 1 <= r.value <= 13 && Ranks[r.value - 1] == r && r.code == Codes[r.value - 1]
  {
    RankTable();
  }

  lemma RankValueInjective(r: CatalogRank, q: CatalogRank)
    ensures r.value == q.value <==> r == q
  {
    RankAtValue(r);
    RankAtValue(q);
  }

  /** The rank displayed as `code`, if any (a search of the code column). */
  function RankOfCode(code: string): Option<CatalogRank>
  {
    RankOfCodeFrom(code, 0)
  }

  function RankOfCodeFrom(code: string, i: nat): Option<CatalogRank>
    requires i <= 13
    decreases 13 - i
  {
    RankTable();
    if i == 13 then None
    else if Ranks[i].code == code then Some(Ranks[i])
    else RankOfCodeFrom(code, i + 1)
  }

  /** Reading the display code back gives the rank: the thirteen codes are distinct. */
  lemma RankOfCodeInverts(r: CatalogRank)
    ensures RankOfCode(r.code) == Some(r)
  {
    RankAtValue(r);
    var v := r.value;
    var i := 0;
    while i < v - 1
      invariant 0 <= i <= v - 1
      invariant RankOfCode(r.code) == RankOfCodeFrom(r.code, i)
    {
      assert Codes[i] != Codes[v - 1];
      i := i + 1;
    }
  }
}

=== FILE: stacks.dfy ===
/** The thirteen piles of the TypeScript draft, the values of its `Stack` type, and the pile kind
    derived from a pile's name (`getStackType` in src/Turn/index.ts, `setStackType` in
    src/Card/index.ts). */
module Stacks {

  import opened Wrappers
  import opened Numerals
  import opened CardSuits

  datatype StackType = Cycle | Center | Win

  newtype TableauNumber = n: int | 1 <= n <= 7 witness 1

  /** The thirteen piles: the stock ('Draw'), the waste ('Discard'), the tableau piles 1 to 7
      and the foundations of the four suits ('WinS', 'WinH', 'WinC', 'WinD'). */
  datatype PileId = Draw | Discard | Tableau(n: TableauNumber) | Foundation(suit: SuitIndex)

  /** The property name of a pile on the board object. */
  function Name(p: PileId): string
  {
    match p
    case Draw => "Draw"
    case Discard => "Discard"
    case Tableau(n) => IntToString(n as int)
    case Foundation(i) => "Win" + ["SHCD"[i]]
  }

  /** A value of the `Stack` type at run time. `dealCards` stores the numbers 1 to 7, while a
      name read back from `Object.keys` is a string, also for '1' to '7'; `===` tells the number
      3 from the string '3'. */
  datatype Stack = Str(pile: PileId) | Num(n: TableauNumber)

  /** The pile a `Stack` value selects on the board object: `board[3]` reads property '3'. */
  function PileOf(v: Stack): PileId
  {
    match v
    case Str(p) => p
    case Num(n) => Tableau(n)
  }

  /** The property name a `Stack` value stands for: `stack as string` for a string, the numeral
      `parseInt` and property lookup turn a number into. */
  function Key(v: Stack): string
  {
    Name(PileOf(v))
  }

  /** `getStackType(stack)` and the expression in `setStackType`: a name `parseInt` reads a number
      from is a Center pile, a name starting with 'Win' a Win pile, anything else a Cycle pile. */
  function StackTypeOfName(name: string): (r: StackType)
    ensures PileOfName(name).Some? ==> r == KindOf(PileOfName(name).value)
  {
    NamedKind(name);
    if ParseIntIsNumber(name) then Center
    else if StartsWith(name, "Win") then Win
    else Cycle
  }

  /** The tests `getStackType` makes, on the name of a pile: a number exactly for a tableau
      pile, and 'Win' in front exactly for a foundation. */
  lemma NamedKind(name: string)
    ensures PileOfName(name).Some? ==>
              (ParseIntIsNumber(name) <==> PileOfName(name).value.Tableau?) &&
              (StartsWith(name, "Win") <==> PileOfName(name).value.Foundation?)
  {
    if |name| == 1 && '1' <= name[0] <= '7' {
      DigitIsNumber(name);
    } else if PileOfName(name).Some? {
      LetterIsNotNumber(name);
    }
  }

  /** `getStackType`: the kind of the pile a stack value names, whether the value is held as a
      name or as a number. */
  function GetStackType(stack: Stack): (r: StackType)
    ensures r == KindOf(PileOf(stack))
  {
    StackKinds(PileOf(stack));
    StackTypeOfName(Key(stack))
  }

  /** The kind each pile is meant to have. */
  function KindOf(p: PileId): StackType
  {
    match p
    case Draw => Cycle
    case Discard => Cycle
    case Tableau(_) => Center
    case Foundation(_) => Win
  }

  /** A one-digit numeral other than '0' is read as a number by `parseInt`. */
  lemma DigitIsNumber(k: string)
    requires |k| == 1 && '1' <= k[0] <= '9'
    ensures ParseIntIsNumber(k) && IsArrayIndexKey(k)
  {
    assert TrimStart(k) == k;
    assert k[..0] == [];
  }

  /** A name starting with a letter is not read as a number, nor taken for an array index. */
  lemma LetterIsNotNumber(k: string)
    requires k != [] && 'A' <= k[0] <= 'Z'
    ensures !ParseIntIsNumber(k) && !IsArrayIndexKey(k)
  {
    assert TrimStart(k) == k;
  }

  lemma TableauName(n: TableauNumber)
    ensures Name(Tableau(n)) == [DigitChar(n as nat)]
  {
  }

  /** Reading the kind off the name, as the source does, gives the kind each pile is meant to
      have: '1' to '7' are Center piles, 'Win' + initial Win piles, Draw and Discard Cycle piles. */
  lemma StackKinds(p: PileId)
    ensures StackTypeOfName(Name(p)) == KindOf(p)
  {
    NameRoundTrip(p);
  }

  /** The pile a property name stands for, if any. */
  function PileOfName(k: string): Option<PileId>
  {
    if k == "Draw" then Some(Draw)
    else if k == "Discard" then Some(Discard)
    else if |k| == 1 && '1' <= k[0] <= '7' then Some(Tableau((k[0] as int - '0' as int) as TableauNumber))
    else if |k| == 4 && k[..3] == "Win" then
      if k[3] == 'S' then Some(Foundation(0))
      else if k[3] == 'H' then Some(Foundation(1))
      else if k[3] == 'C' then Some(Foundation(2))
      else if k[3] == 'D' then Some(Foundation(3))
      else None
    else None
  }

  /** Reading a pile's name back gives the pile, so different piles have different names. */
  lemma NameRoundTrip(p: PileId)
    ensures PileOfName(Name(p)) == Some(p)
  {
    match p
    case Tableau(n) => TableauName(n);
    case Foundation(i) => assert Name(p)[..3] == "Win";
    case _ =>
  }

  lemma NameInjective(p: PileId, q: PileId)
    ensures Name(p) == Name(q) <==> p == q
  {
    NameRoundTrip(p);
    NameRoundTrip(q);
  }

  /** The piles in the order `newBoard` writes them. */
  const InsertionOrder: seq<PileId> := [
    Draw, Discard,
    Tableau(1), Tableau(2), Tableau(3), Tableau(4), Tableau(5), Tableau(6), Tableau(7),
    Foundation(0), Foundation(1), Foundation(2), Foundation(3)]

  const TableauPiles: seq<PileId> :=
    [Tableau(1), Tableau(2), Tableau(3), Tableau(4), Tableau(5), Tableau(6), Tableau(7)]

  const FoundationPiles: seq<PileId> := [Foundation(0), Foundation(1), Foundation(2), Foundation(3)]

  /** The piles in the order `Object.keys`, `Object.values` and `Object.entries` list them. */
  const KeyOrder: seq<PileId> := TableauPiles + [Draw, Discard] + FoundationPiles

  function Names(ps: seq<PileId>): (names: seq<string>)
    ensures |names| == |ps| && forall i :: 0 <= i < |ps| ==> names[i] == Name(ps[i])
  {
    if ps == [] then [] else [Name(ps[0])] + Names(ps[1..])
  }

  /** JavaScript's property order, for a list of distinct keys whose array-index keys already
      appear in ascending order: the array-index keys first, then the others as inserted. */
  function ObjectKeyOrder(keys: seq<string>): seq<string>
  {
    IndexKeys(keys) + OtherKeys(keys)
  }

  function IndexKeys(keys: seq<string>): seq<string>
  {
    if keys == [] then []
    else (if IsArrayIndexKey(keys[0]) then [keys[0]] else []) + IndexKeys(keys[1..])
  }

  function OtherKeys(keys: seq<string>): seq<string>
  {
    if keys == [] then []
    else (if IsArrayIndexKey(keys[0]) then [] else [keys[0]]) + OtherKeys(keys[1..])
  }

  lemma {:induction false} KeysAppend(a: seq<string>, b: seq<string>)
    ensures IndexKeys(a + b) == IndexKeys(a) + IndexKeys(b)
    ensures OtherKeys(a + b) == OtherKeys(a) + OtherKeys(b)
    decreases |a|
  {
    if a == [] {
      assert a + b == b;
    } else {
      var ab := a + b;
      assert ab[0] == a[0] && ab[1..] == a[1..] + b;
      KeysAppend(a[1..], b);
      var head := if IsArrayIndexKey(a[0]) then [a[0]] else [];
      var rest := if IsArrayIndexKey(a[0]) then [] else [a[0]];
      assert IndexKeys(ab) == head + IndexKeys(a[1..] + b);
      assert IndexKeys(a) == head + IndexKeys(a[1..]);
      assert OtherKeys(ab) == rest + OtherKeys(a[1..] + b);
      assert OtherKeys(a) == rest + OtherKeys(a[1..]);
    }
  }

  lemma {:induction false} AllIndexKeys(a: seq<string>)
    requires forall i :: 0 <= i < |a| ==> IsArrayIndexKey(a[i])
    ensures IndexKeys(a) == a && OtherKeys(a) == []
    decreases |a|
  {
    if a != [] {
      AllIndexKeys(a[1..]);
    }
  }

  lemma {:induction false} NoIndexKeys(a: seq<string>)
    requires forall i :: 0 <= i < |a| ==> !IsArrayIndexKey(a[i])
    ensures IndexKeys(a) == [] && OtherKeys(a) == a
    decreases |a|
  {
    if a != [] {
      NoIndexKeys(a[1..]);
    }
  }

  /** Keys that are not array indices, then array-index keys, then other keys again, are listed
      by JavaScript with the array-index keys first. */
  lemma {:induction false} OrderOfThree(x: seq<string>, y: seq<string>, z: seq<string>)
    requires forall i :: 0 <= i < |x| ==> !IsArrayIndexKey(x[i])
    requires forall i :: 0 <= i < |y| ==> IsArrayIndexKey(y[i])
    requires forall i :: 0 <= i < |z| ==> !IsArrayIndexKey(z[i])
    ensures ObjectKeyOrder(x + y + z) == y + x + z
  {
    NoIndexKeys(x);
    AllIndexKeys(y);
    NoIndexKeys(z);
    KeysAppend(x, y);
    KeysAppend(x + y, z);
  }

  lemma NamesAppend(a: seq<PileId>, b: seq<PileId>)
    ensures Names(a + b) == Names(a) + Names(b)
  {
  }

  /** Exactly the names of the tableau piles are array-index keys. */
  lemma IndexKeyPiles(p: PileId)
    ensures IsArrayIndexKey(Name(p)) <==> p.Tableau?
  {
    match p
    case Tableau(n) => TableauName(n); DigitIsNumber(Name(p));
    case _ => LetterIsNotNumber(Name(p));
  }

  /** Non-tableau piles, then tableau piles, then non-tableau piles again are listed with the
      tableau piles first. */
  lemma KeyOrderOfParts(c: seq<PileId>, t: seq<PileId>, f: seq<PileId>)
    requires forall i :: 0 <= i < |c| ==> !c[i].Tableau?
    requires forall i :: 0 <= i < |t| ==> t[i].Tableau?
    requires forall i :: 0 <= i < |f| ==> !f[i].Tableau?
    ensures ObjectKeyOrder(Names(c + t + f)) == Names(t + c + f)
  {
    NamesAppend(c + t, f);
    NamesAppend(c, t);
    NamesAppend(t + c, f);
    NamesAppend(t, c);
    var x := Names(c);
    var y := Names(t);
    var z := Names(f);
    forall i | 0 <= i < |x| ensures !IsArrayIndexKey(x[i]) { IndexKeyPiles(c[i]); }
    forall i | 0 <= i < |y| ensures IsArrayIndexKey(y[i]) { IndexKeyPiles(t[i]); }
    forall i | 0 <= i < |z| ensures !IsArrayIndexKey(z[i]) { IndexKeyPiles(f[i]); }
    OrderOfThree(x, y, z);
  }

  /** The board object lists the tableau piles first, in numeric order, then Draw, Discard and
      the foundations: `Object.values(board)` and `Object.keys(board)` follow `KeyOrder`. */
  lemma NewBoardKeyOrder()
    ensures ObjectKeyOrder(Names(InsertionOrder)) == Names(KeyOrder)
  {
    assert InsertionOrder == [Draw, Discard] + TableauPiles + FoundationPiles;
    KeyOrderOfParts([Draw, Discard], TableauPiles, FoundationPiles);
  }

  /** Every pile occurs in `KeyOrder`, once. */
  lemma KeyOrderIsPermutation()
    ensures forall p: PileId :: p in KeyOrder
    ensures |KeyOrder| == 13
    ensures forall i, j :: 0 <= i < j < |KeyOrder| ==> KeyOrder[i] != KeyOrder[j]
  {
    forall p: PileId ensures p in KeyOrder {
      match p
      case Tableau(n) => assert n == 1 || n == 2 || n == 3 || n == 4 || n == 5 || n == 6 || n == 7;
      case Foundation(i) => assert i == 0 || i == 1 || i == 2 || i == 3;
      case _ =>
    }
  }

  /** `newBoard` writes every pile. */
  lemma InsertionOrderComplete()
    ensures forall p: PileId :: p in InsertionOrder
  {
    forall p: PileId ensures p in InsertionOrder {
      match p
      case Tableau(n) => assert n == 1 || n == 2 || n == 3 || n == 4 || n == 5 || n == 6 || n == 7;
      case Foundation(i) => assert i == 0 || i == 1 || i == 2 || i == 3;
      case _ =>
    }
  }

  /** The foundation of a suit. */
  function WinPile(s: CatalogSuit): (p: PileId)
    ensures p.Foundation? && p.suit as int == s.index
    ensures Name(p) == "Win" + [Initial(s)]
  {
    Foundation(s.index as SuitIndex)
  }
}

=== FILE: suits.dfy ===
/** The four suits, as the suit table of both drafts builds them (src/Card/index.ts, suit.py). */
module CardSuits {

  import opened Wrappers

  datatype Color = Black | Red

  /** The integer each colour has in the Python draft's `SuitColor` enum. */
  function ColorValue(c: Color): int
  {
    match c
    case Black => 0
    case Red => 1
  }

  /** A suit as both drafts construct it: name, colour and index (the icon path is presentation only).
      The fields are exactly the constructor's arguments, which is all the accessors return. */
  datatype Suit = Suit(name: string, color: Color, index: int)

  const Suits: seq<Suit> := [
    Suit("Spades", Black, 0),
    Suit("Hearts", Red, 1),
    Suit("Clubs", Black, 2),
    Suit("Diamonds", Red, 3)
  ]

  /** A position in the suit table. */
  newtype SuitIndex = i: int | 0 <= i < 4

  /** A suit of the table: the only suits a card ever holds. */
  type CatalogSuit = s: Suit | 0 <= s.index < 4 && s == Suits[s.index] witness Suit("Spades", Black, 0)

  /** The first letter of the suit's name (`suit.getName[0]`, `suit.name[0]`). */
  function Initial(s: CatalogSuit): (c: char)
    ensures c == "SHCD"[s.index]
  {
    s.name[0]
  }

  /** The table: four suits, Spades, Hearts, Clubs, Diamonds, each at its own index,
      alternately black and red. */
  lemma SuitTable()
    ensures |Suits| == 4
    ensures forall i :: 0 <= i < 4 ==> Suits[i].index == i
    ensures Suits[0].name == "Spades" && Suits[1].name == "Hearts"
    ensures Suits[2].name == "Clubs" && Suits[3].name == "Diamonds"
    ensures forall i :: 0 <= i < 4 ==> Suits[i].color == (if i % 2 == 0 then Black else Red)
    ensures forall i :: 0 <= i < 4 ==> ColorValue(Suits[i].color) == i % 2
  {
  }

  /** A catalog suit is the table entry at its own index; so the index identifies the suit. */
  lemma SuitAtIndex(s: CatalogSuit)
    ensures 0 <= s.index < 4 && Suits[s.index] == s
  {
  }

  lemma SuitIndexInjective(s: CatalogSuit, t: CatalogSuit)
    ensures s.index == t.index <==> s == t
  {
    SuitAtIndex(s);
    SuitAtIndex(t);
  }

  /** The suit whose name starts with `c`, if any. */
  function SuitOfInitial(c: char): Option<CatalogSuit>
  {
    if c == 'S' then Some(Suits[0])
    else if c == 'H' then Some(Suits[1])
    else if c == 'C' then Some(Suits[2])
    else if c == 'D' then Some(Suits[3])
    else None
  }

  /** Reading the initial back gives the suit: the four initials are distinct. */
  lemma SuitOfInitialInverts(s: CatalogSuit)
    ensures SuitOfInitial(Initial(s)) == Some(s)
  {
    SuitAtIndex(s);
  }

  /** Black and red alternate, so two suits have different colours exactly when their
      indices differ in parity. */
  lemma ColorByParity(s: CatalogSuit, t: CatalogSuit)
    ensures s.color != t.color <==> s.index % 2 != t.index % 2
  {
    SuitAtIndex(s);
    SuitAtIndex(t);
  }
}

=== FILE: turns.dfy ===
/** The move resolver of the TypeScript draft (`Turn` in src/Turn/index.ts): a memoised
    depth-first search over the 52 card identities. A `visited` table marks each identity the
    first time it is expanded, a cache keyed by the identity's text keeps the moves found for it,
    and a stack of cards under examination breaks circular dependencies. */
module Turns {

  import opened Wrappers
  import opened CardSuits
  import opened CardRanks
  import opened Stacks
  import opened Cards
  import opened Boards
  import opened Moves

  /** `TargetType`: all moves ('Both') or only the moves of one type ('Win', 'Center'). */
  datatype TargetType = Both | Of(moveType: MoveType)

  /** The moves a request of type `t` admits, in order (the filter of `getPossibleMoves`). */
  function OfType(moves: seq<Move>, t: TargetType): (r: seq<Move>)
    ensures t == Both ==> r == moves
    ensures |r| <= |moves|
    ensures forall m | m in r :: m in moves && (t == Both || m.moveType == t.moveType)
    ensures forall m | m in moves && (t == Both || m.moveType == t.moveType) :: m in r
  {
    if t == Both || moves == [] then moves
    else (if moves[0].moveType == t.moveType then [moves[0]] else []) + OfType(moves[1..], t)
  }

  /** The cell of `visited` that stands for a card's identity. Two cards have the same cell
      exactly when they match, as they have the same `getId(true)` text exactly when they match
      (`Cards.IdKeyMatches`); the cache is keyed by it. */
  function Cell(c: Card): (cell: (int, int))
    ensures 0 <= cell.0 < 4 && 0 <= cell.1 < 13
  {
    (c.suit.index, c.rank.value - 1)
  }

  lemma CellMatches(a: Card, b: Card)
    ensures Cell(a) == Cell(b) <==> a.Matches(b)
    ensures Cell(a) == Cell(b) <==> a.GetId(true) == b.GetId(true)
  {
    IdKeyMatches(a, b);
  }

  /** The filter of `getWinTarget`: the same suit, one rank lower. */
  predicate WinAimed(card: Card, target: Card)
  {
    target.suit == card.suit && target.rank.value + 1 == card.rank.value
  }

  /** The filter of `getCenterTargets`: the other colour, one rank higher. */
  predicate CenterAimed(card: Card, target: Card)
  {
    target.suit.color != card.suit.color && target.rank.value - 1 == card.rank.value
  }

  /** The resolver's filters pick exactly the targets the card itself names. */
  lemma AimedTargets(card: Card, target: Card)
    ensures WinAimed(card, target) <==> card.IsWinTarget(target)
    ensures CenterAimed(card, target) <==> card.IsStackTarget(target)
  {
  }

  /** A move's target agrees with its type: one rank lower and the same suit for a Win move,
      one rank higher and the other colour for a Center move; a move without a target goes to an
      empty pile. */
  predicate WellTargeted(m: Move)
  {
    m.targetCard != null ==>
      (m.moveType == ToWin ==> WinAimed(m.card, m.targetCard)) &&
      (m.moveType == ToCenter ==> CenterAimed(m.card, m.targetCard))
  }

  /** Each move of the cache `pm` is of the card its key names and aimed as its type says. */
  predicate AimedIn(pm: map<(int, int), seq<Move>>)
  {
    forall k, m | k in pm && m in pm[k] :: Cell(m.card) == k && WellTargeted(m)
  }

  /** Writing an entry of moves of the key's identity, each aimed as its type says, keeps a
      cache aimed. */
  lemma AimedByEntry(pm: map<(int, int), seq<Move>>, k: (int, int), found: seq<Move>)
    requires AimedIn(pm) && forall m | m in found :: Cell(m.card) == k && WellTargeted(m)
    ensures AimedIn(pm[k := found])
  {
  }

  /** One of `moves` is aimed at `t`. */
  predicate Aims(moves: seq<Move>, t: Card)
  {
    exists m :: m in moves && m.targetCard == t
  }

  lemma AimsGrows(moves: seq<Move>, x: Move)
    ensures forall t: Card | Aims(moves, t) :: Aims(moves + [x], t)
    ensures x.targetCard != null ==> Aims(moves + [x], x.targetCard)
  {
    forall t: Card | Aims(moves, t) ensures Aims(moves + [x], t) {
      var m :| m in moves && m.targetCard == t;
      assert m in moves + [x];
    }
    assert x in moves + [x];
  }

  /** The filter of `getMoves`: a face-up card on a Center pile with a face-down card or an empty
      space below it. */
  predicate IsCritical(c: Card)
    reads c
  {
    c.stackType == Center && !c.facedown && (c.facedownBelow || c.blankBelow)
  }

  /** The critical cards of `cs`, in order. */
  function CriticalOf(cs: seq<Card>): (r: seq<Card>)
    reads cs
    ensures |r| <= |cs|
    ensures forall c | c in r :: c in cs && IsCritical(c)
    ensures forall c | c in cs && IsCritical(c) :: c in r
  {
    if cs == [] then []
    else (if IsCritical(cs[0]) then [cs[0]] else []) + CriticalOf(cs[1..])
  }

  /** `getWinTarget`: the first card of `cs` of the same suit one rank lower; none for an Ace,
      and none when `cs` holds no such card (the source then reads a property of `undefined`). */
  function WinTargetIn(cs: seq<Card>, card: Card): (r: Option<Card>)
    ensures r.Some? ==> r.value in cs && WinAimed(card, r.value)
    ensures r.None? <==> forall t | t in cs :: !WinAimed(card, t)
    ensures r.Some? ==> exists i :: 0 <= i < |cs| && cs[i] == r.value && forall j :: 0 <= j < i ==> !WinAimed(card, cs[j])
  {
    if cs == [] then None
    else if WinAimed(card, cs[0]) then Some(cs[0])
    else
      var r := WinTargetIn(cs[1..], card);
      if r.Some? then
        var i :| 0 <= i < |cs[1..]| && cs[1..][i] == r.value && forall j :: 0 <= j < i ==> !WinAimed(card, cs[1..][j]);
        assert cs[i + 1] == r.value && forall j :: 0 <= j < i + 1 ==> !WinAimed(card, cs[j]);
        r
      else r
  }

  /** `getCenterTargets`: the cards of `cs` of the other colour one rank higher, in order. */
  function CenterTargetsIn(cs: seq<Card>, card: Card): (r: seq<Card>)
    ensures |r| <= |cs|
    ensures forall t | t in r :: t in cs && CenterAimed(card, t)
    ensures forall t | t in cs && CenterAimed(card, t) :: t in r
  {
    if cs == [] then []
    else (if CenterAimed(card, cs[0]) then [cs[0]] else []) + CenterTargetsIn(cs[1..], card)
  }

  /** The Center piles a King may move to, as `getKingCenterMoves` filters `Object.keys(board)`
      AS WRITTEN: `stack !== card.getStack` compares a property name (a string) with the card's
      recorded pile, which `dealCards` stores as a number. */
  function KingPilesAsWritten(order: seq<PileId>, st: Stack): (r: seq<PileId>)
    ensures forall p :: p in r <==> p in order && GetStackType(Str(p)) == Center && Str(p) != st
  {
    if order == [] then []
    else (if GetStackType(Str(order[0])) == Center && Str(order[0]) != st then [order[0]] else [])
         + KingPilesAsWritten(order[1..], st)
  }

  /** The Center piles a King may move to: every Center pile except the one it lies on. */
  function KingPiles(order: seq<PileId>, st: Stack): (r: seq<PileId>)
    ensures forall p :: p in r <==> p in order && KindOf(p) == Center && p != PileOf(st)
  {
    if order == [] then []
    else
      StackKinds(order[0]);
      (if GetStackType(Str(order[0])) == Center && order[0] != PileOf(st) then [order[0]] else [])
      + KingPiles(order[1..], st)
  }

  /** The filter as written keeps the King's own tableau pile whenever the King's pile was
      recorded as a number, as dealing records it. */
  lemma KingOwnPileKept(order: seq<PileId>, n: TableauNumber)
    requires Tableau(n) in order
    ensures Tableau(n) in KingPilesAsWritten(order, Num(n))
    ensures Tableau(n) !in KingPiles(order, Num(n))
  {
    StackKinds(Tableau(n));
  }

  /** For a pile recorded by its name the two filters agree. */
  lemma {:induction false} KingPilesAgreeOnNames(order: seq<PileId>, p: PileId)
    ensures KingPilesAsWritten(order, Str(p)) == KingPiles(order, Str(p))
  {
    if order != [] {
      KingPilesAgreeOnNames(order[1..], p);
    }
  }

  /** `indexOf`: the first position of `c` in `s`, or -1. */
  function IndexOf(s: seq<Card>, c: Card): (i: int)
    ensures -1 <= i < |s|
    ensures i == -1 <==> c !in s
    ensures i >= 0 ==> s[i] == c && forall j :: 0 <= j < i ==> s[j] != c
  {
    if s == [] then -1
    else if s[0] == c then 0
    else
      var i := IndexOf(s[1..], c);
      if i == -1 then -1 else i + 1
  }

  /** The order in which chains are assembled: one rank down along Win moves, one rank up along
      Center moves, and a request for both kinds only at the start. */
  function ChainMeasure(c: Card, t: TargetType): nat
  {
    match t
    case Both => 14
    case Of(ToWin) => c.rank.value
    case Of(ToCenter) => 14 - c.rank.value
  }

  /** A chain whose last move is of a card matching one of `cards`. */
  predicate EndsOnOneOf(chain: seq<Move>, cards: seq<Card>)
  {
    chain != [] && exists c | c in cards :: Last(chain).card.Matches(c)
  }

  /** Appending the chains of one of `cards` keeps the earlier chains and makes every chain
      from position `n` on end on one of `cards`. */
  lemma ChainsAppended(before: seq<seq<Move>>, chains: seq<seq<Move>>, cards: seq<Card>, c: Card, n: nat)
    requires n <= |before| && c in cards
    requires forall k | n <= k < |before| :: EndsOnOneOf(before[k], cards)
    requires forall ch | ch in chains :: ch != [] && Last(ch).card.Matches(c)
    ensures (before + chains)[..n] == before[..n]
    ensures forall k | n <= k < |before + chains| :: EndsOnOneOf((before + chains)[k], cards)
  {
    forall k | n <= k < |before + chains| ensures EndsOnOneOf((before + chains)[k], cards) {
      if k >= |before| {
        var ch := chains[k - |before|];
        assert (before + chains)[k] == ch && ch in chains;
        assert Last(ch).card.Matches(c);
      } else {
        assert (before + chains)[k] == before[k];
      }
    }
  }

  /** Appending chains that each end on one of `cards` keeps the earlier chains and the
      property. */
  lemma ChainsJoined(before: seq<seq<Move>>, after: seq<seq<Move>>, cards: seq<Card>, n: nat)
    requires n <= |before|
    requires forall k | n <= k < |before| :: EndsOnOneOf(before[k], cards)
    requires forall k | 0 <= k < |after| :: EndsOnOneOf(after[k], cards)
    ensures (before + after)[..n] == before[..n]
    ensures forall k | n <= k < |before + after| :: EndsOnOneOf((before + after)[k], cards)
  {
    forall k | n <= k < |before + after| ensures EndsOnOneOf((before + after)[k], cards) {
      if k >= |before| {
        assert (before + after)[k] == after[k - |before|];
      } else {
        assert (before + after)[k] == before[k];
      }
    }
  }

  /** From unvisited identities `u0` and cache `pm0` to `u1` and `pm1`: no identity became
      unvisited again, no entry changed, and the new entries are for identities that were
      unvisited. */
  ghost predicate Grown(u0: set<(int, int)>, pm0: map<(int, int), seq<Move>>, u1: set<(int, int)>, pm1: map<(int, int), seq<Move>>)
  {
    u1 <= u0 && (forall k | k in pm0 :: k in pm1 && pm1[k] == pm0[k]) && (forall k | k in pm1 && k !in pm0 :: k in u0)
  }

  /** Two steps that each keep the search growing make one. */
  lemma GrownTrans(u0: set<(int, int)>, pm0: map<(int, int), seq<Move>>, u1: set<(int, int)>, pm1: map<(int, int), seq<Move>>,
                   u2: set<(int, int)>, pm2: map<(int, int), seq<Move>>)
    requires Grown(u0, pm0, u1, pm1) && Grown(u1, pm1, u2, pm2)
    ensures Grown(u0, pm0, u2, pm2)
  {
  }

  /** Writing the entry of an identity that was unvisited at the start keeps the search growing. */
  lemma GrownByEntry(u0: set<(int, int)>, pm0: map<(int, int), seq<Move>>, u1: set<(int, int)>, pm1: map<(int, int), seq<Move>>,
                     k: (int, int), v: seq<Move>)
    requires Grown(u0, pm0, u1, pm1) && k in u0 && k !in pm1
    ensures Grown(u0, pm0, u1, pm1[k := v])
  {
  }

  /** Visiting `k` and then settling what a step expands, and writing the entry of `k`, settles
      `k` with the rest. */
  lemma SettledByEntry(u0: set<(int, int)>, u1: set<(int, int)>, pm: map<(int, int), seq<Move>>,
                       sunk: set<(int, int)>, k: (int, int), v: seq<Move>)
    requires Settled(u0 - {k}, u1, pm, sunk)
    ensures Settled(u0, u1, pm[k := v], sunk)
  {
  }

  /** The identities of the first `i` cards of `cs` are not among `u`. */
  ghost predicate VisitedUpTo(cs: seq<Card>, i: int, u: set<(int, int)>)
    requires 0 <= i <= |cs|
  {
    forall j | 0 <= j < i :: Cell(cs[j]) !in u
  }

  /** Visited cards stay visited when the unvisited identities shrink. */
  lemma StillVisited(cs: seq<Card>, i: int, u1: set<(int, int)>, u2: set<(int, int)>)
    requires 0 <= i < |cs| && VisitedUpTo(cs, i, u1) && u2 <= u1 && Cell(cs[i]) !in u2
    ensures VisitedUpTo(cs, i + 1, u2)
  {
  }

  lemma VisitedAll(cs: seq<Card>, u: set<(int, int)>)
    requires VisitedUpTo(cs, |cs|, u)
    ensures forall c | c in cs :: Cell(c) !in u
  {
    forall c | c in cs ensures Cell(c) !in u {
      var j :| 0 <= j < |cs| && cs[j] == c;
    }
  }

  /** Nothing blocks the card: it lies on the Cycle pile or nothing lies on it, so
      `getMovesForCard` does not look at the card on top. */
  predicate Unblocked(c: Card)
    reads c
  {
    c.stackType == Cycle || c.nothingAbove
  }

  /** No Win move among `moves`. */
  predicate NoWin(moves: seq<Move>)
  {
    forall m | m in moves :: m.moveType != ToWin
  }

  /** A move that needs no other move first: it has no target, or nothing lies on its target
      (the test of `getMoveChainsForCard`). */
  predicate FreeTarget(m: Move)
    reads m.targetCard
  {
    m.targetCard == null || m.targetCard.nothingAbove
  }

  /** A card, moves found for it, and whether it was found free. */
  datatype Answer = Answer(card: Card, moves: seq<Move>, free: bool)

  /** One of `moves` aimed at `t` is still aimed at it after more moves are put in front. */
  lemma AimsAfter(front: seq<Move>, moves: seq<Move>)
    ensures forall t: Card | Aims(moves, t) :: Aims(front + moves, t)
  {
    forall t: Card | Aims(moves, t) ensures Aims(front + moves, t) {
      var m :| m in moves && m.targetCard == t;
      assert m in front + moves;
    }
  }

  /** No two of `cs` share an identity, as in a deck of 52 different cards. */
  predicate UniqueIds(cs: seq<Card>)
  {
    forall i, j | 0 <= i < |cs| && 0 <= j < |cs| && Cell(cs[i]) == Cell(cs[j]) :: i == j
  }

  lemma SameId(cs: seq<Card>, a: Card, b: Card)
    requires UniqueIds(cs) && a in cs && b in cs && Cell(a) == Cell(b)
    ensures a == b
  {
    var i :| 0 <= i < |cs| && cs[i] == a;
    var j :| 0 <= j < |cs| && cs[j] == b;
  }

  /** The 52 identities. */
  const Cells: set<(int, int)> := set i, j | 0 <= i < 4 && 0 <= j < 13 :: (i, j)

  /** No moves for the identity of `a` in the cache `pm`: no entry, or an empty one. */
  predicate NoMovesIn(pm: map<(int, int), seq<Move>>, a: Card)
  {
    Cell(a) !in pm || pm[Cell(a)] == []
  }

  /** Every identity expanded between `u0` and `u1` has an entry in `pm` or is one of `sunk`,
      the face-down Center cards, which `getMovesForCard` leaves without one. */
  ghost predicate Settled(u0: set<(int, int)>, u1: set<(int, int)>, pm: map<(int, int), seq<Move>>, sunk: set<(int, int)>)
  {
    forall k | k in u0 && k !in u1 :: k in pm || k in sunk
  }

  /** Two steps that each settle what they expand make one, as entries are never dropped. */
  lemma SettledTrans(u0: set<(int, int)>, u1: set<(int, int)>, pm1: map<(int, int), seq<Move>>,
                     u2: set<(int, int)>, pm2: map<(int, int), seq<Move>>, sunk: set<(int, int)>)
    requires Settled(u0, u1, pm1, sunk) && Settled(u1, u2, pm2, sunk) && pm1.Keys <= pm2.Keys
    ensures Settled(u0, u2, pm2, sunk)
  {
  }

  /** Writing the entry of a key the cache lacks and taking it out again gives the cache back. */
  lemma EntryRemoved(pm: map<(int, int), seq<Move>>, k: (int, int), v: seq<Move>)
    requires k !in pm
    ensures pm[k := v] - {k} == pm
  {
  }

  /** Each of the first `i` moves of `possible` that is one of `free` is a chain by itself. */
  predicate SinglesUpTo(possible: seq<Move>, free: set<Move>, chains: seq<seq<Move>>, i: int)
  {
    forall j | 0 <= j < i && j < |possible| && possible[j] in free :: [possible[j]] in chains
  }

  /** Appending `extra`, which holds the next move by itself when that move is free, carries the
      one-move chains one move further. */
  lemma SinglesStep(possible: seq<Move>, free: set<Move>, chains: seq<seq<Move>>, extra: seq<seq<Move>>, i: int)
    requires 0 <= i < |possible| && SinglesUpTo(possible, free, chains, i)
    requires possible[i] in free ==> [possible[i]] in extra
    ensures SinglesUpTo(possible, free, chains + extra, i + 1)
  {
    forall j | 0 <= j < i + 1 && possible[j] in free ensures [possible[j]] in chains + extra {
      if j < i {
        assert [possible[j]] in chains;
      }
    }
  }

  /** The entry of the cache `pm` for the identity of `c`, or none. */
  function CardMoves(pm: map<(int, int), seq<Move>>, c: Card): seq<Move>
  {
    if Cell(c) in pm then pm[Cell(c)] else []
  }

  /** Each of `ms` that is one of `free` is a chain by itself. */
  predicate Covers(ms: seq<Move>, free: set<Move>, chains: seq<seq<Move>>)
  {
    forall m | m in ms && m in free :: [m] in chains
  }

  /** Chains stay where they are when more are added on either side. */
  lemma CoversJoin(ms: seq<Move>, free: set<Move>, a: seq<seq<Move>>, b: seq<seq<Move>>)
    requires Covers(ms, free, a) || Covers(ms, free, b)
    ensures Covers(ms, free, a + b)
  {
    forall m | m in ms && m in free ensures [m] in a + b {
      if Covers(ms, free, a) {
        assert [m] in a;
      } else {
        assert [m] in b;
      }
    }
  }

  /** `target` takes a Center move in the cache `pm`: it is the uncovered top of a Center pile,
      or it has a Center move of its own (the test of `getCenterMoves`). */
  predicate CenterAccepts(target: Card, pm: map<(int, int), seq<Move>>)
    reads target
  {
    (target.nothingAbove && target.stackType == Center) || OfType(CardMoves(pm, target), Of(ToCenter)) != []
  }

  /** Deciding whether `target` takes a Center move looked up its entry, so its identity is not
      among the unvisited `u`; an uncovered Center card is taken without a look. */
  predicate CenterProbed(target: Card, u: set<(int, int)>)
    reads target
  {
    !(target.nothingAbove && target.stackType == Center) ==> Cell(target) !in u
  }

  /** Each of `moves` aims at one of the first `i` targets; each of those was looked at, and
      `moves` aims at it exactly when it takes a Center move in `pm`. */
  ghost predicate CentersUpTo(targets: seq<Card>, i: int, moves: seq<Move>, pm: map<(int, int), seq<Move>>, u: set<(int, int)>)
    reads set t | t in targets
  {
    (forall m | m in moves :: exists j | 0 <= j < i && j < |targets| :: m.targetCard == targets[j]) &&
    forall j | 0 <= j < i && j < |targets| ::
      CenterProbed(targets[j], u) && (Aims(moves, targets[j]) <==> CenterAccepts(targets[j], pm))
  }

  /** The entry of an identity already visited is the same in any cache grown from this one. */
  lemma MovesKept(u0: set<(int, int)>, pm0: map<(int, int), seq<Move>>, u1: set<(int, int)>, pm1: map<(int, int), seq<Move>>, c: Card)
    requires Grown(u0, pm0, u1, pm1) && Cell(c) !in u0
    ensures CardMoves(pm1, c) == CardMoves(pm0, c)
  {
  }

  /** What the targets looked at took stays so while the search grows. */
  lemma CentersKept(targets: seq<Card>, i: int, moves: seq<Move>, u0: set<(int, int)>, pm0: map<(int, int), seq<Move>>,
                    u1: set<(int, int)>, pm1: map<(int, int), seq<Move>>)
    requires Grown(u0, pm0, u1, pm1) && CentersUpTo(targets, i, moves, pm0, u0)
    ensures CentersUpTo(targets, i, moves, pm1, u1)
  {
    forall j | 0 <= j < i && j < |targets|
      ensures CenterProbed(targets[j], u1) && (Aims(moves, targets[j]) <==> CenterAccepts(targets[j], pm1))
    {
      if !(targets[j].nothingAbove && targets[j].stackType == Center) {
        MovesKept(u0, pm0, u1, pm1, targets[j]);
      }
    }
  }

  /** Keeping the move onto `targets[i]` exactly when that target takes it decides one target
      more. */
  lemma CentersStep(targets: seq<Card>, i: int, moves: seq<Move>, move: Move?, pm: map<(int, int), seq<Move>>, u: set<(int, int)>)
    requires 0 <= i < |targets| && CentersUpTo(targets, i, moves, pm, u) && CenterProbed(targets[i], u)
    requires move != null ==> move.targetCard == targets[i]
    requires move != null <==> CenterAccepts(targets[i], pm)
    ensures CentersUpTo(targets, i + 1, if move != null then moves + [move] else moves, pm, u)
  {
    var next := if move != null then moves + [move] else moves;
    forall j | 0 <= j < i + 1
      ensures CenterProbed(targets[j], u) && (Aims(next, targets[j]) <==> CenterAccepts(targets[j], pm))
    {
      if move != null {
        AimsGrows(moves, move);
        if Aims(next, targets[j]) && !Aims(moves, targets[j]) {
          var m :| m in next && m.targetCard == targets[j];
          assert m == move;
        }
      }
    }
    forall m | m in next ensures exists j | 0 <= j < i + 1 && j < |targets| :: m.targetCard == targets[j] {
      if m in moves {
        var k :| 0 <= k < i && k < |targets| && m.targetCard == targets[k];
      } else {
        assert m.targetCard == targets[i];
      }
    }
  }

  /** Once every target was looked at, each one is decided. */
  lemma CentersAll(targets: seq<Card>, moves: seq<Move>, pm: map<(int, int), seq<Move>>, u: set<(int, int)>)
    requires CentersUpTo(targets, |targets|, moves, pm, u)
    ensures forall t | t in targets :: CenterProbed(t, u) && (Aims(moves, t) <==> CenterAccepts(t, pm))
  {
    forall t | t in targets ensures CenterProbed(t, u) && (Aims(moves, t) <==> CenterAccepts(t, pm)) {
      var j :| 0 <= j < |targets| && targets[j] == t;
    }
  }

  /** Some of `moves` goes to the pile `p`. */
  predicate Reaches(moves: seq<Move>, p: PileId)
    reads set m | m in moves
  {
    exists m :: m in moves && m.newStack == Str(p)
  }

  /** A card's Win moves in front of its other moves aim at none of its center targets. */
  lemma AimsJoin(card: Card, front: seq<Move>, center: seq<Move>)
    requires forall m | m in front :: m.card == card && m.moveType == ToWin && WellTargeted(m)
    ensures forall t: Card | CenterAimed(card, t) :: Aims(front + center, t) <==> Aims(center, t)
  {
    AimsAfter(front, center);
    forall t: Card | CenterAimed(card, t) && Aims(front + center, t) ensures Aims(center, t) {
      var m :| m in front + center && m.targetCard == t;
      assert m !in front;
    }
  }

  /** Moves to a foundation in front of other moves go to none of the Center piles. */
  lemma ReachesJoin(front: seq<Move>, center: seq<Move>, st: Stack)
    requires st.Str? && KindOf(st.pile) != Center && forall m | m in front :: m.newStack == st
    ensures forall p | KindOf(p) == Center :: Reaches(front + center, p) <==> Reaches(center, p)
  {
    forall p | KindOf(p) == Center ensures Reaches(front + center, p) <==> Reaches(center, p) {
      if Reaches(center, p) {
        var m :| m in center && m.newStack == Str(p);
        assert m in front + center;
      }
      if Reaches(front + center, p) {
        var m :| m in front + center && m.newStack == Str(p);
        assert m !in front;
      }
    }
  }

  class Turn {
    const board: Board
    const cards: seq<Card>
    var criticalCards: seq<Card>
    /** The moves found for each identity, keyed by its cell (the source keys them by
        `getId(true)`, which names the same identity). */
    var possibleMoves: map<(int, int), seq<Move>>
    /** `visited[suit index][rank value - 1]`. */
    const visited: array2<bool>
    var moveChains: seq<seq<Move>>
    /** The cards whose moves depend on the card under examination. */
    var cardstoCheck: seq<Card>
    /** Set once by the constructor; no operation of a turn changes them. */
    const boardIsWinnable: bool
    const boardIsWon: bool
    const turnNumber: int

    /** The visited table has a cell per identity, the board lists each pile once and `cards`
        are its cards; the cache holds moves only for visited identities, each move of the card
        its key names and aimed as its type says; the cards under examination are expanded and
        still without an entry; and each entry keeps what the search promises (`Offered`). */
    ghost predicate Valid()
      reads this`possibleMoves, this`cardstoCheck, visited, board`piles, (set c | c in cards)
    {
      Cached() && Complete(board.piles) && IsPileOrder(board.order) &&
      cards == Flatten(board.piles, board.order) && ChecksPending() && CacheKept()
    }

    /** The visited table has a cell per identity and the cache is well formed. */
    ghost predicate Cached()
      reads this`possibleMoves, visited
    {
      visited.Length0 == 4 && visited.Length1 == 13 && CacheValid()
    }

    ghost predicate CacheValid()
      reads this`possibleMoves, visited
      requires visited.Length0 == 4 && visited.Length1 == 13
    {
      (forall k | k in possibleMoves :: k !in Unvisited()) && CacheAimed()
    }

    /** Each cached move is of the card its key names and aimed as its type says. */
    ghost predicate CacheAimed()
      reads this`possibleMoves
    {
      AimedIn(possibleMoves)
    }

    /** The identity of `card` is expanded and still waits for its entry. */
    ghost predicate InProgress(card: Card)
      reads this`possibleMoves, visited
      requires visited.Length0 == 4 && visited.Length1 == 13
    {
      Cell(card) !in Unvisited() && Cell(card) !in possibleMoves
    }

    ghost predicate ChecksPending()
      reads this`cardstoCheck, this`possibleMoves, visited
      requires visited.Length0 == 4 && visited.Length1 == 13
    {
      forall i | 0 <= i < |cardstoCheck| :: InProgress(cardstoCheck[i])
    }

    /** With one card per identity, the entry of each card keeps what the search promises. */
    ghost predicate CacheKept()
      reads this`possibleMoves, board`piles, (set c | c in cards)
      requires Complete(board.piles)
    {
      KeptAll(possibleMoves)
    }

    /** With one card per identity, the entry of each card in the cache `pm` keeps what the
        search promises. */
    ghost predicate KeptAll(pm: map<(int, int), seq<Move>>)
      reads board`piles, (set c | c in cards)
      requires Complete(board.piles)
    {
      UniqueIds(cards) ==> forall c {:trigger KeptIn(c, pm)} | c in cards :: KeptIn(c, pm)
    }

    /** The entry of `card` in the cache `pm`, if it is one of the turn's cards and has one,
        keeps the promises. */
    ghost predicate KeptIn(card: Card, pm: map<(int, int), seq<Move>>)
      reads board`piles, (set c | c in cards)
      requires Complete(board.piles)
    {
      card in cards && Cell(card) in pm ==> Offered(card, pm[Cell(card)], pm)
    }

    /** The identities not yet expanded. */
    ghost function Unvisited(): set<(int, int)>
      reads visited
      requires visited.Length0 == 4 && visited.Length1 == 13
    {
      set i, j | 0 <= i < 4 && 0 <= j < 13 && !visited[i, j] :: (i, j)
    }

    /** What every step of the search keeps: identities only become visited, cache entries are
        written once and only for identities that were unvisited. */
    twostate predicate Grows()
      reads this`possibleMoves, visited
      requires visited.Length0 == 4 && visited.Length1 == 13
    {
      Grown(old(Unvisited()), old(possibleMoves), Unvisited(), possibleMoves)
    }

    /** The identities of the face-down Center cards: expanding one caches nothing. */
    ghost function Sunk(): set<(int, int)>
      reads (set c | c in cards)
    {
      set c | c in cards && c.stackType == Center && c.facedown :: Cell(c)
    }

    /** Every identity a step expanded and finished has its entry, or is face down. */
    twostate predicate Settles()
      reads this`possibleMoves, visited, (set c | c in cards)
      requires visited.Length0 == 4 && visited.Length1 == 13
    {
      Settled(old(Unvisited()), Unvisited(), possibleMoves, Sunk())
    }

    /** The search is at rest: no card is under examination, and every expanded identity has
        its entry or is face down on a Center pile. */
    ghost predicate Quiet()
      reads this`cardstoCheck, this`possibleMoves, visited, (set c | c in cards)
      requires visited.Length0 == 4 && visited.Length1 == 13
    {
      cardstoCheck == [] && Settled(Cells, Unvisited(), possibleMoves, Sunk())
    }

    /** `new Turn(board, turnNumber)`: `cards` is every pile's cards in property order, nothing
        is visited, cached or under examination. */
    constructor (board: Board, turnNumber: int)
      requires Complete(board.piles) && IsPileOrder(board.order)
      ensures this.board == board && this.turnNumber == turnNumber && cards == board.AllCards()
      ensures fresh(visited) && Valid() && Quiet()
      ensures forall i, j :: 0 <= i < 4 && 0 <= j < 13 ==> !visited[i, j]
      ensures criticalCards == [] && possibleMoves == map[] && moveChains == [] && cardstoCheck == []
      ensures !boardIsWinnable && !boardIsWon
    {
      this.board := board;
      this.turnNumber := turnNumber;
      boardIsWinnable := false;
      boardIsWon := false;
      cards := board.AllCards();
      criticalCards := [];
      possibleMoves := map[];
      moveChains := [];
      cardstoCheck := [];
      visited := new bool[4, 13]((i, j) => false);
      new;
      forall k | k in Cells ensures k in Unvisited() {
        var (i, j) := k;
        assert !visited[i, j];
      }
    }

    /** `hasCardBeenVisited`. */
    predicate HasCardBeenVisited(card: Card)
      reads visited
      requires visited.Length0 == 4 && visited.Length1 == 13
    {
      visited[card.suit.index, card.rank.value - 1]
    }

    /** The first test of `getMovesForCard`: a card under examination has the same identity. */
    function IsBeingChecked(card: Card): (r: bool)
      reads this`cardstoCheck
      ensures r <==> exists i :: 0 <= i < |cardstoCheck| && Cell(cardstoCheck[i]) == Cell(card)
    {
      exists i :: 0 <= i < |cardstoCheck| && card.Matches(cardstoCheck[i])
    }

    /** `getPossibleMoves`: the cached moves of the card's identity that the request admits;
        nothing for an identity without an entry. */
    function GetPossibleMoves(card: Card, t: TargetType): (r: seq<Move>)
      reads this`possibleMoves
      ensures Cell(card) !in possibleMoves ==> r == []
      ensures Cell(card) in possibleMoves ==> r == OfType(possibleMoves[Cell(card)], t)
    {
      var key := Cell(card);
      if key in possibleMoves then OfType(possibleMoves[key], t) else []
    }

    /** The card lying directly on `card` in the pile it records (`cardOnTop`); `indexOf` gives
        -1 for a card missing from that pile, so its bottom card is taken then. */
    function Above(card: Card): (r: Option<Card>)
      reads board`piles, card
      requires Complete(board.piles)
      ensures r.Some? ==> r.value in board.piles[PileOf(card.stack)]
    {
      var pile := board.piles[PileOf(card.stack)];
      var i := IndexOf(pile, card);
      if i + 1 < |pile| then Some(pile[i + 1]) else None
    }

    /** `getMovesForCard` reads a property of `undefined` at `c`: `c` is blocked and nothing lies
        on it in the pile it records (`cardOnTop`), or `c` is not an Ace and no card of the turn
        is its win target (`winTarget`). */
    ghost predicate ThrowsAt(c: Card)
      reads board`piles, c
      requires Complete(board.piles)
    {
      (!Unblocked(c) && Above(c).None?) || (c.rank.value > 1 && WinTargetIn(cards, c).None?)
    }

    /** Some card of the turn is one at which the search can end in an exception. */
    ghost predicate Throws()
      reads board`piles, (set c | c in cards)
      requires Complete(board.piles)
    {
      exists c | c in cards :: ThrowsAt(c)
    }

    /** Something blocks `card`, and the card lying on it has no moves in the cache `pm`. */
    ghost predicate Stuck(card: Card, pm: map<(int, int), seq<Move>>)
      reads board`piles, card
      requires Complete(board.piles)
    {
      !Unblocked(card) && Above(card).Some? && NoMovesIn(pm, Above(card).value)
    }

    /** The Win move of `getWinMove` is among `found`: an Ace goes to its foundation with no
        target, and any other card goes onto its win target when that lies on the foundation
        already. */
    ghost predicate WinOffered(card: Card, found: seq<Move>)
      reads (set t | t in cards)
    {
      if card.rank.value == 1 then exists m :: m in found && m.moveType == ToWin && m.targetCard == null
      else
        var w := WinTargetIn(cards, card);
        w.Some? && w.value.stack == card.WinStack() ==>
          exists m :: m in found && m.moveType == ToWin && m.targetCard == w.value
    }

    /** What `getMovesForCard` promises about the moves `found` for `card`, with `pm` the cache:
        every move moves `card` and is aimed as its type says; a card nothing blocks is offered
        its Win move, and a card under a card without moves is offered none; a card below a
        King is offered a move onto every uncovered Center card it may go on; a King is offered
        a move to an empty pile when another Center pile is empty. */
    ghost predicate Offered(card: Card, found: seq<Move>, pm: map<(int, int), seq<Move>>)
      reads board`piles, card, (set t | t in cards)
      requires Complete(board.piles)
    {
      (forall m | m in found :: m.card == card && WellTargeted(m)) &&
      (Unblocked(card) ==> WinOffered(card, found)) &&
      (Stuck(card, pm) ==> NoWin(found)) &&
      (card.rank.value < 13 ==>
         forall t | t in cards && CenterAimed(card, t) && t.nothingAbove && t.stackType == Center :: Aims(found, t)) &&
      (card.rank.value == 13 && EmptyElsewhere(card) ==>
         exists m :: m in found && m.targetCard == null && m.moveType == ToCenter)
    }

    /** Some Center pile other than the one `card` lies on is empty. */
    ghost predicate EmptyElsewhere(card: Card)
      reads board`piles, card
      requires Complete(board.piles)
    {
      exists p | p in board.order :: KindOf(p) == Center && p != PileOf(card.stack) && board.piles[p] == []
    }

    /** Where the moves `found` for `card` go: a Win move to the card's foundation, and for a
        King, one move to each empty Center pile other than its own. */
    ghost predicate Destinations(card: Card, found: seq<Move>)
      reads board`piles, card, (set m | m in found)
      requires Complete(board.piles)
    {
      (forall m | m in found && m.moveType == ToWin :: m.newStack == card.WinStack()) &&
      (card.rank.value == 13 ==>
         forall p | p in board.order && KindOf(p) == Center && p != PileOf(card.stack) && board.piles[p] == [] ::
           exists m :: m in found && m.targetCard == null && m.moveType == ToCenter && m.newStack == Str(p))
    }

    /** The test of `getMovesForCard` in the cache `pm`: nothing blocks `card`, or the card lying
        on it has moves. */
    ghost predicate FreeIn(card: Card, pm: map<(int, int), seq<Move>>)
      reads board`piles, card
      requires Complete(board.piles)
    {
      Unblocked(card) || (Above(card).Some? && !NoMovesIn(pm, Above(card).value))
    }

    /** The test looked up the entry of the card lying on `card`: its identity is not among the
        unvisited `u`. */
    ghost predicate FreeProbed(card: Card, u: set<(int, int)>)
      reads board`piles, card
      requires Complete(board.piles)
    {
      !Unblocked(card) && Above(card).Some? ==> Cell(Above(card).value) !in u
    }

    /** `getWinMove` finds a move in the cache `pm`: an Ace always does, and any other card does
        when its win target lies on the card's foundation or has a Win move of its own. */
    ghost predicate WinFound(card: Card, pm: map<(int, int), seq<Move>>)
      reads (set t | t in cards)
    {
      card.rank.value == 1 ||
      match WinTargetIn(cards, card)
      case None => false
      case Some(w) => w.stack == card.WinStack() || OfType(CardMoves(pm, w), Of(ToWin)) != []
    }

    /** `getWinMove` needs no search: the card is an Ace, or its win target lies on its
        foundation already. */
    ghost predicate WinAtHand(card: Card)
      reads (set t | t in cards)
    {
      card.rank.value == 1 || (WinTargetIn(cards, card).Some? && WinTargetIn(cards, card).value.stack == card.WinStack())
    }

    /** The move `getWinMove` builds for `card`: to the card's foundation, with no target for an
        Ace and onto the card's win target otherwise. */
    ghost predicate IsWinMove(card: Card, move: Move)
      reads move, (set t | t in cards)
    {
      move.card == card && move.moveType == ToWin && move.newStack == card.WinStack() &&
      if card.rank.value == 1 then move.targetCard == null
      else WinTargetIn(cards, card).Some? && move.targetCard == WinTargetIn(cards, card).value
    }

    /** `getWinMove` looked up the entry of the win target, unless it needed none. */
    ghost predicate WinProbed(card: Card, u: set<(int, int)>)
      reads (set t | t in cards)
    {
      card.rank.value > 1 ==>
        match WinTargetIn(cards, card)
        case None => true
        case Some(w) => w.stack != card.WinStack() ==> Cell(w) !in u
    }

    /** `found` holds a Win move exactly when `card` is free and `getWinMove` finds one, both
        read from the cache `pm` after the entries they look up were written (or are never to
        be: their identities are not among the unvisited `u`). */
    ghost predicate WinDecided(card: Card, found: seq<Move>, pm: map<(int, int), seq<Move>>, u: set<(int, int)>)
      reads board`piles, card, (set t | t in cards)
      requires Complete(board.piles)
    {
      FreeProbed(card, u) && (FreeIn(card, pm) ==> WinProbed(card, u)) &&
      (NoWin(found) <==> !(FreeIn(card, pm) && WinFound(card, pm)))
    }

    /** A card below a King aims `found` at exactly those of its center targets that take a
        Center move in the cache `pm`. */
    ghost predicate CenterDecided(card: Card, found: seq<Move>, pm: map<(int, int), seq<Move>>, u: set<(int, int)>)
      reads (set t | t in cards)
    {
      card.rank.value < 13 ==>
        forall t | t in cards && CenterAimed(card, t) :: CenterProbed(t, u) && (Aims(found, t) <==> CenterAccepts(t, pm))
    }

    /** The Center pile `p` takes a King in the cache `pm`: it is empty, or its bottom card has
        moves (the test of `getKingCenterMoves`). */
    ghost predicate KingAccepts(p: PileId, pm: map<(int, int), seq<Move>>)
      reads board`piles
      requires Complete(board.piles)
    {
      board.piles[p] == [] || CardMoves(pm, board.piles[p][0]) != []
    }

    /** The test of the pile `p` looked up the entry of its bottom card, if it has one. */
    ghost predicate KingProbed(p: PileId, u: set<(int, int)>)
      reads board`piles
      requires Complete(board.piles)
    {
      board.piles[p] != [] ==> Cell(board.piles[p][0]) !in u
    }

    /** Each of `moves` goes to one of the first `i` piles; each of those was looked at, and
        `moves` goes to it exactly when it takes a King in `pm`. */
    ghost predicate KingsUpTo(piles: seq<PileId>, i: int, moves: seq<Move>, pm: map<(int, int), seq<Move>>, u: set<(int, int)>)
      reads board`piles, (set m | m in moves)
      requires Complete(board.piles)
    {
      (forall m | m in moves :: exists j | 0 <= j < i && j < |piles| :: m.newStack == Str(piles[j])) &&
      forall j | 0 <= j < i && j < |piles| :: KingProbed(piles[j], u) && (Reaches(moves, piles[j]) <==> KingAccepts(piles[j], pm))
    }

    /** A King sends `found` to exactly those Center piles other than its own that take it in
        the cache `pm`. */
    ghost predicate KingDecided(card: Card, found: seq<Move>, pm: map<(int, int), seq<Move>>, u: set<(int, int)>)
      reads board`piles, card, (set m | m in found)
      requires Complete(board.piles)
    {
      card.rank.value == 13 ==>
        forall p | p in board.order && KindOf(p) == Center && p != PileOf(card.stack) ::
          KingProbed(p, u) && (Reaches(found, p) <==> KingAccepts(p, pm))
    }

    /** Which moves `getMovesForCard` finds for `card`, read from the cache `pm`: a Win move
        exactly when the card is free and `getWinMove` finds one; a Center move onto exactly
        those center targets that take one; and for a King, a move to exactly those other
        Center piles that take it. */
    ghost predicate Decided(card: Card, found: seq<Move>, pm: map<(int, int), seq<Move>>, u: set<(int, int)>)
      reads board`piles, card, (set t | t in cards), (set m | m in found)
      requires Complete(board.piles)
    {
      WinDecided(card, found, pm, u) && CenterDecided(card, found, pm, u) && KingDecided(card, found, pm, u)
    }

    /** What the first part of `getMovesForCard` found for `card` (`front`), with `free` the
        outcome of its test, `pm` the cache and `u` the unvisited identities: at most the card's
        Win move, to its foundation; a card nothing blocks is free and a card under a card
        without moves is not; a free card is offered its Win move and a card that is not free
        nothing; and whether there is one is decided by the probes (`WinDecided`). */
    ghost predicate WinFronted(card: Card, front: seq<Move>, free: bool, pm: map<(int, int), seq<Move>>, u: set<(int, int)>)
      reads board`piles, card, (set t | t in cards), (set m | m in front)
      requires Complete(board.piles)
    {
      |front| <= 1 &&
      (forall m | m in front :: m.card == card && m.moveType == ToWin && m.newStack == card.WinStack() && WellTargeted(m)) &&
      (Unblocked(card) ==> free) && (Stuck(card, pm) ==> !free) &&
      (free ==> WinOffered(card, front)) && (!free ==> front == []) &&
      WinDecided(card, front, pm, u)
    }

    /** What `getMovesForCard` found for `card` (`found`), with `free` the outcome of its test, `pm`
        the cache and `u` the unvisited identities: a card nothing blocks is free and a card
        under a card without moves is not; a free card is offered its Win move and a card that
        is not free none; the promises of `Offered` and `Destinations` hold; and every part of
        the answer is decided by the probes (`Decided`). */
    ghost predicate Collected(card: Card, found: seq<Move>, free: bool, pm: map<(int, int), seq<Move>>, u: set<(int, int)>)
      reads board`piles, card, (set t | t in cards), (set m | m in found)
      requires Complete(board.piles)
    {
      (Unblocked(card) ==> free) && (Stuck(card, pm) ==> !free) &&
      (free ==> WinOffered(card, found)) && (!free ==> NoWin(found)) &&
      Offered(card, found, pm) && Destinations(card, found) && Decided(card, found, pm, u)
    }

    /** The test of `isFree` in `getMovesForCard`, read in the cache `pm` the answer was found
        in: a card under a card with moves passes it, so it is offered its Win move. */
    lemma FreedWinOffered(card: Card, found: seq<Move>, free: bool, pm: map<(int, int), seq<Move>>, u: set<(int, int)>)
      requires Complete(board.piles) && Collected(card, found, free, pm, u)
      requires Above(card).Some? && !NoMovesIn(pm, Above(card).value)
      ensures WinOffered(card, found)
    {
    }

    /** Whether a card is free stays so while the search grows. */
    lemma FreeKept(card: Card, u0: set<(int, int)>, pm0: map<(int, int), seq<Move>>, u1: set<(int, int)>, pm1: map<(int, int), seq<Move>>)
      requires Complete(board.piles) && Grown(u0, pm0, u1, pm1) && FreeProbed(card, u0)
      ensures FreeProbed(card, u1) && (FreeIn(card, pm1) <==> FreeIn(card, pm0))
    {
      if !Unblocked(card) && Above(card).Some? {
        MovesKept(u0, pm0, u1, pm1, Above(card).value);
      }
    }

    /** Whether a card has a Win move stays so while the search grows. */
    lemma WinKept(card: Card, found: seq<Move>, u0: set<(int, int)>, pm0: map<(int, int), seq<Move>>,
                  u1: set<(int, int)>, pm1: map<(int, int), seq<Move>>)
      requires Complete(board.piles) && Grown(u0, pm0, u1, pm1) && WinDecided(card, found, pm0, u0)
      ensures WinDecided(card, found, pm1, u1)
    {
      FreeKept(card, u0, pm0, u1, pm1);
      var w := WinTargetIn(cards, card);
      if FreeIn(card, pm0) && card.rank.value > 1 && w.Some? && w.value.stack != card.WinStack() {
        MovesKept(u0, pm0, u1, pm1, w.value);
      }
    }

    /** What the piles looked at took stays so while the search grows. */
    lemma KingsKept(piles: seq<PileId>, i: int, moves: seq<Move>, u0: set<(int, int)>, pm0: map<(int, int), seq<Move>>,
                    u1: set<(int, int)>, pm1: map<(int, int), seq<Move>>)
      requires Complete(board.piles) && Grown(u0, pm0, u1, pm1) && KingsUpTo(piles, i, moves, pm0, u0)
      ensures KingsUpTo(piles, i, moves, pm1, u1)
    {
      forall j | 0 <= j < i && j < |piles|
        ensures KingProbed(piles[j], u1) && (Reaches(moves, piles[j]) <==> KingAccepts(piles[j], pm1))
      {
        if board.piles[piles[j]] != [] {
          MovesKept(u0, pm0, u1, pm1, board.piles[piles[j]][0]);
        }
      }
    }

    /** Keeping the move to `piles[i]` exactly when that pile takes it decides one pile more. */
    lemma KingsStep(piles: seq<PileId>, i: int, moves: seq<Move>, move: Move?, pm: map<(int, int), seq<Move>>, u: set<(int, int)>)
      requires Complete(board.piles) && 0 <= i < |piles| && KingsUpTo(piles, i, moves, pm, u) && KingProbed(piles[i], u)
      requires move != null ==> move.newStack == Str(piles[i])
      requires move != null <==> KingAccepts(piles[i], pm)
      ensures KingsUpTo(piles, i + 1, if move != null then moves + [move] else moves, pm, u)
    {
      var next := if move != null then moves + [move] else moves;
      forall j | 0 <= j < i + 1
        ensures KingProbed(piles[j], u) && (Reaches(next, piles[j]) <==> KingAccepts(piles[j], pm))
      {
        if move != null {
          assert move in next;
          if Reaches(moves, piles[j]) {
            var m :| m in moves && m.newStack == Str(piles[j]);
            assert m in next;
          }
          if Reaches(next, piles[j]) && !Reaches(moves, piles[j]) {
            var m :| m in next && m.newStack == Str(piles[j]);
            assert m == move;
          }
        }
      }
      forall m | m in next ensures exists j | 0 <= j < i + 1 && j < |piles| :: m.newStack == Str(piles[j]) {
        if m in moves {
          var k :| 0 <= k < i && k < |piles| && m.newStack == Str(piles[k]);
        } else {
          assert m.newStack == Str(piles[i]);
        }
      }
    }

    /** Once every Center pile other than the King's own was looked at, the King's moves are
        decided. */
    lemma KingsAll(card: Card, piles: seq<PileId>, moves: seq<Move>, pm: map<(int, int), seq<Move>>, u: set<(int, int)>)
      requires Complete(board.piles) && KingsUpTo(piles, |piles|, moves, pm, u)
      requires forall p :: p in piles <==> p in board.order && KindOf(p) == Center && p != PileOf(card.stack)
      ensures KingDecided(card, moves, pm, u)
    {
      forall p | p in board.order && KindOf(p) == Center && p != PileOf(card.stack)
        ensures KingProbed(p, u) && (Reaches(moves, p) <==> KingAccepts(p, pm))
      {
        var j :| 0 <= j < |piles| && piles[j] == p;
      }
    }

    /** A free card's Win move put in front of its Center moves keeps what each part decided. */
    lemma DecidedJoin(card: Card, front: seq<Move>, center: seq<Move>, pm: map<(int, int), seq<Move>>, u: set<(int, int)>)
      requires Complete(board.piles) && WinDecided(card, front, pm, u)
      requires forall m | m in front :: m.card == card && m.moveType == ToWin && m.newStack == card.WinStack() && WellTargeted(m)
      requires forall m | m in center :: m.moveType == ToCenter
      requires CenterDecided(card, center, pm, u) && KingDecided(card, center, pm, u)
      ensures Decided(card, front + center, pm, u)
    {
      assert NoWin(front + center) <==> NoWin(front);
      AimsJoin(card, front, center);
      ReachesJoin(front, center, card.WinStack());
    }

    /** A promise kept in one cache is kept in any cache that grew from it. */
    lemma OfferedGrows(card: Card, found: seq<Move>, pm0: map<(int, int), seq<Move>>, pm1: map<(int, int), seq<Move>>)
      requires Complete(board.piles) && Offered(card, found, pm0)
      requires forall k | k in pm0 :: k in pm1 && pm1[k] == pm0[k]
      ensures Offered(card, found, pm1)
    {
    }

    /** Writing the entry of `card` keeps every entry's promise. */
    lemma CacheStillKept(card: Card, found: seq<Move>, pm0: map<(int, int), seq<Move>>)
      requires Complete(board.piles) && card in cards && Cell(card) !in pm0
      requires Offered(card, found, pm0) && KeptAll(pm0)
      ensures KeptAll(pm0[Cell(card) := found]) && Offered(card, found, pm0[Cell(card) := found])
    {
      var pm1 := pm0[Cell(card) := found];
      OfferedGrows(card, found, pm0, pm1);
      if UniqueIds(cards) {
        forall c | c in cards ensures KeptIn(c, pm1) {
          if Cell(c) in pm1 {
            if Cell(c) == Cell(card) {
              SameId(cards, c, card);
            } else {
              assert KeptIn(c, pm0);
            }
            OfferedGrows(c, pm1[Cell(c)], pm0, pm1);
          }
        }
      }
    }

    /** A card of a pile is one of the turn's cards. */
    lemma OnBoard(p: PileId, c: Card)
      requires Valid() && c in board.piles[p]
      ensures c in cards
    {
      InFlatten(board.piles, board.order, p, c);
    }

    /** A card is visited exactly when its cell is not among the unvisited ones. */
    lemma VisitedCell(card: Card)
      requires visited.Length0 == 4 && visited.Length1 == 13
      ensures HasCardBeenVisited(card) <==> Cell(card) !in Unvisited()
    {
      var (i, j) := Cell(card);
      if !HasCardBeenVisited(card) {
        assert !visited[i, j];
      }
    }

    /** Marks the card's identity visited (the assignment at the head of `getMovesForCard`). */
    method Visit(card: Card)
      requires Valid()
      modifies visited
      ensures Valid() && HasCardBeenVisited(card)
      ensures Unvisited() == old(Unvisited()) - {Cell(card)}
    {
      visited[card.suit.index, card.rank.value - 1] := true;
      forall x ensures x in Unvisited() <==> x in old(Unvisited()) - {Cell(card)} {
        if x in Unvisited() {
          var i, j :| 0 <= i < 4 && 0 <= j < 13 && !visited[i, j] && x == (i, j);
          assert !old(visited[i, j]);
        }
        if x in old(Unvisited()) - {Cell(card)} {
          var i, j :| 0 <= i < 4 && 0 <= j < 13 && !old(visited[i, j]) && x == (i, j);
          assert !visited[i, j];
        }
      }
    }

    /** Every move the search returns for a request moves a card of that identity, is aimed as
        its type says and has the requested type. */
    ghost predicate Produced(moves: seq<Move>, card: Card, t: TargetType)
    {
      forall m | m in moves :: m.card.Matches(card) && WellTargeted(m) && (t.Of? ==> m.moveType == t.moveType)
    }

    /** What the cache returns for a card moves that card's identity, aimed as its type says. */
    lemma CachedMoves(card: Card, t: TargetType)
      requires CacheAimed()
      ensures Produced(GetPossibleMoves(card, t), card, t)
    {
      var key := Cell(card);
      if key in possibleMoves {
        assert forall m | m in possibleMoves[key] :: m.card.Matches(card);
      }
    }

    /** `getMovesForCard`: whatever the path, the moves returned are the cached moves of the
        card's identity that the request admits. A card under examination and a card already
        visited change nothing; otherwise the identity is marked visited before any recursion,
        a face-down Center card gets no entry, and any other card gets an entry that keeps the
        search's promises. `threw` is an exception from reading a property of `undefined`,
        which ends the search. */
    method GetMovesForCard(card: Card, t: TargetType := Both) returns (moves: seq<Move>, threw: bool)
      requires Valid() && card in cards
      modifies this`possibleMoves, this`cardstoCheck, visited
      decreases Unvisited(), 1
      ensures Valid() && Grows() && (!threw ==> cardstoCheck == old(cardstoCheck) && Settles())
      ensures threw ==> Throws()
      ensures !threw ==> moves == GetPossibleMoves(card, t)
      ensures Cell(card) !in Unvisited()
      ensures old(IsBeingChecked(card)) || old(HasCardBeenVisited(card)) ==>
                !threw && possibleMoves == old(possibleMoves) && Unvisited() == old(Unvisited())
      ensures !old(IsBeingChecked(card)) ==> HasCardBeenVisited(card)
      ensures !old(IsBeingChecked(card)) && !old(HasCardBeenVisited(card)) ==> Cell(card) !in old(possibleMoves)
      ensures !old(IsBeingChecked(card)) && !old(HasCardBeenVisited(card)) && card.stackType == Center && card.facedown ==>
                !threw && possibleMoves == old(possibleMoves)
      ensures !old(IsBeingChecked(card)) && !old(HasCardBeenVisited(card)) && !(card.stackType == Center && card.facedown) && !threw ==>
                Cell(card) in possibleMoves && Offered(card, possibleMoves[Cell(card)], possibleMoves) &&
                Destinations(card, possibleMoves[Cell(card)]) &&
                Decided(card, possibleMoves[Cell(card)], possibleMoves - {Cell(card)}, Unvisited())
    {
      if IsBeingChecked(card) {
        return [], false;
      }
      VisitedCell(card);
      if HasCardBeenVisited(card) {
        return GetPossibleMoves(card, t), false;
      }
      threw := Expand(card);
      moves := if threw then [] else GetPossibleMoves(card, t);
      VisitedCell(card);
    }

    /** The rest of `getMovesForCard` for an identity not yet visited: mark it visited; a
        face-down Center card has no moves; otherwise the moves found are cached under the
        identity's key. */
    method Expand(card: Card) returns (threw: bool)
      requires Valid() && card in cards && Cell(card) in Unvisited()
      modifies this`possibleMoves, this`cardstoCheck, visited
      decreases Unvisited(), 0
      ensures Valid() && Grows() && Cell(card) !in Unvisited() && (!threw ==> cardstoCheck == old(cardstoCheck) && Settles())
      ensures threw ==> Throws()
      ensures card.stackType == Center && card.facedown ==> !threw && possibleMoves == old(possibleMoves)
      ensures !(card.stackType == Center && card.facedown) && !threw ==>
                Cell(card) in possibleMoves && Offered(card, possibleMoves[Cell(card)], possibleMoves) &&
                Destinations(card, possibleMoves[Cell(card)]) &&
                Decided(card, possibleMoves[Cell(card)], possibleMoves - {Cell(card)}, Unvisited())
    {
      ghost var u0, checks := Unvisited(), cardstoCheck;
      assert forall i | 0 <= i < |checks| :: Cell(checks[i]) != Cell(card);
      Visit(card);
      if card.stackType == Center && card.facedown {
        assert Cell(card) in Sunk();
        return false;
      }
      threw := ExpandFaceUp(card, u0);
    }

    /** The moves of a face-up card whose identity was just marked visited (`u0` is what was
        unvisited before), found and written under the identity's key. */
    method ExpandFaceUp(card: Card, ghost u0: set<(int, int)>) returns (threw: bool)
      requires Valid() && card in cards && InProgress(card)
      requires Cell(card) in u0 && Unvisited() == u0 - {Cell(card)}
      requires forall i | 0 <= i < |cardstoCheck| :: Cell(cardstoCheck[i]) != Cell(card)
      modifies this`possibleMoves, this`cardstoCheck, visited
      decreases Unvisited(), 10
      ensures Valid() && Grown(u0, old(possibleMoves), Unvisited(), possibleMoves) && Cell(card) !in Unvisited()
      ensures threw ==> Throws()
      ensures !threw ==> cardstoCheck == old(cardstoCheck) && Settled(u0, Unvisited(), possibleMoves, Sunk())
      ensures !threw ==> Cell(card) in possibleMoves && Offered(card, possibleMoves[Cell(card)], possibleMoves) &&
                         Destinations(card, possibleMoves[Cell(card)])
      ensures !threw ==> Decided(card, possibleMoves[Cell(card)], possibleMoves - {Cell(card)}, Unvisited())
    {
      ghost var u1, pm0 := Unvisited(), possibleMoves;
      var found;
      ghost var free;
      found, threw, free := CollectMoves(card);
      GrownTrans(u0, pm0, u1, pm0, Unvisited(), possibleMoves);
      if threw {
        return;
      }
      ghost var u2, pm2 := Unvisited(), possibleMoves;
      label found:
      Record(card, found);
      DecidedStays@found(Answer(card, found, free));
      GrownByEntry(u0, pm0, u2, pm2, Cell(card), found);
      SettledByEntry(u0, u2, pm2, Sunk(), Cell(card), found);
      EntryRemoved(pm2, Cell(card), found);
    }

    /** `possibleMoves[card.getId(true)] = moves`: the entry written keeps the search's promises,
        and so does every other. */
    method Record(card: Card, found: seq<Move>)
      requires Valid() && card in cards && Cell(card) !in Unvisited() && Cell(card) !in possibleMoves
      requires forall i | 0 <= i < |cardstoCheck| :: Cell(cardstoCheck[i]) != Cell(card)
      requires Offered(card, found, possibleMoves) && Destinations(card, found)
      modifies this`possibleMoves
      ensures Valid() && possibleMoves == old(possibleMoves)[Cell(card) := found]
      ensures Offered(card, found, possibleMoves) && Destinations(card, found)
    {
      AimedByEntry(possibleMoves, Cell(card), found);
      CacheStillKept(card, found, possibleMoves);
      possibleMoves := possibleMoves[Cell(card) := found];
      assert ChecksPending();
    }

    /** The body of `getMovesForCard` once the card is marked: the card is free when nothing
        blocks it or the card on top has moves; a free card is offered its Win move, if any;
        then come the Center moves. */
    method CollectMoves(card: Card) returns (found: seq<Move>, threw: bool, ghost free: bool)
      requires Valid() && card in cards && InProgress(card)
      modifies this`possibleMoves, this`cardstoCheck, visited
      decreases Unvisited(), 9
      ensures Valid() && Grows() && (!threw ==> cardstoCheck == old(cardstoCheck) && Settles())
      ensures threw ==> Throws()
      ensures !threw ==> Collected(card, found, free, possibleMoves, Unvisited())
      ensures !Unblocked(card) && Above(card).None? ==> threw
    {
      ghost var u0, pm0 := Unvisited(), possibleMoves;
      var cardIsFree;
      cardIsFree, threw := IsFree(card);
      free := cardIsFree;
      if threw {
        return [], true, free;
      }
      ghost var u1, pm1 := Unvisited(), possibleMoves;
      label searched:
      found, threw := WinAndCenterMoves(card, cardIsFree);
      if threw {
        return [], true, free;
      }
      PlaceKept@searched(card);
      CardsKept@searched();
      GrownTrans(u0, pm0, u1, pm1, Unvisited(), possibleMoves);
      SettledTrans(u0, u1, pm1, Unvisited(), possibleMoves, Sunk());
    }

    /** The body of `getMovesForCard` once the card is known to be free or not: a free card is
        offered its Win move, if any, and then come the Center moves. */
    method WinAndCenterMoves(card: Card, cardIsFree: bool) returns (found: seq<Move>, threw: bool)
      requires Valid() && card in cards && InProgress(card)
      requires cardIsFree == FreeIn(card, possibleMoves) && FreeProbed(card, Unvisited())
      modifies this`possibleMoves, this`cardstoCheck, visited
      decreases Unvisited(), 8
      ensures Valid() && Grows() && (!threw ==> cardstoCheck == old(cardstoCheck) && Settles())
      ensures threw ==> Throws()
      ensures !threw ==> Collected(card, found, cardIsFree, possibleMoves, Unvisited())
    {
      ghost var u0, pm0 := Unvisited(), possibleMoves;
      var front;
      front, threw := WinFront(card, cardIsFree);
      found := [];
      if !threw {
        ghost var u1, pm1 := Unvisited(), possibleMoves;
        label searched:
        found, threw := AddCenterMoves(card, front, cardIsFree);
        CardsKept@searched();
        GrownTrans(u0, pm0, u1, pm1, Unvisited(), possibleMoves);
        if !threw {
          SettledTrans(u0, u1, pm1, Unvisited(), possibleMoves, Sunk());
        }
      }
    }

    /** The Win move a free card is offered, if it has one: none for a card that is not free. */
    method WinFront(card: Card, cardIsFree: bool) returns (front: seq<Move>, threw: bool)
      requires Valid() && card in cards && InProgress(card)
      requires cardIsFree == FreeIn(card, possibleMoves) && FreeProbed(card, Unvisited())
      modifies this`possibleMoves, this`cardstoCheck, visited
      decreases Unvisited(), 6
      ensures Valid() && Grows() && (!threw ==> cardstoCheck == old(cardstoCheck) && Settles())
      ensures threw ==> Throws()
      ensures !threw ==> InProgress(card) && cardIsFree == FreeIn(card, possibleMoves)
      ensures !threw ==> WinFronted(card, front, cardIsFree, possibleMoves, Unvisited())
    {
      if !cardIsFree {
        return [], false;
      }
      ghost var u0, pm0 := Unvisited(), possibleMoves;
      label probing:
      var win;
      win, threw := GetWinMove(card);
      if threw {
        return [], true;
      }
      PlaceKept@probing(card);
      FreeKept(card, u0, pm0, Unvisited(), possibleMoves);
      front := if win != null then [win] else [];
    }

    /** The end of the body of `getMovesForCard`: the Center moves follow the Win move of a free
        card (`front`), and together they keep the search's promises. */
    method AddCenterMoves(card: Card, front: seq<Move>, ghost free: bool) returns (found: seq<Move>, threw: bool)
      requires Valid() && InProgress(card)
      requires WinFronted(card, front, free, possibleMoves, Unvisited())
      modifies this`possibleMoves, this`cardstoCheck, visited
      decreases Unvisited(), 7
      ensures Valid() && Grows() && (!threw ==> cardstoCheck == old(cardstoCheck) && Settles())
      ensures threw ==> Throws()
      ensures !threw ==> Collected(card, found, free, possibleMoves, Unvisited())
    {
      var center;
      center, threw := GetCenterMoves(card);
      if threw {
        return [], true;
      }
      FrontKept(Answer(card, front, free));
      found := front + center;
      CenterJoined(card, front, center, free);
    }

    /** What the Win move of a card promised (`w`, with `w.moves` the Win move) stays so while the search grows. */
    twostate lemma FrontKept(w: Answer)
      requires old(Valid()) && Valid() && Grown(old(Unvisited()), old(possibleMoves), Unvisited(), possibleMoves)
      requires unchanged(board, w.card) && unchanged(set c | c in cards) && unchanged(set m | m in w.moves)
      requires old(WinFronted(w.card, w.moves, w.free, possibleMoves, Unvisited()))
      ensures WinFronted(w.card, w.moves, w.free, possibleMoves, Unvisited())
    {
      WinKept(w.card, w.moves, old(Unvisited()), old(possibleMoves), Unvisited(), possibleMoves);
    }

    /** What was decided about the moves of a card stays so while only the cache changes. */
    twostate lemma DecidedStays(a: Answer)
      requires old(Valid()) && Valid() && unchanged(board, a.card, visited) && unchanged(set c | c in cards)
      requires unchanged(set m | m in a.moves)
      requires old(Decided(a.card, a.moves, possibleMoves, Unvisited()))
      ensures Decided(a.card, a.moves, old(possibleMoves), Unvisited())
    {
    }

    /** The Win move of a free card (`front`) put in front of its Center moves (`center`) keeps
        the promises of both. */
    lemma CenterJoined(card: Card, front: seq<Move>, center: seq<Move>, free: bool)
      requires Valid()
      requires WinFronted(card, front, free, possibleMoves, Unvisited())
      requires CenterFound(card, center, possibleMoves, Unvisited())
      ensures Collected(card, front + center, free, possibleMoves, Unvisited())
    {
      AimsAfter(front, center);
      DecidedJoin(card, front, center, possibleMoves, Unvisited());
    }

    /** The test that opens the body of `getMovesForCard`: a card nothing blocks is free;
        otherwise the card lying on it is searched, and the card is free when that one has
        moves. */
    method IsFree(card: Card) returns (free: bool, threw: bool)
      requires Valid() && card in cards && InProgress(card)
      modifies this`possibleMoves, this`cardstoCheck, visited
      decreases Unvisited(), 2
      ensures Valid() && Grows() && (!threw ==> cardstoCheck == old(cardstoCheck) && Settles())
      ensures threw ==> Throws()
      ensures FreeProbed(card, Unvisited()) && (!threw ==> (free <==> FreeIn(card, possibleMoves)))
      ensures !Unblocked(card) && Above(card).None? ==> threw
    {
      if Unblocked(card) {
        return true, false;
      }
      var onTop := Above(card);
      if onTop.None? {
        // `cardOnTop` is undefined, and `getMovesForCard` reads its properties
        assert ThrowsAt(card);
        return false, true;
      }
      OnBoard(PileOf(card.stack), onTop.value);
      var result;
      result, threw := GetMovesForCard(onTop.value);
      free := |result| > 0;
    }

    /** The probe of `getWinMove`, `getCenterMoves` and `getKingCenterMoves`: with `card` pushed
        onto the cards under examination, does `target` have moves of type `t`? The card is
        popped again afterwards, and a target matching it has none. */
    method Probe(card: Card, target: Card, t: TargetType) returns (movable: bool, threw: bool)
      requires Valid() && InProgress(card) && target in cards
      modifies this`possibleMoves, this`cardstoCheck, visited
      decreases Unvisited(), 2
      ensures Valid() && Grows() && (!threw ==> cardstoCheck == old(cardstoCheck) && Settles())
      ensures threw ==> Throws()
      ensures target.Matches(card) ==> !threw && !movable
      ensures Cell(target) !in Unvisited()
      ensures !threw ==> (movable <==> GetPossibleMoves(target, t) != [])
    {
      Push(card);
      assert target.Matches(card) ==> Cell(cardstoCheck[|cardstoCheck| - 1]) == Cell(target);
      var result;
      result, threw := GetMovesForCard(target, t);
      if threw {
        return false, true;
      }
      Pop();
      movable := |result| > 0;
    }

    /** `cardstoCheck.push(card)`. */
    method Push(card: Card)
      requires Valid() && InProgress(card)
      modifies this`cardstoCheck
      ensures Valid() && cardstoCheck == old(cardstoCheck) + [card]
      ensures Unvisited() == old(Unvisited()) && Sunk() == old(Sunk())
    {
      cardstoCheck := cardstoCheck + [card];
    }

    /** `cardstoCheck.pop()`. */
    method Pop()
      requires Valid() && cardstoCheck != []
      modifies this`cardstoCheck
      ensures Valid() && cardstoCheck == old(cardstoCheck[..|cardstoCheck| - 1])
      ensures Unvisited() == old(Unvisited()) && Sunk() == old(Sunk())
    {
      cardstoCheck := cardstoCheck[..|cardstoCheck| - 1];
    }

    /** `getWinMove`: an Ace always moves to its foundation; any other card moves onto its win
        target if that lies on the foundation already or can itself be moved to it, and a card
        without a win target ends the search. */
    method GetWinMove(card: Card) returns (move: Move?, threw: bool)
      requires Valid() && card in cards && InProgress(card)
      modifies this`possibleMoves, this`cardstoCheck, visited
      decreases Unvisited(), 5
      ensures Valid() && Grows() && (!threw ==> cardstoCheck == old(cardstoCheck) && Settles())
      ensures threw ==> Throws()
      ensures card.rank.value > 1 && WinTargetIn(cards, card).None? ==> threw
      ensures WinAtHand(card) ==> !threw
      ensures WinProbed(card, Unvisited()) && (!threw ==> (move != null <==> WinFound(card, possibleMoves)))
      ensures !threw && move != null ==> IsWinMove(card, move)
    {
      if card.rank.value == 1 {
        move := new Move(card, null, card.WinStack(), ToWin);
        return move, false;
      }
      move, threw := TargetWinMove(card);
    }

    /** `getWinMove` for a card other than an Ace: the move onto its win target, kept when the
        target lies on the foundation already or has a Win move of its own; a card without a
        win target ends the search. */
    method TargetWinMove(card: Card) returns (move: Move?, threw: bool)
      requires Valid() && card in cards && InProgress(card) && card.rank.value > 1
      modifies this`possibleMoves, this`cardstoCheck, visited
      decreases Unvisited(), 4
      ensures Valid() && Grows() && (!threw ==> cardstoCheck == old(cardstoCheck) && Settles())
      ensures threw ==> Throws()
      ensures WinTargetIn(cards, card).None? ==> threw
      ensures WinAtHand(card) ==> !threw
      ensures WinProbed(card, Unvisited()) && (!threw ==> (move != null <==> WinFound(card, possibleMoves)))
      ensures !threw && move != null ==> IsWinMove(card, move)
    {
      var target := WinTargetIn(cards, card);
      var winMove := new Move(card, if target.Some? then target.value else null, card.WinStack(), ToWin);
      HeapKept();
      if target.None? {
        assert ThrowsAt(card);
        return null, true;
      }
      if target.value.stack == card.WinStack() {
        return winMove, false;
      }
      move, threw := WinMoveOnto(card, target.value, winMove);
    }

    /** The last case of `getWinMove`: the move of `card` onto its win target, kept when the
        target has a Win move of its own. */
    method WinMoveOnto(card: Card, target: Card, winMove: Move) returns (move: Move?, threw: bool)
      requires Valid() && InProgress(card) && target in cards && WinAimed(card, target)
      requires winMove.card == card && winMove.targetCard == target && winMove.moveType == ToWin && winMove.newStack == card.WinStack()
      modifies this`possibleMoves, this`cardstoCheck, visited
      decreases Unvisited(), 3
      ensures Valid() && Grows() && (!threw ==> cardstoCheck == old(cardstoCheck) && Settles())
      ensures threw ==> Throws()
      ensures !threw && move != null ==>
                move.card == card && move.targetCard == target && move.moveType == ToWin && move.newStack == card.WinStack()
      ensures Cell(target) !in Unvisited() && (!threw ==> (move != null <==> OfType(CardMoves(possibleMoves, target), Of(ToWin)) != []))
    {
      var movable;
      movable, threw := Probe(card, target, Of(ToWin));
      move := if movable && !threw then winMove else null;
    }

    /** `getCenterMoves`: a King goes to Center piles; any other card moves onto each of its
        center targets, in the order of `cards`, that will accept it. */
    method GetCenterMoves(card: Card) returns (moves: seq<Move>, threw: bool)
      requires Valid() && InProgress(card)
      modifies this`possibleMoves, this`cardstoCheck, visited
      decreases Unvisited(), 6
      ensures Valid() && Grows() && (!threw ==> cardstoCheck == old(cardstoCheck) && Settles())
      ensures threw ==> Throws()
      ensures !threw ==> CenterFound(card, moves, possibleMoves, Unvisited())
    {
      if card.rank.value == 13 {
        moves, threw := GetKingCenterMoves(card);
      } else {
        moves, threw := MovesOntoTargets(card, CenterTargetsIn(cards, card));
      }
    }

    /** What `getCenterMoves` promises about the moves it finds for `card`, with `pm` the cache
        and `u` the unvisited identities: each is a Center move of `card`, aimed as its type
        says; a card below a King goes onto cards of the turn, to their piles, and onto every
        uncovered Center card it may go on; a King goes to every other empty Center pile with no
        target; and the moves are decided (`CenterDecided`, `KingDecided`). */
    ghost predicate CenterFound(card: Card, moves: seq<Move>, pm: map<(int, int), seq<Move>>, u: set<(int, int)>)
      reads board`piles, card, (set t | t in cards), (set m | m in moves), (set m | m in moves && m.targetCard != null :: m.targetCard)
      requires Complete(board.piles)
    {
      (forall m | m in moves :: m.card == card && m.moveType == ToCenter && WellTargeted(m)) &&
      (card.rank.value < 13 ==> forall m | m in moves ::
         m.targetCard != null && m.targetCard in cards && m.newStack == m.targetCard.stack) &&
      (card.rank.value < 13 ==> forall t | t in cards && CenterAimed(card, t) && t.nothingAbove && t.stackType == Center ::
         Aims(moves, t)) &&
      (card.rank.value == 13 ==>
         forall p | p in board.order && KindOf(p) == Center && p != PileOf(card.stack) && board.piles[p] == [] ::
           exists m :: m in moves && m.targetCard == null && m.moveType == ToCenter && m.newStack == Str(p)) &&
      CenterDecided(card, moves, pm, u) && KingDecided(card, moves, pm, u)
    }

    /** `m` moves `card` onto one of the turn's cards it may go on, to that card's pile. */
    predicate OntoCenter(card: Card, m: Move)
      reads m, m.targetCard
    {
      m.card == card && m.moveType == ToCenter && m.targetCard != null && CenterAimed(card, m.targetCard) &&
      m.targetCard in cards && m.newStack == m.targetCard.stack
    }

    /** The loop of `getCenterMoves` over the center targets. */
    method MovesOntoTargets(card: Card, targets: seq<Card>) returns (moves: seq<Move>, threw: bool)
      requires Valid() && InProgress(card)
      requires forall t | t in targets :: t in cards && CenterAimed(card, t)
      modifies this`possibleMoves, this`cardstoCheck, visited
      decreases Unvisited(), 5
      ensures Valid() && Grows() && (!threw ==> cardstoCheck == old(cardstoCheck) && Settles())
      ensures threw ==> Throws()
      ensures !threw ==> forall m | m in moves :: OntoCenter(card, m)
      ensures !threw ==> forall t | t in targets :: CenterProbed(t, Unvisited()) && (Aims(moves, t) <==> CenterAccepts(t, possibleMoves))
    {
      moves, threw := [], false;
      ghost var u0, pm0 := Unvisited(), possibleMoves;
      var i := 0;
      while i < |targets|
        invariant 0 <= i <= |targets|
        invariant Valid() && Grown(u0, pm0, Unvisited(), possibleMoves) && cardstoCheck == old(cardstoCheck)
        invariant InProgress(card) && Settled(u0, Unvisited(), possibleMoves, Sunk())
        invariant forall m | m in moves :: OntoCenter(card, m)
        invariant CentersUpTo(targets, i, moves, possibleMoves, Unvisited())
      {
        ghost var u1, pm1 := Unvisited(), possibleMoves;
        moves, threw := OntoNext(card, targets, i, moves);
        GrownTrans(u0, pm0, u1, pm1, Unvisited(), possibleMoves);
        if threw {
          return;
        }
        SettledTrans(u0, u1, pm1, Unvisited(), possibleMoves, Sunk());
        i := i + 1;
      }
      CentersAll(targets, moves, possibleMoves, Unvisited());
    }

    /** One pass of the loop of `getCenterMoves`: the move onto `targets[i]`, when kept, is
        appended to `moves`. */
    method OntoNext(card: Card, targets: seq<Card>, i: int, moves: seq<Move>) returns (next: seq<Move>, threw: bool)
      requires Valid() && InProgress(card) && 0 <= i < |targets|
      requires forall t | t in targets :: t in cards && CenterAimed(card, t)
      requires forall m | m in moves :: OntoCenter(card, m)
      requires CentersUpTo(targets, i, moves, possibleMoves, Unvisited())
      modifies this`possibleMoves, this`cardstoCheck, visited
      decreases Unvisited(), 4
      ensures Valid() && Grows() && (!threw ==> cardstoCheck == old(cardstoCheck) && Settles())
      ensures threw ==> Throws()
      ensures !threw ==> InProgress(card) && forall m | m in next :: OntoCenter(card, m)
      ensures !threw ==> CentersUpTo(targets, i + 1, next, possibleMoves, Unvisited())
    {
      ghost var u0, pm0 := Unvisited(), possibleMoves;
      label probing:
      var move;
      move, threw := CenterMoveOnto(card, targets[i]);
      next := moves;
      if !threw {
        OntoKept@probing(Answer(card, moves, false));
        CentersKept(targets, i, moves, u0, pm0, Unvisited(), possibleMoves);
        CentersStep(targets, i, moves, move, possibleMoves, Unvisited());
        next := if move != null then moves + [move] else moves;
      }
    }

    /** The Center moves found so far (`a.moves`) keep their targets while the search goes on. */
    twostate lemma OntoKept(a: Answer)
      requires unchanged(set m | m in a.moves) && unchanged(set c | c in cards)
      requires old(forall m | m in a.moves :: OntoCenter(a.card, m))
      ensures forall m | m in a.moves :: OntoCenter(a.card, m)
    {
    }

    /** One step of the loop of `getCenterMoves`: the move of `card` onto `target`, kept when the
        target is the uncovered top of a Center pile or can itself be moved. */
    method CenterMoveOnto(card: Card, target: Card) returns (move: Move?, threw: bool)
      requires Valid() && InProgress(card) && target in cards && CenterAimed(card, target)
      modifies this`possibleMoves, this`cardstoCheck, visited
      decreases Unvisited(), 3
      ensures Valid() && Grows() && (!threw ==> cardstoCheck == old(cardstoCheck) && Settles())
      ensures threw ==> Throws()
      ensures !threw && move != null ==> move.targetCard == target && OntoCenter(card, move)
      ensures target.nothingAbove && target.stackType == Center ==> !threw && move != null
      ensures CenterProbed(target, Unvisited()) && (!threw ==> (move != null <==> CenterAccepts(target, possibleMoves)))
    {
      var candidate := new Move(card, target, target.stack, ToCenter);
      if target.nothingAbove && target.stackType == Center {
        return candidate, false;
      }
      var movable;
      movable, threw := Probe(card, target, Of(ToCenter));
      move := if movable && !threw then candidate else null;
    }

    /** `getKingCenterMoves` with the pile filter it evidently intends: a King moves to each
        other Center pile that is empty, or whose bottom card can be moved. */
    method GetKingCenterMoves(card: Card) returns (moves: seq<Move>, threw: bool)
      requires Valid() && InProgress(card)
      modifies this`possibleMoves, this`cardstoCheck, visited
      decreases Unvisited(), 5
      ensures Valid() && Grows() && (!threw ==> cardstoCheck == old(cardstoCheck) && Settles())
      ensures threw ==> Throws()
      ensures !threw ==> forall m | m in moves ::
                m.card == card && m.moveType == ToCenter && m.targetCard == null && m.newStack.Str? &&
                m.newStack.pile in board.order && KindOf(m.newStack.pile) == Center && m.newStack.pile != PileOf(card.stack)
      ensures !threw ==> forall p | p in board.order && KindOf(p) == Center && p != PileOf(card.stack) && board.piles[p] == [] ::
                exists m :: m in moves && m.newStack == Str(p)
      ensures !threw ==> KingDecided(card, moves, possibleMoves, Unvisited())
    {
      var piles := KingPiles(board.order, card.stack);
      moves, threw := [], false;
      ghost var u0, pm0 := Unvisited(), possibleMoves;
      var i := 0;
      while i < |piles|
        invariant 0 <= i <= |piles|
        invariant Valid() && Grown(u0, pm0, Unvisited(), possibleMoves) && cardstoCheck == old(cardstoCheck)
        invariant InProgress(card) && Settled(u0, Unvisited(), possibleMoves, Sunk())
        invariant forall m | m in moves :: ToOneOf(card, m, piles)
        invariant KingsUpTo(piles, i, moves, possibleMoves, Unvisited())
      {
        ghost var u1, pm1 := Unvisited(), possibleMoves;
        moves, threw := KingNext(card, piles, i, moves);
        GrownTrans(u0, pm0, u1, pm1, Unvisited(), possibleMoves);
        if threw {
          return;
        }
        SettledTrans(u0, u1, pm1, Unvisited(), possibleMoves, Sunk());
        i := i + 1;
      }
      KingsAll(card, piles, moves, possibleMoves, Unvisited());
    }

    /** `m` moves the King `card` to one of `piles`, with no target card. */
    predicate ToOneOf(card: Card, m: Move, piles: seq<PileId>)
      reads m
    {
      m.card == card && m.moveType == ToCenter && m.targetCard == null && m.newStack.Str? && m.newStack.pile in piles
    }

    /** One pass of the loop of `getKingCenterMoves`: the move to `piles[i]`, when kept, is
        appended to `moves`. */
    method KingNext(card: Card, piles: seq<PileId>, i: int, moves: seq<Move>) returns (next: seq<Move>, threw: bool)
      requires Valid() && InProgress(card) && 0 <= i < |piles|
      requires forall m | m in moves :: ToOneOf(card, m, piles)
      requires KingsUpTo(piles, i, moves, possibleMoves, Unvisited())
      modifies this`possibleMoves, this`cardstoCheck, visited
      decreases Unvisited(), 4
      ensures Valid() && Grows() && (!threw ==> cardstoCheck == old(cardstoCheck) && Settles())
      ensures threw ==> Throws()
      ensures !threw ==> InProgress(card) && forall m | m in next :: ToOneOf(card, m, piles)
      ensures !threw ==> KingsUpTo(piles, i + 1, next, possibleMoves, Unvisited())
    {
      ghost var u0, pm0 := Unvisited(), possibleMoves;
      var move;
      move, threw := KingMoveTo(card, piles[i]);
      next := moves;
      if !threw {
        KingsKept(piles, i, moves, u0, pm0, Unvisited(), possibleMoves);
        KingsStep(piles, i, moves, move, possibleMoves, Unvisited());
        if move != null {
          assert move in moves + [move];
          next := moves + [move];
        }
      }
    }

    /** One step of the loop of `getKingCenterMoves`: the move of the King to `pile`, kept when
        the pile is empty or its bottom card can be moved. */
    method KingMoveTo(card: Card, pile: PileId) returns (move: Move?, threw: bool)
      requires Valid() && InProgress(card)
      modifies this`possibleMoves, this`cardstoCheck, visited
      decreases Unvisited(), 3
      ensures Valid() && Grows() && (!threw ==> cardstoCheck == old(cardstoCheck) && Settles())
      ensures threw ==> Throws()
      ensures !threw && move != null ==>
                move.card == card && move.targetCard == null && move.moveType == ToCenter && move.newStack == Str(pile)
      ensures board.piles[pile] == [] ==> !threw && move != null
      ensures KingProbed(pile, Unvisited()) && (!threw ==> (move != null <==> KingAccepts(pile, possibleMoves)))
    {
      var candidate := new Move(card, null, Str(pile), ToCenter);
      if board.piles[pile] == [] {
        return candidate, false;
      }
      OnBoard(pile, board.piles[pile][0]);
      var movable;
      movable, threw := Probe(card, board.piles[pile][0], Both);
      move := if movable && !threw then candidate else null;
    }

    /** `getMoves`: the critical cards of `cards` are appended to `criticalCards`, and the search
        runs from each critical card in turn. When no card was under examination, every critical
        card ends visited; when the search was at rest, it is at rest again, and with one card
        per identity every critical card of `cards` has an entry that keeps the search's
        promises. */
    method GetMoves() returns (threw: bool)
      requires Valid() && forall c | c in criticalCards :: c in cards
      modifies this`criticalCards, this`possibleMoves, this`cardstoCheck, visited
      ensures criticalCards == old(criticalCards) + CriticalOf(cards)
      ensures Valid() && Grows() && (!threw ==> cardstoCheck == old(cardstoCheck) && Settles())
      ensures threw ==> Throws()
      ensures !threw && old(cardstoCheck) == [] ==> forall c | c in criticalCards :: Cell(c) !in Unvisited()
      ensures !threw && old(Quiet()) ==> Quiet()
      ensures !threw && old(Quiet()) && UniqueIds(cards) ==>
                forall c | c in CriticalOf(cards) :: Cell(c) in possibleMoves && Offered(c, possibleMoves[Cell(c)], possibleMoves)
    {
      var added := CriticalOf(cards);
      criticalCards := criticalCards + added;
      ghost var u0, pm0 := Unvisited(), possibleMoves;
      threw := SearchCritical();
      CardsKept();
      if !threw && old(Quiet()) {
        SettledTrans(Cells, u0, pm0, Unvisited(), possibleMoves, Sunk());
        AllCriticalCached();
      }
    }

    /** Building a move changes neither the turn, nor its table, board or cards. */
    twostate lemma HeapKept()
      requires old(Valid()) && unchanged(this, visited, board) && unchanged(set c | c in cards)
      ensures Valid() && Unvisited() == old(Unvisited()) && Sunk() == old(Sunk())
    {
    }

    /** Whether a card is blocked, and by which card, stays so while the board is unchanged. */
    twostate lemma PlaceKept(card: Card)
      requires old(Complete(board.piles)) && unchanged(board, card)
      ensures Unblocked(card) == old(Unblocked(card)) && Above(card) == old(Above(card))
    {
    }

    /** The search changes no card, so the critical cards stay those of the start. */
    twostate lemma CardsKept()
      requires unchanged(set c | c in cards)
      ensures CriticalOf(cards) == old(CriticalOf(cards)) && Sunk() == old(Sunk())
    {
    }

    /** Once the search is at rest with every critical card of `cards` visited, each of them has
        an entry that keeps the search's promises, when the cards have one card per identity. */
    lemma AllCriticalCached()
      requires Valid() && Quiet() && forall c | c in CriticalOf(cards) :: Cell(c) !in Unvisited()
      ensures UniqueIds(cards) ==>
                forall c | c in CriticalOf(cards) :: Cell(c) in possibleMoves && Offered(c, possibleMoves[Cell(c)], possibleMoves)
    {
      if UniqueIds(cards) {
        forall c | c in CriticalOf(cards)
          ensures Cell(c) in possibleMoves && Offered(c, possibleMoves[Cell(c)], possibleMoves)
        {
          CriticalCached(c);
        }
      }
    }

    /** The loop of `getMoves`: the search runs from each critical card in turn, and afterwards
        every critical card is visited. */
    method SearchCritical() returns (threw: bool)
      requires Valid() && forall c | c in criticalCards :: c in cards
      modifies this`possibleMoves, this`cardstoCheck, visited
      ensures Valid() && Grows() && (!threw ==> cardstoCheck == old(cardstoCheck) && Settles())
      ensures threw ==> Throws()
      ensures !threw ==> forall c | c in criticalCards :: Cell(c) !in Unvisited()
    {
      threw := false;
      ghost var u0, pm0 := Unvisited(), possibleMoves;
      var i := 0;
      while i < |criticalCards|
        invariant 0 <= i <= |criticalCards|
        invariant Valid() && Grown(u0, pm0, Unvisited(), possibleMoves) && cardstoCheck == old(cardstoCheck)
        invariant Settled(u0, Unvisited(), possibleMoves, Sunk())
        invariant VisitedUpTo(criticalCards, i, Unvisited())
      {
        ghost var u1, pm1 := Unvisited(), possibleMoves;
        threw := SearchFrom(criticalCards[i]);
        GrownTrans(u0, pm0, u1, pm1, Unvisited(), possibleMoves);
        if threw {
          return;
        }
        SettledTrans(u0, u1, pm1, Unvisited(), possibleMoves, Sunk());
        StillVisited(criticalCards, i, u1, Unvisited());
        i := i + 1;
      }
      VisitedAll(criticalCards, Unvisited());
    }

    /** One step of the loop of `getMoves`: `getMovesForCard` on a critical card, which is
        visited afterwards. */
    method SearchFrom(card: Card) returns (threw: bool)
      requires Valid() && card in cards
      modifies this`possibleMoves, this`cardstoCheck, visited
      ensures Valid() && Grows() && (!threw ==> cardstoCheck == old(cardstoCheck) && Settles())
      ensures threw ==> Throws()
      ensures !threw ==> Cell(card) !in Unvisited()
    {
      var moves;
      moves, threw := GetMovesForCard(card);
      VisitedCell(card);
    }

    /** `getMoves` as a new turn runs it: afterwards, when the cards have one card per identity,
        every playable critical card has a move whose target is absent or free. */
    method Examine() returns (threw: bool)
      requires Valid() && Quiet() && criticalCards == []
      modifies this`criticalCards, this`possibleMoves, this`cardstoCheck, visited
      ensures criticalCards == CriticalOf(cards) && CacheAimed() && Complete(board.piles)
      ensures threw ==> Throws()
      ensures !threw && UniqueIds(cards) ==>
                forall c | c in criticalCards && Playable(c) :: exists m :: m in GetPossibleMoves(c, Both) && FreeTarget(m)
    {
      threw := GetMoves();
      if !threw && UniqueIds(cards) {
        forall c | c in criticalCards && Playable(c)
          ensures exists m :: m in GetPossibleMoves(c, Both) && FreeTarget(m)
        {
          PlayableMove(c);
        }
      }
    }

    /** A critical card the search expanded while at rest has its entry: it is face up, and no
        other card has its identity. */
    lemma CriticalCached(c: Card)
      requires Valid() && Quiet() && UniqueIds(cards) && c in cards && IsCritical(c) && Cell(c) !in Unvisited()
      ensures Cell(c) in possibleMoves && Offered(c, possibleMoves[Cell(c)], possibleMoves)
    {
      assert Cell(c) in Cells;
      if Cell(c) !in possibleMoves {
        assert Cell(c) in Sunk();
        var d :| d in cards && d.stackType == Center && d.facedown && Cell(d) == Cell(c);
        SameId(cards, c, d);
        assert false;
      }
      assert KeptIn(c, possibleMoves);
    }

    /** `getMoveChainsForCard`: a chain for each possible move of the card. A move whose target
        is free (or that has none) is a chain by itself; otherwise each chain that frees the
        target is followed by the card's own move onto it. Every chain is non-empty, starts with
        a move that needs nothing else first, and ends with a move of the requested card. */
    method GetMoveChainsForCard(card: Card, t: TargetType, ghost free: set<Move>) returns (chains: seq<seq<Move>>)
      requires CacheAimed()
      requires forall m | m in GetPossibleMoves(card, t) :: FreeTarget(m) <==> m in free
      decreases ChainMeasure(card, t), 2
      ensures forall ch | ch in chains :: ch != [] && Last(ch).card.Matches(card) && FreeTarget(ch[0])
      ensures forall m | m in GetPossibleMoves(card, t) && FreeTarget(m) :: [m] in chains
      ensures Covers(GetPossibleMoves(card, t), free, chains)
    {
      var possible := GetPossibleMoves(card, t);
      chains := FollowPossible(card, t, possible, free);
    }

    /** The loop of `getMoveChainsForCard` over the card's possible moves: a move whose target
        is free becomes a chain by itself; any other move is reached through
        the chains that free its target. */
    method FollowPossible(card: Card, t: TargetType, possible: seq<Move>, ghost free: set<Move>)
      returns (chains: seq<seq<Move>>)
      requires CacheAimed() && possible == GetPossibleMoves(card, t)
      requires forall m | m in possible :: FreeTarget(m) <==> m in free
      decreases ChainMeasure(card, t), 1
      ensures forall ch | ch in chains :: ch != [] && Last(ch).card.Matches(card) && FreeTarget(ch[0])
      ensures forall m | m in possible :: FreeTarget(m) <==> m in free
      ensures Covers(possible, free, chains)
    {
      CachedMoves(card, t);
      chains := [];
      for i := 0 to |possible|
        invariant forall ch | ch in chains :: ch != [] && Last(ch).card.Matches(card) && FreeTarget(ch[0])
        invariant SinglesUpTo(possible, free, chains, i)
        invariant forall m | m in possible :: FreeTarget(m) <==> m in free
      {
        var possibleMove := possible[i];
        assert possibleMove in possible;
        if possibleMove.targetCard == null || possibleMove.targetCard.nothingAbove {
          assert Last([possibleMove]) == possibleMove && possibleMove.card.Matches(card);
          SinglesStep(possible, free, chains, [[possibleMove]], i);
          chains := chains + [[possibleMove]];
        } else {
          assert possibleMove !in free;
          var extended := ChainsThrough(card, t, possibleMove, free, chains);
          SinglesStep(possible, free, chains, extended, i);
          chains := chains + extended;
        }
      }
      forall m | m in possible && m in free ensures [m] in chains {
        var j :| 0 <= j < |possible| && possible[j] == m;
        assert SinglesUpTo(possible, free, chains, |possible|);
      }
      assert Covers(possible, free, chains);
    }

    /** The `else` branch of `getMoveChainsForCard`: the chains that free the target of
        `possibleMove`, each followed by the card's own move onto it. */
    method ChainsThrough(card: Card, t: TargetType, possibleMove: Move, ghost free: set<Move>, ghost earlier: seq<seq<Move>>)
      returns (extended: seq<seq<Move>>)
      requires CacheAimed() && possibleMove in GetPossibleMoves(card, t) && possibleMove.targetCard != null
      requires forall m | m in GetPossibleMoves(card, t) :: FreeTarget(m) <==> m in free
      requires forall ch | ch in earlier :: ch != [] && FreeTarget(ch[0])
      decreases ChainMeasure(card, t), 0
      ensures forall ch | ch in extended :: ch != [] && Last(ch).card.Matches(card) && FreeTarget(ch[0])
      ensures forall m | m in GetPossibleMoves(card, t) :: FreeTarget(m) <==> m in free
      ensures forall ch | ch in earlier :: FreeTarget(ch[0])
    {
      assert forall ch: seq<Move> | ch in earlier :: allocated(ch[0].targetCard);
      CachedMoves(card, t);
      assert forall m | m in GetPossibleMoves(card, t) :: allocated(m.targetCard);
      ghost var targetFree := set m | m in GetPossibleMoves(possibleMove.targetCard, Of(possibleMove.moveType)) && FreeTarget(m);
      var required := GetMoveChainsForCard(possibleMove.targetCard, Of(possibleMove.moveType), targetFree);
      assert forall k | 0 <= k < |required| :: required[k] in required;
      extended := FollowEach(card, possibleMove, required);
      forall ch | ch in extended
        ensures ch != [] && Last(ch).card.Matches(card) && FreeTarget(ch[0])
      {
        var k :| 0 <= k < |extended| && extended[k] == ch;
        assert required[k] in required;
        assert ch[0] == required[k][0];
      }
    }

    /** The `map` of `getMoveChainsForCard`: each chain followed by a new move of `card` onto the
        target of `possibleMove`, to the pile the chain's last move goes to. */
    method FollowEach(card: Card, possibleMove: Move, required: seq<seq<Move>>) returns (extended: seq<seq<Move>>)
      requires forall k | 0 <= k < |required| :: required[k] != []
      ensures |extended| == |required|
      ensures forall k | 0 <= k < |required| ::
                |extended[k]| == |required[k]| + 1 && extended[k][..|required[k]|] == required[k] &&
                Last(extended[k]).card == card && Last(extended[k]).targetCard == possibleMove.targetCard &&
                Last(extended[k]).moveType == possibleMove.moveType &&
                Last(extended[k]).newStack == Last(required[k]).newStack
    {
      extended := [];
      for k := 0 to |required|
        invariant |extended| == k
        invariant forall j | 0 <= j < k ::
          |extended[j]| == |required[j]| + 1 && extended[j][..|required[j]|] == required[j] &&
          Last(extended[j]).card == card && Last(extended[j]).targetCard == possibleMove.targetCard &&
          Last(extended[j]).moveType == possibleMove.moveType &&
          Last(extended[j]).newStack == Last(required[j]).newStack
      {
        var moveChain := required[k];
        var lastMove := moveChain[|moveChain| - 1];
        var newMove := new Move(card, possibleMove.targetCard, lastMove.newStack, possibleMove.moveType);
        var next := moveChain + [newMove];
        assert next[..|moveChain|] == moveChain;
        extended := extended + [next];
      }
    }

    /** A chain that ends with a move of one of the critical cards. */
    predicate EndsOnCritical(chain: seq<Move>)
      reads this`criticalCards
    {
      EndsOnOneOf(chain, criticalCards)
    }

    /** `getMoveChains`: the chains of every critical card, appended to `moveChains` in order;
        each possible move of a critical card whose target is free is a chain of its own. */
    method GetMoveChains()
      requires CacheAimed()
      modifies this`moveChains
      ensures |moveChains| >= |old(moveChains)| && moveChains[..|old(moveChains)|] == old(moveChains)
      ensures forall k | |old(moveChains)| <= k < |moveChains| :: EndsOnCritical(moveChains[k])
      ensures forall c, m | c in criticalCards && m in GetPossibleMoves(c, Both) && old(FreeTarget(m)) :: [m] in moveChains
      ensures Complete(board.piles) && (exists c | c in criticalCards :: Playable(c)) &&
              old(forall c | c in criticalCards && Playable(c) :: exists m :: m in GetPossibleMoves(c, Both) && FreeTarget(m))
              ==> |moveChains| > |old(moveChains)|
    {
      var found := CriticalChains();
      ChainsJoined(moveChains, found, criticalCards, |moveChains|);
      moveChains := moveChains + found;
    }

    /** The chains `getMoveChains` appends: those of every critical card, in order. */
    method CriticalChains() returns (found: seq<seq<Move>>)
      requires CacheAimed()
      ensures forall k | 0 <= k < |found| :: EndsOnOneOf(found[k], criticalCards)
      ensures forall c, m | c in criticalCards && m in GetPossibleMoves(c, Both) && FreeTarget(m) :: [m] in found
      ensures Complete(board.piles) && (exists c | c in criticalCards :: Playable(c)) &&
              (forall c | c in criticalCards && Playable(c) :: exists m :: m in GetPossibleMoves(c, Both) && FreeTarget(m))
              ==> found != []
    {
      ghost var crit, pm := criticalCards, possibleMoves;
      ghost var moves := seq(|crit|, j requires 0 <= j < |crit| => CardMoves(pm, crit[j]));
      ghost var free := set j, m | 0 <= j < |moves| && m in moves[j] && FreeTarget(m) :: m;
      found := ChainsOfCritical(moves, free);
      forall c, m | c in criticalCards && m in GetPossibleMoves(c, Both) && FreeTarget(m) ensures [m] in found {
        var j :| 0 <= j < |criticalCards| && criticalCards[j] == c;
        assert GetPossibleMoves(c, Both) == moves[j] && m in free;
      }
      if Complete(board.piles) && (exists c | c in criticalCards :: Playable(c)) &&
         forall c | c in criticalCards && Playable(c) :: exists m :: m in GetPossibleMoves(c, Both) && FreeTarget(m)
      {
        FoundForPlayable(found);
      }
    }

    /** A playable critical card with a move whose target is absent or free has that move among
        `found` as a chain of its own, so `found` is not empty. */
    lemma FoundForPlayable(found: seq<seq<Move>>)
      requires forall c, m | c in criticalCards && m in GetPossibleMoves(c, Both) && FreeTarget(m) :: [m] in found
      requires Complete(board.piles) && exists c | c in criticalCards :: Playable(c)
      requires forall c | c in criticalCards && Playable(c) :: exists m :: m in GetPossibleMoves(c, Both) && FreeTarget(m)
      ensures found != []
    {
      var c :| c in criticalCards && Playable(c);
      var m :| m in GetPossibleMoves(c, Both) && FreeTarget(m);
      assert [m] in found;
    }

    /** The loop of `getMoveChains`: the chains of each critical card in turn, with the moves of
        each (`moves`) that are `free` among them as chains of their own. */
    method ChainsOfCritical(ghost moves: seq<seq<Move>>, ghost free: set<Move>) returns (found: seq<seq<Move>>)
      requires CacheAimed() && |moves| == |criticalCards|
      requires forall j | 0 <= j < |moves| :: moves[j] == GetPossibleMoves(criticalCards[j], Both)
      requires forall j, m | 0 <= j < |moves| && m in moves[j] :: FreeTarget(m) <==> m in free
      ensures forall k | 0 <= k < |found| :: EndsOnOneOf(found[k], criticalCards)
      ensures forall j, m | 0 <= j < |moves| && m in moves[j] && m in free :: [m] in found
    {
      found := [];
      for i := 0 to |criticalCards|
        invariant forall k | 0 <= k < |found| :: EndsOnOneOf(found[k], criticalCards)
        invariant forall j | 0 <= j < i :: Covers(moves[j], free, found)
        invariant forall j, m | 0 <= j < |moves| && m in moves[j] :: FreeTarget(m) <==> m in free
      {
        var critCard := criticalCards[i];
        var chains := ChainsKeepingFree(critCard, moves, i, free);
        ChainsAppended(found, chains, criticalCards, critCard, 0);
        forall j | 0 <= j < i + 1 ensures Covers(moves[j], free, found + chains) {
          CoversJoin(moves[j], free, found, chains);
        }
        found := found + chains;
      }
      forall j, m | 0 <= j < |moves| && m in moves[j] && m in free ensures [m] in found {
        assert Covers(moves[j], free, found);
      }
    }

    /** `getMoveChainsForCard` for the `i`-th critical card, which leaves every card as it was,
        so the moves judged free before are free after. */
    method ChainsKeepingFree(critCard: Card, ghost moves: seq<seq<Move>>, ghost i: int, ghost free: set<Move>)
      returns (chains: seq<seq<Move>>)
      requires CacheAimed() && 0 <= i < |moves| && moves[i] == GetPossibleMoves(critCard, Both)
      requires forall j, m | 0 <= j < |moves| && m in moves[j] :: FreeTarget(m) <==> m in free
      ensures forall ch | ch in chains :: ch != [] && Last(ch).card.Matches(critCard)
      ensures Covers(moves[i], free, chains)
      ensures forall j, m | 0 <= j < |moves| && m in moves[j] :: FreeTarget(m) <==> m in free
    {
      assert forall j, m: Move | 0 <= j < |moves| && m in moves[j] :: allocated(m.targetCard);
      chains := GetMoveChainsForCard(critCard, Both, free);
    }

    /** `hasPossibleMoves`: some chain was found. */
    function HasPossibleMoves(): (r: bool)
      reads this`moveChains
      ensures r <==> exists ch :: ch in moveChains
    {
      assert moveChains != [] ==> moveChains[0] in moveChains;
      |moveChains| > 0
    }

    /** A card with a move that needs no other move first: an Ace nothing blocks, a card with an
        uncovered Center target on a Center pile, or a King with an empty Center pile besides
        its own. */
    ghost predicate Playable(card: Card)
      reads card, board`piles, (set t | t in cards)
      requires Complete(board.piles)
    {
      (card.rank.value == 1 && Unblocked(card)) ||
      (card.rank.value < 13 && exists t | t in cards :: CenterAimed(card, t) && t.nothingAbove && t.stackType == Center) ||
      (card.rank.value == 13 &&
         exists p | p in board.order :: KindOf(p) == Center && p != PileOf(card.stack) && board.piles[p] == [])
    }

    /** A playable card whose entry keeps the search's promises has a possible move whose
        target is free. */
    lemma PlayableMove(card: Card)
      requires Complete(board.piles) && Cell(card) in possibleMoves && Playable(card)
      requires Offered(card, possibleMoves[Cell(card)], possibleMoves)
      ensures exists m :: m in GetPossibleMoves(card, Both) && FreeTarget(m)
    {
      var found := possibleMoves[Cell(card)];
      assert GetPossibleMoves(card, Both) == found;
      if card.rank.value == 1 && Unblocked(card) {
        var m :| m in found && m.moveType == ToWin && m.targetCard == null;
        assert FreeTarget(m);
      } else if card.rank.value < 13 {
        var t :| t in cards && CenterAimed(card, t) && t.nothingAbove && t.stackType == Center;
        var m :| m in found && m.targetCard == t;
        assert FreeTarget(m);
      } else {
        var m :| m in found && m.targetCard == null && m.moveType == ToCenter;
        assert FreeTarget(m);
      }
    }
  }
}

=== FILE: wrappers.dfy ===
/** Optional values: `null`/`undefined` in the TypeScript draft, `None` in the Python draft. */
module Wrappers {

  datatype Option<+T> = None | Some(value: T)
}
